=== FILE: README.md ===
# agent-orchestrator in Dafny

A model of the orchestration pipeline of `agent-orchestrator`. A planner
agent writes a plan. Then, for up to `MAX_ROUNDS` rounds, an implementer
agent changes the workspace and a reviewer agent judges the change. The
reviewer's verdict, action and fix list decide whether the loop passes,
skips, is stuck, or goes on. At the end a tech writer is handed the decision
when it passed or asks for documentation.

The model covers:

- **Review policies** (`policies.py`): parsing a review, normalising it, and
  the stuck test that compares two reviews.
- **Effective emptiness** of context documents (`utils.py`).
- **The sandboxed file tools** (`tools_fs.py`):
  - path resolution confined to a base directory;
  - the write permission checks;
  - directory listing;
  - the tool events each call logs.
- **The shell tool** (`tools_shell.py`):
  - the install and escape blocklists, written out as explicit matchers for
    the regular expressions;
  - output truncation;
  - the payload and event of one `run_cmd` call.
- **The helpers of `main.py`**:
  - prompt and diff truncation;
  - the docs-update test;
  - the tool-output summary;
  - command metadata;
  - the workspace diff assembled from git's answers;
  - `_safe_run`'s retry loop with exponential back-off.
- **The round loop of `main`**: the final verdict and action, the stuck and
  `max_rounds` outcomes, and the tech-writer handoff.
- **`greet`** of the sample workspace, with its unit tests as lemmas.

Everything the pipeline gets from outside is an input of the model:

- **Agents.** Each agent run is an abstract outcome: output or error.
  - A `Pipeline` gives the planner's run, each round's implementer and
    reviewer runs, and the tech writer's run on the decision it is handed.
  - `_safe_run` is modelled separately, over an abstract sequence of
    attempt outcomes: success, retryable error or fatal error.
- **Git.** Each git command is a given `CmdResult`.
- **Subprocess.** The process run by `run_cmd` is a given `Process`:
  completed or timed out, with the partial output taken as text.
- **File system.** A map from resolved paths to files and directories.

The round loop is generic over `ReviewRules`, a parser paired with a stuck
test. Its lemmas hold for any rules that keep the review text as `raw`.
`Orchestrate` instantiates it with `parse_reviewer_output` and `is_stuck`,
which is what `main` does.

Files and modules:

| File | Module |
|---|---|
| `common.dfy` | `Common`: Option/Result |
| `text.dfy` | `Text`: Python string operations on ASCII whitespace |
| `sorting.dfy` | `Sorting` |
| `policies.dfy` | `Policies` |
| `utils.dfy` | `Utils` |
| `greeter.dfy` | `Greeter` |
| `context.dfy` | `Context`: the run context and tool events |
| `tools_fs.dfy` | `ToolsFs` |
| `tools_shell.dfy` | `ToolsShell` |
| `main_helpers.dfy` | `MainHelpers` |
| `diff.dfy` | `Diff` |
| `retry.dfy` | `Retry` |
| `orchestrator.dfy` | `Orchestrator` |

## Model

| member | source | states |
|---|---|---|
| Greeter.Greet | workspace/app/greeter.py:1-6 | Every greeting is `Hello, ` + a non-blank name + `!`. |
| Greeter.GreetRecoversName | workspace/app/greeter.py:3-6 | For a non-blank name, the text between `Hello, ` and `!` is exactly the name stripped of surrounding whitespace. |
| Greeter.GreetBlank | workspace/app/greeter.py:4-5 | Every blank name, whatever its whitespace, is greeted as `stranger`. |
| Greeter.GreetIgnoresOuterWhitespace | workspace/app/greeter.py:3 | Greeting a name and greeting it stripped give the same text. |
| Greeter.GreetPadded | workspace/app/greeter.py:3 | Blank padding added on either side of any name leaves the greeting unchanged. |
| Greeter.GreetAlice | workspace/tests/test_greeter.py:4-5 | `Alice` is greeted as `Hello, Alice!`. |
| Greeter.GreetBob | workspace/tests/test_greeter.py:8-9 | `  Bob  ` is greeted as `Hello, Bob!`. |
| Greeter.GreetEmptyAndSpaces | workspace/tests/test_greeter.py:12-17 | The empty name and a name of three spaces both get `Hello, stranger!`. |
| Utils.IsEffectivelyEmpty | orchestrator/utils.py:18-27 | A text is effectively empty exactly when none of its stripped lines is content: non-empty, not a `#` comment, and not `TODO` in any case. |
| Utils.ContentLines | orchestrator/utils.py:21-27 | The filtered list is empty exactly when no line is content. |
| Utils.AppendNoise | orchestrator/utils.py:18-27 | Appending lines without content never changes the answer. |
| Utils.PlaceholdersOnly | orchestrator/utils.py:22-27 | A text whose lines are all blank, comments or `TODO` placeholders is effectively empty. |
| Utils.ContentLineWitness | orchestrator/utils.py:22-27 | One content line anywhere makes the text non-empty. |
| Policies.StrippedLinesClean | orchestrator/policies.py:96-97 | Every line the normaliser keeps is non-empty, stripped and free of line feeds. |
| Policies.NormalizeIdempotent | orchestrator/policies.py:96-97 | Normalising a normalised review changes nothing. |
| Policies.NormalizeEqIff | orchestrator/policies.py:96-97 | Two reviews normalise to the same text exactly when their stripped non-blank lines agree, in both directions. |
| Policies.IsStuck | orchestrator/policies.py:117-120 | Nothing is stuck without a previous review. Otherwise the round is stuck exactly when both reviews have the same stripped non-blank lines. |
| Policies.WhitespaceOnlyChangeIsStuck | orchestrator/policies.py:117-120 | A review that only gains a blank line or leading whitespace counts as a repeat. |
| Policies.ParseReviewerOutput | orchestrator/policies.py:100-114 | The parse is stated against a line-by-line reference fold over the stripped non-blank lines, not the loop:<br>• verdict: the last `VERDICT:` value, else `FAIL`;<br>• action: the last `ACTION:` value, else `CONTINUE`;<br>• fixes: every `-` line's item, in order;<br>• raw: the text itself. |
| Policies.ParseLoopSpec | orchestrator/policies.py:104-113 | The parser's loop equals the reference fold over the stripped non-blank lines from any starting state. |
| Policies.ParseDefaults | orchestrator/policies.py:101-102 | Without any `VERDICT:` or `ACTION:` line the decision is FAIL/CONTINUE. |
| Policies.KeyLineColon | orchestrator/policies.py:108-111 | On a key line, the first colon is the one that ends the key. So the value is the text after `VERDICT:` or `ACTION:`. |
| Policies.VerdictValueAfterKey | orchestrator/policies.py:108-109 | The verdict is the text after `VERDICT:`, stripped and upper-cased. |
| Policies.LStripDashSpace | orchestrator/policies.py:112-113 | `lstrip("- ")` leaves no leading `-` or space. |
| Policies.LStripSuffix | orchestrator/policies.py:112-113 | What `lstrip("- ")` keeps is a suffix of the line, never longer than it. |
| Policies.LStripDropsDashSpace | orchestrator/policies.py:112-113 | Every character `lstrip("- ")` drops is a dash or a space. |
| Policies.FixItemStripped | orchestrator/policies.py:112-113 | The stored fix item is the stripped remainder: no surrounding whitespace, and empty exactly when only whitespace follows the leading dashes and spaces. |
| Policies.FixItemMayStartWithDash | orchestrator/policies.py:112-113 | The stored item can start with `-` again: for `-\t-x` a tab stops `lstrip`, and stripping it leaves `-x`. |
| Policies.StuckReviewsParseAlike | orchestrator/policies.py:100-120 | Two reviews judged stuck parse to the same verdict, action and fixes. |
| MainHelpers.CutWithMarker | orchestrator/main.py:45-50 | A non-positive limit gives nothing, and text within the limit is kept whole. Longer text is cut to a prefix that ends in a non-space, only whitespace is dropped up to the limit, and the marker is appended. |
| MainHelpers.CutKeepsRstrippedPrefix | orchestrator/main.py:50 | A cut text is the first `limit` characters, right-stripped, followed by the marker. |
| MainHelpers.TruncateForPrompt | orchestrator/main.py:45-50 | The prompt truncation keeps a prefix of the text within the limit and ends with the section's marker whenever it cuts. |
| MainHelpers.TruncateDiff | orchestrator/main.py:155-160 | The same shape holds for `_truncate`, with its own marker. |
| MainHelpers.TruncatorsAgreeOnShort | orchestrator/main.py:155-160 | Both truncators return the same text when nothing has to be cut. |
| MainHelpers.AnyDocsFix | orchestrator/main.py:126-127 | The docs test holds exactly when some fix, stripped and upper-cased, starts with `DOCS:`. |
| MainHelpers.NeedsDocsUpdate | orchestrator/main.py:126-127 | A decision needs a docs update exactly when one of its fixes is a docs fix. |
| MainHelpers.DocsFixesAppend | orchestrator/main.py:127 | For concatenated fix lists, the test is the disjunction of the two parts. |
| MainHelpers.DocsFixExample | orchestrator/main.py:127 | ` docs: x` asks for docs: leading space and case do not matter. |
| MainHelpers.NotDocsFixExample | orchestrator/main.py:127 | `fix docs` does not ask for docs: the prefix must come first. |
| MainHelpers.StderrSnippet | orchestrator/main.py:146-149 | The snippet keeps short stderr whole. Longer stderr becomes its first 400 characters plus the truncation mark. |
| MainHelpers.CommandEntry | orchestrator/main.py:142-149 | A command's first line starts with `- `, the stripped command and ` -> `. It ends with ` (BLOCKED)` exactly when the command was refused. A second line follows exactly when the stripped stderr is non-empty, and it is `  stderr: ` plus that stderr's snippet. |
| MainHelpers.CommandEntryStatus | orchestrator/main.py:142-145 | Between the arrow and the tag, the first line holds the exit status in decimal. A non-negative status reads back as the same number. |
| MainHelpers.FormatToolOutputs | orchestrator/main.py:130-152 | The summary is `- None` exactly when no write and no command happened. With writes only it is the files section; with commands only it is the commands section. With both, the files section comes first, then a line feed, then the commands section. Each section is its header followed by its entries in event order. |
| MainHelpers.WriteLinesPresent | orchestrator/main.py:135-138 | The file list is non-empty exactly when some event is a write. |
| MainHelpers.CommandLinesPresent | orchestrator/main.py:139-149 | The command list is non-empty exactly when some event is a command. |
| MainHelpers.SummaryIgnoresReads | orchestrator/main.py:131-132 | Removing a read or list event anywhere leaves the summary unchanged. |
| MainHelpers.WriteAppendsEntry | orchestrator/main.py:135-138 | A later write adds exactly one `- path` line at the end and no command line. |
| MainHelpers.CommandAppendsText | orchestrator/main.py:130-152 | A further command event adds its lines at the very end of the summary. If no command came before, it first opens `COMMAND_RESULTS:` after the files section, or replaces `- None`. |
| MainHelpers.WriteAppendsText | orchestrator/main.py:130-152 | A further write adds `- path` at the end of the files section, opening `FILES_WRITTEN:` if needed. That is the end of the summary when no command was run; otherwise the unchanged commands section follows it. |
| MainHelpers.Preview | orchestrator/main.py:195-200 | The truncation flag is set exactly when the text exceeds the limit. The preview is then the first `limit` characters plus the mark, and otherwise the text itself. |
| MainHelpers.MakeCmdMeta | orchestrator/main.py:194-215 | The metadata carries the command, the return code and the true lengths. Each stream's truncation flag is set exactly when its length exceeds 800. Untruncated streams are kept verbatim; a cut stream is stored as its first 800 characters followed by `...<truncated>`. |
| MainHelpers.CmdMetaBounded | orchestrator/main.py:194-215 | Stored previews never exceed 800 characters plus the mark. |
| Sorting.SortSeq | orchestrator/main.py:255 | The result is sorted by code point and is a permutation of the input. |
| Sorting.SortSet | orchestrator/tools_fs.py:78 | The listing is sorted, has no duplicates, and holds exactly the set's names. |
| Diff.UntrackedFiles | orchestrator/main.py:255 | The untracked files are a sorted permutation of the listing's stripped non-blank lines. |
| Diff.Section | orchestrator/main.py:239-241 | A part exists exactly when the command's output is non-blank. It is then the header followed by the right-stripped output. |
| Diff.PatchSections | orchestrator/main.py:257-268 | There is one `# NEW FILE` part per file whose patch is non-blank, and no other. |
| Diff.PatchSectionAt | orchestrator/main.py:257-268 | The k-th `# NEW FILE` part is the header followed by the right-stripped patch of the k-th file whose patch is non-blank. |
| Diff.ShownFilesMembers | orchestrator/main.py:257-268 | A file gets a part exactly when it is untracked and its patch is non-blank. |
| Diff.ShownFilesSorted | orchestrator/main.py:255-268 | The files that get a part appear in sorted order. |
| Diff.ComputeWorkspaceDiff | orchestrator/main.py:218-272 | git counts as available exactly when the probe answers `true`, and the probe's record always comes first. Without git the diff is `- None` with that one record. With git there are four records plus one per untracked file. |
| Diff.DiffShape | orchestrator/main.py:269-272 | When there is something to show, the text starts with the first part and ends in a single line feed after a non-space. |
| Diff.DiffText | orchestrator/main.py:237-272 | With git available and something to show, the text is exactly the parts joined by blank lines, plus one line feed. The parts come in this order: the status, the tracked diff, then the untracked files' parts. |
| Diff.NoDiffIff | orchestrator/main.py:229-272 | The diff is `- None` exactly when git is unavailable or no part is non-blank. |
| Diff.StatusFirst | orchestrator/main.py:237-241 | A non-blank status makes the diff start with the status header. |
| Diff.CleanTreeNoDiff | orchestrator/main.py:237-270 | With git available but blank status, tracked diff and untracked listing, the diff is `- None`. |
| Diff.PatchCommandsFollowSortedFiles | orchestrator/main.py:255-264 | The record after the four fixed ones, at position 4+i, is the patch for the i-th untracked file in sorted order. |
| Retry.Delay | orchestrator/main.py:357-359 | The back-off is at most the maximum delay and at most `base * 2^(attempt-1)`, and it equals one of the two. So it is exactly their minimum. |
| Retry.DelayMonotone | orchestrator/main.py:357-359 | Later attempts never wait less than earlier ones. |
| Retry.DelayDoubles | orchestrator/main.py:357-359 | Below the cap, each delay doubles the previous one. |
| Retry.Loop | orchestrator/main.py:325-369 | The attempt loop keeps an error record per failed attempt, with the right attempt numbers, retryability and sleeps. It ends on the first success, on a fatal error, or at the attempt limit. |
| Retry.SafeRunAsWritten | orchestrator/main.py:323-369 | This is `_safe_run` as written. With at least one attempt allowed, it reports success only when the last attempt succeeded, and on failure one error record per attempt. |
| Retry.Clamped | orchestrator/policies.py:62 | A limit below 1 becomes exactly 1, and a limit of 1 or more is kept. The role and the delays are never changed. |
| Retry.SafeRun | orchestrator/main.py:325-369 | The corrected `_safe_run` makes between 1 and max(1, limit) attempts. There is no error exactly when the last attempt succeeded, and then the output is that attempt's. A failure yields empty output, one record per attempt, and the last attempt's error. |
| Retry.EarlierTransient | orchestrator/main.py:354-355 | Every attempt before the last one failed with a retryable error. |
| Retry.FatalStops | orchestrator/main.py:354-355 | A fatal error at attempt k means no attempt after k is made. |
| Retry.FailureRecord | orchestrator/main.py:345-369 | On failure, every record but the last is retryable and carries its back-off. The last carries none, and if it was retryable the limit was reached. |
| Retry.AllTransientExhausts | orchestrator/main.py:325-369 | When every attempt fails transiently, the run uses up all attempts and fails. |
| Retry.FirstSuccess | orchestrator/main.py:333-343 | A first attempt that succeeds is the only one, with no error records. |
| Retry.AsWrittenNoAttempt | orchestrator/main.py:323-369 | As written, a limit of 0 or less makes no attempt and reports success with empty output. |
| Retry.ClampedAgrees | orchestrator/main.py:325-369 | The corrected run reports success only for a successful attempt, and agrees with the source whenever the limit is at least 1. |
| Context.LogEvent | orchestrator/tools_fs.py:32-33 | Logging appends exactly the one event and leaves the rest of the context unchanged. |
| Context.Utf8Len | orchestrator/tools_fs.py:65 | The UTF-8 byte count lies between the character count and four times it. |
| Context.Utf8LenAscii | orchestrator/tools_fs.py:65 | For ASCII text the byte count is the character count. |
| ToolsFs.ResolvePath | orchestrator/tools_fs.py:13-29 | Paths are resolved as follows:<br>• an empty path, a `~` path and an absolute path are refused with their own errors;<br>• every accepted path is canonical and lies inside the base. |
| ToolsFs.StripBaseName | orchestrator/tools_fs.py:19-20 | Dropping a leading base name keeps the anchor and the path's shape. |
| ToolsFs.ParsePathString | orchestrator/tools_fs.py:18 | Rendering a canonical path and parsing it back gives that path. |
| ToolsFs.ResolveCanonical | orchestrator/tools_fs.py:23 | Lexical resolution of names and `..` from a canonical path stays canonical. |
| ToolsFs.IsWithinIff | orchestrator/tools_fs.py:36-41 | One path is within another exactly when the other is a prefix of it. |
| ToolsFs.DescendantPath | orchestrator/tools_fs.py:23-29 | A relative path without `..`, not starting with the base's name, resolves to the base followed by its parts. |
| ToolsFs.DotIsBase | orchestrator/tools_fs.py:18-29 | `.` resolves to the base. |
| ToolsFs.ReprefixedBaseName | orchestrator/tools_fs.py:19-20 | Repeating the base's name in front of a path resolves as if it were absent. |
| ToolsFs.BareBaseName | orchestrator/tools_fs.py:19-20 | The base's own name alone resolves to the base. |
| ToolsFs.ParentThenRest | orchestrator/tools_fs.py:23-28 | `../rest` is accepted exactly when `rest` re-enters the base through its name. It then resolves inside the base, and otherwise escapes. |
| ToolsFs.ParentEscapes | orchestrator/tools_fs.py:25-28 | `..` is refused as an escape from the base. |
| ToolsFs.Children | orchestrator/tools_fs.py:78 | The children of a directory are exactly the names one level below it. |
| ToolsFs.FsRead | orchestrator/tools_fs.py:45-50 | A read succeeds exactly when the path resolves to an existing file. It then returns that file's content read in text mode and logs one read event. A failed read logs nothing. |
| ToolsFs.ReadNewlines | orchestrator/tools_fs.py:48 | Text read in text mode never contains `\r` and is never longer than what is stored. Text without `\r` is read unchanged. |
| ToolsFs.ReadNewlinesKeepsOthers | orchestrator/tools_fs.py:48 | Reading changes only line endings. The characters other than `\r` and `\n` are kept in order. There is one `\n` per stored `\n`, `\r\n` or lone `\r`. |
| ToolsFs.ReadNewlinesIdempotent | orchestrator/tools_fs.py:48 | Reading text that was already read in text mode changes nothing. |
| ToolsFs.ReadNewlinesExample | orchestrator/tools_fs.py:48 | `a\r\nb\rc` is read as `a\nb\nc`. |
| ToolsFs.MakeDirs | orchestrator/tools_fs.py:63 | Creating the parents succeeds exactly when no file is in the way. Every prefix then is a directory, old entries are kept, and new entries lie on the path. |
| ToolsFs.FsWrite | orchestrator/tools_fs.py:54-66 | A write is refused when writes are not allowed, and for the tech writer inside `project/reports`. A successful write stores the content at the resolved path and logs its UTF-8 size. A failed write logs nothing. |
| ToolsFs.WriteSucceedsIff | orchestrator/tools_fs.py:54-64 | A write succeeds exactly when all of these hold, in both directions:<br>• writes are allowed;<br>• the path resolves;<br>• the path is not a protected report;<br>• no file blocks its parents;<br>• the target is not a directory. |
| ToolsFs.WriteKeepsTree | orchestrator/tools_fs.py:63-64 | A successful write keeps the tree well formed and leaves every other entry unchanged. New entries are only the target's parents. |
| ToolsFs.ReadAfterWrite | orchestrator/tools_fs.py:45-66 | Reading back a path just written returns the written content with its line endings read as `\n`. Content without `\r` comes back unchanged. |
| ToolsFs.FsList | orchestrator/tools_fs.py:70-80 | A listing succeeds exactly when the path exists. A file lists its own name, and a directory lists exactly its children, sorted. One event is logged with the count. |
| ToolsShell.Truncate | orchestrator/tools_shell.py:45-50 | Short text is kept whole. Longer text becomes its first 4000 characters plus the mark. |
| ToolsShell.TruncateIdempotent | orchestrator/tools_shell.py:45-50 | Truncating twice equals truncating once. |
| ToolsShell.MatchFromIff | orchestrator/tools_shell.py:13-30 | The greedy matcher finds a phrase end exactly where the pattern's own reading (words separated by whitespace, any case) matches. |
| ToolsShell.InstallByMatcher | orchestrator/tools_shell.py:13-30 | A command is an install exactly when the matcher finds some blocklist phrase between word boundaries. |
| ToolsShell.InstallNeedsVerb | orchestrator/tools_shell.py:13-28 | Every install match contains `install` or `add`. |
| ToolsShell.CdAtIff | orchestrator/tools_shell.py:33 | The three alternatives of the `cd` pattern's prefix group amount to the start, a separator or whitespace before `cd`. |
| ToolsShell.Classify | orchestrator/tools_shell.py:60-68 | A command is classified as an install exactly when an install phrase matches. It is an escape exactly when an escape pattern matches and no install phrase does. |
| ToolsShell.RanPayload | orchestrator/tools_shell.py:74-95 | The payload of a completed command carries the command, its return code and both streams cut by `_truncate`. A timed-out command carries 124, the cut partial output and the cut timeout text. Both streams are bounded. |
| ToolsShell.RunCmd | orchestrator/tools_shell.py:58-97 | A blocked command returns the blocked payload and logs a blocked event with its reason. A missing working directory fails without logging. Otherwise the run's payload is returned and logged as not blocked. |
| ToolsShell.RunCmdLogsOnce | orchestrator/tools_shell.py:58-97 | A call succeeds exactly when the command is blocked or the directory exists. Each success appends exactly one event with the command and return code. That event is marked blocked, with a reason, exactly when the command was blocked. |
| ToolsShell.BlockedIgnoresProcess | orchestrator/tools_shell.py:60-68 | A blocked command's result does not depend on the process, the timeout or the directory, and its return code is 126. |
| ToolsShell.TimeoutMessage | orchestrator/tools_shell.py:74-97 | A timed-out run returns 124, the truncated partial output and the truncated `TIMEOUT after <n>s`. That text is whole whenever it fits within the limit, which holds for any timeout below 10^9 seconds. |
| ToolsShell.DefaultTimeout | orchestrator/tools_shell.py:58 | With the default timeout of 30 seconds, a timed-out run reports `TIMEOUT after 30s`. |
| ToolsShell.TimeoutAsWritten | orchestrator/tools_shell.py:74-97 | As written on POSIX, the handler returns the 124 payload only when nothing was captured. It raises before logging when more than 4000 bytes were captured. It raises after logging when fewer bytes were captured but at least one. |
| ToolsShell.PartialOutputRaises | orchestrator/tools_shell.py:89-97 | One captured byte makes the call raise after logging its event. 4001 bytes make it raise before logging. |
| ToolsShell.TimeoutAgreesWhenSilent | orchestrator/tools_shell.py:89-97 | With nothing captured, the handler as written returns the same 124 payload as the model, with an empty `stdout`. |
| ToolsShell.PipInstallRefused | orchestrator/tools_shell.py:14 | `pip install requests` is an install. |
| ToolsShell.InstallBeforeEscape | orchestrator/tools_shell.py:60-68 | A command that both changes directory and installs is reported as an install. |
| ToolsShell.EscapeCd | orchestrator/tools_shell.py:33 | `cd work` and `ls; cd ..` are escapes. |
| ToolsShell.EscapePaths | orchestrator/tools_shell.py:34-37 | Parent traversal, absolute paths and home paths are escapes. |
| ToolsShell.HeredocBodyScanned | orchestrator/tools_shell.py:65-68 | The escape search runs over the whole command, so a `cd` inside a heredoc body still blocks it as an escape. |
| ToolsShell.PlainCommandRuns | orchestrator/tools_shell.py:60-68 | `ls -la` is neither an install nor an escape. |
| Orchestrator.SafeRunAgent | orchestrator/main.py:483-496 | An agent run reads as successful exactly when its last attempt succeeded, carrying that output, and otherwise carries the attempt's error. |
| Orchestrator.ReviewPolicy | orchestrator/policies.py:114-119 | The pipeline's parser keeps the review text as `raw`, and nothing is stuck without a previous review. |
| Orchestrator.StuckDecision | orchestrator/main.py:555-567 | A stuck round's decision becomes FAIL/SKIP, keeping the fixes and the text. |
| Orchestrator.RoundLoop | orchestrator/main.py:467-585 | The loop records between 1 and `MAX_ROUNDS` rounds, and ends as exhausted only after all of them. |
| Orchestrator.Finish | orchestrator/main.py:587-617 | The verdict is PASS exactly when the loop passed, and then the action is PASS too. Every other ending is FAIL/SKIP. The recorded rounds are kept. |
| Orchestrator.Run | orchestrator/main.py:444-617 | A planner failure records no round and a `Planner failed:` error. Otherwise the run has 1 to `MAX_ROUNDS` rounds, and the verdict and action are PASS/PASS or FAIL/SKIP. |
| Orchestrator.LoopFromStart | orchestrator/main.py:467-585 | The loop meets its round-by-round reference description: numbering, fixes handed on, and which review each round is compared with. Every round but the last went on, and the last ended the loop for the recorded reason. |
| Orchestrator.RoundsNumbered | orchestrator/main.py:490-491 | Round i is recorded as number i+1 and was handed the previous decision's fixes. |
| Orchestrator.EarlierRoundsContinued | orchestrator/main.py:555-585 | Every round before the last succeeded, was not stuck, did not pass and did not skip. |
| Orchestrator.FirstRoundNeverStuck | orchestrator/main.py:555-569 | A stuck run has at least two rounds. |
| Orchestrator.StuckKeepsFixes | orchestrator/main.py:555-567 | A run is stuck exactly when its last round's review repeats the previous one. The final decision is then FAIL/SKIP with that round's fixes. |
| Orchestrator.PassIff | orchestrator/main.py:571-576 | The verdict is PASS exactly when the last round's review passed without being stuck. |
| Orchestrator.MaxRoundsIff | orchestrator/main.py:587-590 | The reason is `max_rounds` exactly when all rounds ran and the last decision still says CONTINUE. Such a run is FAIL/SKIP. |
| Orchestrator.TechWriterKeepsVerdict | orchestrator/main.py:592-617 | The tech writer's behaviour never changes the verdict, action, rounds, stuck flag, reason or handoff. |
| Orchestrator.HandoffIff | orchestrator/main.py:592-593 | The tech writer is handed the final decision exactly when no agent failure ended the run and that decision passed or has a fix asking for docs. |
| Orchestrator.DocsUpdatedIff | orchestrator/main.py:592-617 | Docs count as updated exactly when the tech writer was handed a decision and succeeded. Its failure is recorded as `Tech writer failed:`. |
| Orchestrator.AgentFailureExits | orchestrator/main.py:495-540 | The last round has no decision exactly when an implementer or reviewer failure ended the run with an error and no handoff. Such a run is FAIL/SKIP, not stuck, without a reason, and without docs. |
| Orchestrator.RepeatedReviewStuck | orchestrator/main.py:555-567 | For any rules: a second review judged a repeat of a first one that neither passed nor skipped makes the run stuck after exactly two rounds. |
| Orchestrator.MainStuckRounds | orchestrator/main.py:555-569 | With `main`'s own rules, a repeated non-empty review that neither passed nor skipped makes the run stuck after exactly two rounds. A stuck run always has at least two rounds. |

## Left out

### Text handling

- Whitespace is Python's `str.isspace` restricted to ASCII (tab through carriage return, 28–32, space).
- Case folding is ASCII only, and so are `\s` and `\w` of the regular expressions. Non-ASCII whitespace and letters are not modelled.
- Lines are split on line feeds only, not on every separator `splitlines` knows. Every consumer drops blank lines, so only `\r` and the other separators differ.
- `None` inputs, which several functions map to `""`, are not modelled: every text is a string.

### File tools

- Symbolic links are not modelled: the base directory is assumed canonical and `..` is resolved lexically.
- The error classes and messages of `mkdir` and `write_text` are folded into one failure.
- The file system is a map from paths to nodes. Encodings and permissions are out of scope.
- Writing stores the text unchanged, as `write_text` does on POSIX. The `\n` to `\r\n` translation of Windows is not modelled. Reading translates line endings (`ToolsFs.ReadNewlines`).

### Shell tool

- ToolsShell.RunCmd: the subprocess is the `Process` input, and whether the working directory exists is the `cwdExists` parameter. `Process` holds already decoded text, so output that cannot be decoded in the locale encoding is not modelled: there `subprocess.run(text=True)` raises `UnicodeDecodeError` before any event is logged, and `RunCmd` and `RunCmdLogsOnce` match the source only for decodable output.
- ToolsShell.TimeoutMessage: the partial output is taken as decoded text. This is the 124 payload the handler is written for. On POSIX, CPython captures raw bytes instead, so as written any non-empty partial output raises `TypeError`. That holds for `ToolsShell.RanPayload`, `ToolsShell.RunCmd` and `ToolsShell.RunCmdLogsOnce` too, which match the source only when nothing was captured. `ToolsShell.TimeoutAsWritten` models the code as written; see "## Findings".
- The escape patterns scan the raw command, heredoc bodies included (`ToolsShell.HeredocBodyScanned`).

### Environment and I/O

- Environment configuration is left out: role models, turn limits, retry settings and the diff size limit are parameters.
- `ORCH_RETRY_MAX_ATTEMPTS` appears only through the attempt limit.
- `time.sleep` is left out: the delays are recorded, not waited. Delays are natural numbers; the source allows floats.
- Printing, exit codes, timestamps, report files (`reporting.py`) and writing `diff_round_N.patch` are left out.
- On a tech-writer failure `main` prints `Verdict: FAIL`. The artifacts keep the verdict the loop decided, and the model keeps it too.
- The API-key and SDK import checks of `main` (`orchestrator/main.py:401-416`) are left out. So are task selection, the demo task, the backlog and the documents read into prompts.

### Agents and retries

- The agents, the LLM calls and the prompts built for them are left out. Each agent run is an abstract outcome.
- `is_retryable`'s classification of exception types is an input: each attempt is retryable or fatal.
- The traceback appended to `_safe_run`'s error is left out: the error is the attempt's message.
- An error string counts as an error even when empty. `_safe_run` never yields an empty one.

### Round records and diff

- Orchestrator.RoundLoop: a round record keeps only the round number, the fixes handed over and the parsed decision. The report paths, tool events, diff metadata and run metadata are left out.
- Diff.ComputeWorkspaceDiff: every git result is a `CmdResult` whose `stdout` is decoded text. On a timeout `_run_local_cmd` (`orchestrator/main.py:185-191`) passes on `exc.stdout`, which on POSIX CPython fills with raw bytes even with `text=True`. A git command other than the probe that times out after printing something therefore reaches `_compute_workspace_diff` as bytes, and adding it to text raises `TypeError` and ends `main`. That crash is not modelled: `Diff.ComputeWorkspaceDiff` and `MainHelpers.MakeCmdMeta` match the source only for git commands that returned, or timed out with nothing captured. The probe is unaffected, because its return code 124 decides before its output is read.
- The reviewer's copy of the diff, truncated at `orchestrator/main.py:509`, is not modelled: `MainHelpers.TruncateDiff` models `_truncate` itself, and the loop does not carry the diff.

## Findings

| source | as written | input that shows it | evidently intended | confidence | as-written member | corrected member |
|---|---|---|---|---|---|---|
| orchestrator/policies.py:63 | The global `ORCH_RETRY_MAX_ATTEMPTS` is taken as is, with no lower bound. The per-role variables are clamped to at least 1 on line 62. `_safe_run` (`orchestrator/main.py:325-369`) then loops zero times and returns `("", None)`. | `ORCH_RETRY_MAX_ATTEMPTS=0`: no agent attempt is made and the empty output is reported as a success. | Clamp the global limit to at least 1, as line 62 does for the per-role limits. | not executed | Retry.SafeRunAsWritten, Retry.AsWrittenNoAttempt | Retry.SafeRun, Retry.ClampedAgrees (used by Orchestrator.SafeRunAgent) |
| orchestrator/tools_shell.py:89-97 | The `TimeoutExpired` handler treats `exc.stdout` as text. On POSIX, CPython fills it with the raw bytes read before the timeout, or `None`, even with `text=True`. `_truncate` then adds bytes to text when the bytes are over the limit. Otherwise the payload holds bytes, the event is logged, and `json.dumps` fails. | A command that prints one character and then sleeps past the timeout: `TypeError` after the event is logged. One that prints 4001 bytes first: `TypeError` before any event. | Return the 124 payload with the partial output decoded and truncated. | not executed | ToolsShell.TimeoutAsWritten, ToolsShell.PartialOutputRaises | ToolsShell.RunCmd, ToolsShell.TimeoutMessage, ToolsShell.TimeoutAgreesWhenSilent |

=== FILE: common.dfy ===
/** Failure-compatible wrappers shared by every module of the orchestrator model. */
module Common {

  /** An optional value: the model's stand-in for Python's `None`. */
  datatype Option<+T> = None | Some(value: T)

  /** The outcome of an operation that raises in the original program:
      `Failure` carries the error that would have been raised. */
  datatype Result<+T, +E> = Success(value: T) | Failure(error: E)

  function Min(a: int, b: int): int
  {
    if a <= b then a else b
  }

  function Max(a: int, b: int): int
  {
    if a >= b then a else b
  }
}

=== FILE: context.dfy ===
/** The per-agent run context of `orchestrator/models.py` and the tool events
    the file and shell tools append to it. */
module Context {
  import opened Common
  import opened Text

  /** A resolved absolute path, as its segments below the root: `[]` is `/`. */
  type Path = seq<string>

  /** A path segment as `pathlib` keeps it after resolution: a real name,
      never empty, `.` or `..`, and free of the separator. */
  predicate IsName(seg: string)
  {
    seg != "" && seg != "." && seg != ".." && '/' !in seg
  }

  /** A path `Path.resolve()` could return when no symbolic link is involved. */
  predicate IsCanonical(p: Path)
  {
    forall i :: 0 <= i < |p| ==> IsName(p[i])
  }

  /** `str(path)` of an absolute path. */
  function PathString(p: Path): string
  {
    "/" + Join(p, "/")
  }

  /** One entry of `ctx.tool_events`, with the fields each tool records. */
  datatype ToolEvent =
    | FsReadEvent(path: string)
    | FsWriteEvent(path: string, bytes: nat)
    | FsListEvent(path: string, count: nat)
    | RunCmdEvent(cmd: string, returncode: int, stdout: string, stderr: string,
                  blocked: bool, blockedReason: Option<string>)

  /** `RunContext`: the role, the directories the tools are confined to, the
      write flag and the event log. */
  datatype RunContext = RunContext(
    role: string,
    repoRoot: Path,
    fsBase: Path,
    allowWrite: bool,
    shellCwd: Path,
    toolEvents: seq<ToolEvent>)

  /** `_log_event`: appends one event and changes nothing else. */
  function LogEvent(ctx: RunContext, e: ToolEvent): (r: RunContext)
    ensures r.toolEvents == ctx.toolEvents + [e]
    ensures r.role == ctx.role && r.repoRoot == ctx.repoRoot && r.fsBase == ctx.fsBase
    ensures r.allowWrite == ctx.allowWrite && r.shellCwd == ctx.shellCwd
  {
    ctx.(toolEvents := ctx.toolEvents + [e])
  }

  /** Number of bytes of a character in UTF-8. */
  function Utf8Width(c: char): (n: nat)
    ensures 1 <= n <= 4
  {
    if c as int < 0x80 then 1
    else if c as int < 0x800 then 2
    else if c as int < 0x1_0000 then 3
    else 4
  }

  /** `len(s.encode("utf-8"))`. */
  function Utf8Len(s: string): (n: nat)
    ensures |s| <= n <= 4 * |s|
    decreases |s|
  {
    if s == [] then 0 else Utf8Width(s[0]) + Utf8Len(s[1..])
  }

  /** ASCII text takes one byte per character. */
  lemma {:induction false} Utf8LenAscii(s: string)
    requires forall i :: 0 <= i < |s| ==> s[i] as int < 0x80
    ensures Utf8Len(s) == |s|
    decreases |s|
  {
    if s != [] {
      Utf8LenAscii(s[1..]);
    }
  }
}

=== FILE: diff.dfy ===
/** `_compute_workspace_diff` of `orchestrator/main.py` as a pure function of
    what the git commands returned: the patch-like text shown to the reviewer
    and the record of the commands behind it. */
module Diff {
  import opened Text
  import opened Sorting
  import opened MainHelpers

  /** The results of the git commands run for one diff: the work-tree probe,
      `git status`, `git diff`, the untracked-file listing and, for every
      untracked path, its `--no-index` patch. */
  datatype GitResults = GitResults(
    probe: CmdResult,
    status: CmdResult,
    tracked: CmdResult,
    untracked: CmdResult,
    patch: string -> CmdResult)

  datatype DiffMeta = DiffMeta(available: bool, commands: seq<CmdMeta>)

  const NO_DIFF := "- None"
  const STATUS_HEADER := "# GIT STATUS (workspace)\n"
  const TRACKED_HEADER := "# GIT DIFF (workspace)\n"
  const NEW_FILE_HEADER := "# NEW FILE (untracked)\n"

  /** The repository answers the probe with `true`: exit status 0 and `true`
      somewhere in its lower-cased, stripped output. */
  predicate ProbeOk(probe: CmdResult)
  {
    probe.returncode == 0 && Contains(Lower(Strip(probe.stdout)), "true")
  }

  /** The untracked paths, stripped, blank lines dropped, sorted. */
  function UntrackedFiles(listing: string): (r: seq<string>)
    ensures Sorted(r)
    ensures multiset(r) == multiset(StrippedLines(listing))
  {
    SortSeq(StrippedLines(listing))
  }

  /** A part of the diff: the header and the right-stripped output, present
      only when that output is not blank. */
  function Section(header: string, output: string): (r: seq<string>)
    ensures |r| <= 1
    ensures |r| == 1 <==> !IsBlank(output)
    ensures |r| == 1 ==> StartsWith(r[0], header)
    ensures |r| == 1 ==> r[0] == header + TrimRight(output)
  {
    var out := TrimRight(output);
    if out != "" then
      assert output[|out| - 1] == out[|out| - 1];
      [header + out]
    else
      assert IsBlank(output) by {
        assert output[|out|..] == output;
      }
      []
  }

  /** One `# NEW FILE` part per untracked file whose patch is not blank, in
      the order of `files` (`PatchSectionAt` says which part shows which
      file). */
  function PatchSections(files: seq<string>, patch: string -> CmdResult): (r: seq<string>)
    ensures |r| == |ShownFiles(files, patch)| <= |files|
    ensures forall k :: 0 <= k < |r| ==> StartsWith(r[k], NEW_FILE_HEADER)
    decreases |files|
  {
    if files == [] then []
    else Section(NEW_FILE_HEADER, patch(files[0]).stdout) + PatchSections(files[1..], patch)
  }

  /** The k-th `# NEW FILE` part is the header and the right-stripped patch
      of the k-th file whose patch is not blank. */
  lemma {:induction false} PatchSectionAt(files: seq<string>, patch: string -> CmdResult, k: nat)
    requires k < |PatchSections(files, patch)|
    ensures PatchSections(files, patch)[k] == NEW_FILE_HEADER + TrimRight(patch(ShownFiles(files, patch)[k]).stdout)
    decreases |files|
  {
    var head := Section(NEW_FILE_HEADER, patch(files[0]).stdout);
    var rest := PatchSections(files[1..], patch);
    var shown := ShownFiles(files[1..], patch);
    if head == [] {
      assert PatchSections(files, patch) == rest;
      PatchSectionAt(files[1..], patch, k);
    } else if k > 0 {
      assert PatchSections(files, patch)[k] == rest[k - 1];
      assert ShownFiles(files, patch)[k] == shown[k - 1];
      PatchSectionAt(files[1..], patch, k - 1);
    }
  }

  /** The files whose patch shows something, in the order of `files`. */
  function ShownFiles(files: seq<string>, patch: string -> CmdResult): (r: seq<string>)
    ensures |r| <= |files|
    decreases |files|
  {
    if files == [] then []
    else
      var rest := ShownFiles(files[1..], patch);
      if !IsBlank(patch(files[0]).stdout) then [files[0]] + rest else rest
  }

  /** A file is shown exactly when it is listed and its patch is not blank. */
  lemma {:induction false} ShownFilesMembers(files: seq<string>, patch: string -> CmdResult, f: string)
    ensures f in ShownFiles(files, patch) <==> f in files && !IsBlank(patch(f).stdout)
    decreases |files|
  {
    if files != [] {
      ShownFilesMembers(files[1..], patch, f);
      assert f in files <==> f == files[0] || f in files[1..];
    }
  }

  function PatchMetas(files: seq<string>, patch: string -> CmdResult): (r: seq<CmdMeta>)
    ensures |r| == |files|
    decreases |files|
  {
    if files == [] then [] else [MakeCmdMeta(patch(files[0]))] + PatchMetas(files[1..], patch)
  }

  /** The parts in the order they are collected: status, tracked changes,
      then the untracked files in sorted order. */
  function DiffParts(g: GitResults): seq<string>
  {
    Section(STATUS_HEADER, g.status.stdout)
      + Section(TRACKED_HEADER, g.tracked.stdout)
      + PatchSections(UntrackedFiles(g.untracked.stdout), g.patch)
  }

  /** `_compute_workspace_diff`: `- None` when git is not available or there
      is nothing to show; otherwise the parts separated by blank lines,
      right-stripped, with one final line feed. */
  function ComputeWorkspaceDiff(g: GitResults): (r: (string, DiffMeta))
    ensures r.1.available <==> ProbeOk(g.probe)
    ensures |r.1.commands| >= 1 && r.1.commands[0] == MakeCmdMeta(g.probe)
    ensures !ProbeOk(g.probe) ==> r.0 == NO_DIFF && |r.1.commands| == 1
    ensures ProbeOk(g.probe) ==> |r.1.commands| == 4 + |UntrackedFiles(g.untracked.stdout)|
  {
    var probeMeta := MakeCmdMeta(g.probe);
    if !ProbeOk(g.probe) then (NO_DIFF, DiffMeta(false, [probeMeta]))
    else
      var files := UntrackedFiles(g.untracked.stdout);
      var commands := [probeMeta, MakeCmdMeta(g.status), MakeCmdMeta(g.tracked), MakeCmdMeta(g.untracked)]
        + PatchMetas(files, g.patch);
      (Render(DiffParts(g)), DiffMeta(true, commands))
  }

  /** The parts separated by blank lines, right-stripped, with one final line
      feed; `- None` when there are no parts. */
  function Render(parts: seq<string>): string
  {
    if parts == [] then NO_DIFF else TrimRight(Join(parts, "\n\n")) + "\n"
  }

  // ---------------------------------------------------------------------------
  // Properties
  // ---------------------------------------------------------------------------

  /** A part never ends in whitespace and is never empty. */
  predicate Solid(p: string)
  {
    p != [] && !IsSpace(p[|p| - 1])
  }

  lemma SectionSolid(header: string, output: string)
    ensures AllSolid(Section(header, output))
  {
  }

  lemma {:induction false} PatchSectionsSolid(files: seq<string>, patch: string -> CmdResult)
    ensures forall i :: 0 <= i < |PatchSections(files, patch)| ==> Solid(PatchSections(files, patch)[i])
    decreases |files|
  {
    if files != [] {
      PatchSectionsSolid(files[1..], patch);
      var s := Section(NEW_FILE_HEADER, patch(files[0]).stdout);
      SectionSolid(NEW_FILE_HEADER, patch(files[0]).stdout);
      var rest := PatchSections(files[1..], patch);
      assert PatchSections(files, patch) == s + rest;
      forall i | 0 <= i < |s + rest| ensures Solid((s + rest)[i]) {
        if i >= |s| { assert (s + rest)[i] == rest[i - |s|]; }
      }
    }
  }

  predicate AllSolid(ps: seq<string>)
  {
    forall i :: 0 <= i < |ps| ==> Solid(ps[i])
  }

  lemma SolidConcat(a: seq<string>, b: seq<string>)
    requires AllSolid(a) && AllSolid(b)
    ensures AllSolid(a + b)
  {
    forall i | 0 <= i < |a + b| ensures Solid((a + b)[i]) {
      if i >= |a| { assert (a + b)[i] == b[i - |a|]; }
    }
  }

  lemma DiffPartsSolid(g: GitResults)
    ensures AllSolid(DiffParts(g))
  {
    var a := Section(STATUS_HEADER, g.status.stdout);
    var b := Section(TRACKED_HEADER, g.tracked.stdout);
    var c := PatchSections(UntrackedFiles(g.untracked.stdout), g.patch);
    SectionSolid(STATUS_HEADER, g.status.stdout);
    SectionSolid(TRACKED_HEADER, g.tracked.stdout);
    PatchSectionsSolid(UntrackedFiles(g.untracked.stdout), g.patch);
    SolidConcat(a, b);
    SolidConcat(a + b, c);
  }

  /** Right-stripping text that begins with a solid part keeps that part. */
  lemma TrimRightKeepsSolidHead(p: string, rest: string)
    requires Solid(p)
    ensures StartsWith(TrimRight(p + rest), p)
  {
    var s := p + rest;
    var t := TrimRight(s);
    assert s[|p| - 1] == p[|p| - 1];
    assert t[..|p|] == s[..|p|] == p;
  }

  /** Rendering solid parts begins with the first part and ends with a single
      line feed after a non-space. */
  lemma RenderShape(parts: seq<string>)
    requires parts != [] && AllSolid(parts)
    ensures var text := Render(parts);
      && StartsWith(text, parts[0])
      && |text| >= 2 && text[|text| - 1] == '\n' && !IsSpace(text[|text| - 2])
  {
    var joined := Join(parts, "\n\n");
    var rest := joined[|parts[0]|..];
    JoinHead(parts, "\n\n");
    assert joined == parts[0] + rest;
    TrimRightKeepsSolidHead(parts[0], rest);
    var t := TrimRight(joined);
    var text := t + "\n";
    assert t[..|parts[0]|] == parts[0];
    assert text[..|parts[0]|] == parts[0];
  }

  /** When there is something to show, the text begins with the first part,
      ends with a single line feed after a non-space, and is never `- None`. */
  lemma DiffShape(g: GitResults)
    requires ProbeOk(g.probe) && DiffParts(g) != []
    ensures var text := ComputeWorkspaceDiff(g).0;
      && StartsWith(text, DiffParts(g)[0])
      && |text| >= 2 && text[|text| - 1] == '\n' && !IsSpace(text[|text| - 2])
      && text != NO_DIFF
  {
    DiffPartsSolid(g);
    RenderShape(DiffParts(g));
    var text := ComputeWorkspaceDiff(g).0;
    assert NO_DIFF[|NO_DIFF| - 1] == 'e';
    assert text != NO_DIFF;
  }

  /** The text is `- None` exactly when git is unavailable or every part is
      empty. */
  lemma NoDiffIff(g: GitResults)
    ensures ComputeWorkspaceDiff(g).0 == NO_DIFF <==> !ProbeOk(g.probe) || DiffParts(g) == []
  {
    if ProbeOk(g.probe) && DiffParts(g) != [] {
      DiffShape(g);
    }
  }

  /** With git available and something to show, the text is exactly the
      parts in `DiffParts` order, a blank line between each two, and one
      final line feed: the status, then the tracked changes, then each
      shown untracked file in sorted order. */
  lemma DiffText(g: GitResults)
    requires ProbeOk(g.probe) && DiffParts(g) != []
    ensures ComputeWorkspaceDiff(g).0 == Join(DiffParts(g), "\n\n") + "\n"
  {
    var parts := DiffParts(g);
    DiffPartsSolid(g);
    JoinEndsSolid(parts, "\n\n");
    var j := Join(parts, "\n\n");
    assert TrimRight(j) == j;
  }

  /** Joining solid parts ends on a non-space. */
  lemma {:induction false} JoinEndsSolid(parts: seq<string>, sep: string)
    requires parts != [] && AllSolid(parts)
    ensures Solid(Join(parts, sep))
    decreases |parts|
  {
    if |parts| > 1 {
      assert AllSolid(parts[1..]) by {
        forall i | 0 <= i < |parts[1..]| ensures Solid(parts[1..][i]) {
          assert parts[1..][i] == parts[i + 1];
        }
      }
      JoinEndsSolid(parts[1..], sep);
      var rest := Join(parts[1..], sep);
      assert Join(parts, sep) == parts[0] + sep + rest;
      assert Join(parts, sep)[|Join(parts, sep)| - 1] == rest[|rest| - 1];
    } else {
      assert Solid(parts[0]);
    }
  }

  /** The untracked files shown are listed in sorted order. */
  lemma ShownFilesSorted(g: GitResults)
    ensures Sorted(ShownFiles(UntrackedFiles(g.untracked.stdout), g.patch))
  {
    SortedFilter(UntrackedFiles(g.untracked.stdout), g.patch);
  }

  lemma {:induction false} SortedFilter(files: seq<string>, patch: string -> CmdResult)
    requires Sorted(files)
    ensures Sorted(ShownFiles(files, patch))
    decreases |files|
  {
    if files != [] {
      SortedTail(files);
      SortedFilter(files[1..], patch);
      var rest := ShownFiles(files[1..], patch);
      if !IsBlank(patch(files[0]).stdout) {
        forall f | f in rest ensures f in files[1..] {
          ShownFilesMembers(files[1..], patch, f);
        }
        SortedCons(files, rest);
      }
    }
  }

  lemma SortedCons(files: seq<string>, rest: seq<string>)
    requires files != [] && Sorted(files) && Sorted(rest)
    requires forall f :: f in rest ==> f in files[1..]
    ensures Sorted([files[0]] + rest)
  {
    var s := [files[0]] + rest;
    forall i, j | 0 <= i < j < |s| ensures StrLe(s[i], s[j]) {
      if i == 0 {
        assert s[j] == rest[j - 1] && rest[j - 1] in rest;
        var k :| 0 <= k < |files[1..]| && files[1..][k] == s[j];
        assert files[k + 1] == s[j];
      } else {
        assert s[i] == rest[i - 1] && s[j] == rest[j - 1];
      }
    }
  }

  /** A non-blank status puts the status part first. */
  lemma StatusFirst(g: GitResults)
    requires ProbeOk(g.probe) && !IsBlank(g.status.stdout)
    ensures StartsWith(ComputeWorkspaceDiff(g).0, STATUS_HEADER)
  {
    var parts := DiffParts(g);
    assert parts[0] == Section(STATUS_HEADER, g.status.stdout)[0];
    DiffShape(g);
    StartsWithTrans(ComputeWorkspaceDiff(g).0, parts[0], STATUS_HEADER);
  }

  lemma StartsWithTrans(s: string, p: string, q: string)
    requires StartsWith(s, p) && StartsWith(p, q)
    ensures StartsWith(s, q)
  {
    assert s[..|q|] == p[..|q|];
  }

  /** Without any change, untracked file or status line the diff is `- None`
      even though git is available. */
  lemma CleanTreeNoDiff(g: GitResults)
    requires ProbeOk(g.probe)
    requires IsBlank(g.status.stdout) && IsBlank(g.tracked.stdout) && IsBlank(g.untracked.stdout)
    ensures ComputeWorkspaceDiff(g).0 == NO_DIFF
    ensures ComputeWorkspaceDiff(g).1.available
  {
    BlankLinesVanish(g.untracked.stdout);
    var files := UntrackedFiles(g.untracked.stdout);
    assert multiset(files) == multiset{};
  }

  /** Every untracked file gets its own command record, in sorted order. */
  lemma PatchCommandsFollowSortedFiles(g: GitResults, i: nat)
    requires ProbeOk(g.probe) && i < |UntrackedFiles(g.untracked.stdout)|
    ensures ComputeWorkspaceDiff(g).1.commands[4 + i] == MakeCmdMeta(g.patch(UntrackedFiles(g.untracked.stdout)[i]))
  {
    PatchMetaAt(UntrackedFiles(g.untracked.stdout), g.patch, i);
  }

  lemma {:induction false} PatchMetaAt(files: seq<string>, patch: string -> CmdResult, i: nat)
    requires i < |files|
    ensures PatchMetas(files, patch)[i] == MakeCmdMeta(patch(files[i]))
    decreases i
  {
    if i > 0 {
      PatchMetaAt(files[1..], patch, i - 1);
    }
  }
}

=== FILE: greeter.dfy ===
/** The demo `greet` function of `workspace/app/greeter.py`. */
module Greeter {
  import opened Text

  const PREFIX := "Hello, "
  const SUFFIX := "!"
  const STRANGER := "stranger"

  /** `greet`: greets the stripped name, or a stranger when it is blank. The
      greeting is always `Hello, <someone>!` with a non-blank someone. */
  function Greet(name: string): (r: string)
    ensures StartsWith(r, PREFIX) && EndsWith(r, SUFFIX)
    ensures |r| > |PREFIX| + |SUFFIX|
    ensures !IsBlank(r[|PREFIX|..|r| - |SUFFIX|])
  {
    var normalized := Strip(name);
    var who := if normalized == "" then STRANGER else normalized;
    assert !IsSpace(who[0]);
    var r := PREFIX + who + SUFFIX;
    assert r[|PREFIX|..|r| - |SUFFIX|] == who;
    r
  }

  /** The name between the greeting's prefix and suffix is the stripped name. */
  lemma GreetRecoversName(name: string)
    requires !IsBlank(name)
    ensures var r := Greet(name); r[|PREFIX|..|r| - |SUFFIX|] == Strip(name)
  {
    var r := Greet(name);
    assert r == PREFIX + Strip(name) + SUFFIX;
  }

  /** A blank name is greeted as a stranger. */
  lemma GreetBlank(name: string)
    requires IsBlank(name)
    ensures Greet(name) == "Hello, stranger!"
  {
    assert Strip(name) == "";
    assert Greet(name) == PREFIX + STRANGER + SUFFIX;
  }

  /** Surrounding whitespace is irrelevant. */
  lemma GreetIgnoresOuterWhitespace(name: string)
    ensures Greet(name) == Greet(Strip(name))
  {
    StripIdempotent(name);
  }

  lemma GreetAlice()
    ensures Greet("Alice") == "Hello, Alice!"
  {
    StripOfStripped("Alice");
  }

  lemma {:induction false} StripPadLeft(pad: string, s: string)
    requires IsBlank(pad)
    ensures Strip(pad + s) == Strip(s)
    decreases |pad|
  {
    if pad != [] {
      StripPadLeft(pad[1..], s);
      assert pad == [pad[0]] + pad[1..];
      ConcatAssoc([pad[0]], pad[1..], s);
      StripConsSpace(pad[0], pad[1..] + s);
    } else {
      assert pad + s == s;
    }
  }

  lemma BlankTail(pad: string)
    requires IsBlank(pad) && pad != []
    ensures IsBlank(pad[1..])
  {
    forall i | 0 <= i < |pad[1..]| ensures IsSpace(pad[1..][i]) {
      assert pad[1..][i] == pad[i + 1];
    }
  }

  lemma ShiftHead(s: string, pad: string)
    requires pad != []
    ensures s + pad == (s + [pad[0]]) + pad[1..]
  {
    assert pad == [pad[0]] + pad[1..];
  }

  lemma {:induction false} StripPadRight(s: string, pad: string)
    requires IsBlank(pad)
    ensures Strip(s + pad) == Strip(s)
    decreases |pad|
  {
    if pad != [] {
      BlankTail(pad);
      StripPadRight(s + [pad[0]], pad[1..]);
      ShiftHead(s, pad);
      StripSnocSpace(s, pad[0]);
    } else {
      assert s + pad == s;
    }
  }

  /** Padding a name with blanks on either side does not change the greeting. */
  lemma GreetPadded(left: string, name: string, right: string)
    requires IsBlank(left) && IsBlank(right)
    ensures Greet(left + name + right) == Greet(name)
  {
    StripPadRight(left + name, right);
    StripPadLeft(left, name);
  }

  lemma GreetBobPlain()
    ensures Greet("Bob") == "Hello, Bob!"
  {
    StripOfStripped("Bob");
  }

  lemma GreetBob()
    ensures Greet("  Bob  ") == "Hello, Bob!"
  {
    var bob := "Bob";
    var pad := "  ";
    assert "  Bob  " == pad + bob + pad;
    GreetPadded(pad, bob, pad);
    GreetBobPlain();
  }

  lemma GreetEmptyAndSpaces()
    ensures Greet("") == "Hello, stranger!"
    ensures Greet("   ") == "Hello, stranger!"
  {
    assert IsBlank("   ");
  }
}

=== FILE: main_helpers.dfy ===
/** The pure helpers of `orchestrator/main.py`: the two truncators, the
    docs-handoff test, the tool-event summary shown to the reviewer and the
    command record kept in the run's meta data. */
module MainHelpers {
  import opened Common
  import opened Text
  import opened Context
  import opened Policies
  import ToolsShell

  // ---------------------------------------------------------------------------
  // Truncation for prompts and diffs
  // ---------------------------------------------------------------------------

  /** `s.rstrip()` is the longest prefix of `s` that does not end in whitespace. */
  lemma {:induction false} TrimRightUnique(s: string, k: nat)
    requires k <= |s| && IsBlank(s[k..]) && (k == 0 || !IsSpace(s[k - 1]))
    ensures TrimRight(s) == s[..k]
    decreases |s|
  {
    if |s| > k {
      var t := s[..|s| - 1];
      assert IsBlank(t[k..]) by {
        forall i | 0 <= i < |t[k..]| ensures IsSpace(t[k..][i]) {
          assert t[k..][i] == s[k..][i];
        }
      }
      assert IsSpace(s[k..][|s| - 1 - k]);
      TrimRightUnique(t, k);
      assert t[..k] == s[..k];
    } else {
      assert s[..k] == s;
    }
  }

  /** `text[:limit].rstrip() + marker`, or the text itself when it fits, or
      nothing for a non-positive limit: the shape shared by `_truncate` and
      `_truncate_for_prompt`. */
  function CutWithMarker(text: string, limit: int, marker: string): (r: string)
    ensures limit <= 0 ==> r == ""
    ensures 0 < limit && |text| <= limit ==> r == text
    ensures 0 < limit < |text| ==>
      && |marker| <= |r| <= limit + |marker|
      && r[|r| - |marker|..] == marker
      && var kept := r[..|r| - |marker|];
      && kept == text[..|kept|]
      && IsBlank(text[|kept|..limit])
      && (kept == [] || !IsSpace(kept[|kept| - 1]))
  {
    if limit <= 0 then ""
    else if |text| <= limit then text
    else
      var kept := TrimRight(text[..limit]);
      var r := kept + marker;
      assert r[..|r| - |marker|] == kept;
      assert text[..limit][|kept|..] == text[|kept|..limit];
      r
  }

  /** The kept part of a cut text is exactly the right-stripped prefix. */
  lemma CutKeepsRstrippedPrefix(text: string, limit: int, marker: string)
    requires 0 < limit < |text|
    ensures CutWithMarker(text, limit, marker) == TrimRight(text[..limit]) + marker
  {
    var r := CutWithMarker(text, limit, marker);
    var kept := r[..|r| - |marker|];
    assert text[..limit][|kept|..] == text[|kept|..limit];
    TrimRightUnique(text[..limit], |kept|);
    assert r == kept + r[|r| - |marker|..];
  }

  function PromptMarker(section: string, maxChars: int): string
  {
    "\n\n...[" + section + " truncated to " + IntToString(maxChars) + " chars]"
  }

  function DiffMarker(limit: int): string
  {
    "\n\n...[truncated to " + IntToString(limit) + " chars]"
  }

  /** `_truncate_for_prompt(text, max_chars, label=...)`. */
  function TruncateForPrompt(text: string, maxChars: int, section: string): (r: string)
    ensures maxChars <= 0 ==> r == ""
    ensures 0 < maxChars && |text| <= maxChars ==> r == text
    ensures 0 < maxChars < |text| ==>
      EndsWith(r, PromptMarker(section, maxChars)) && |r| <= maxChars + |PromptMarker(section, maxChars)|
      && StartsWith(text, r[..|r| - |PromptMarker(section, maxChars)|])
  {
    CutWithMarker(text, maxChars, PromptMarker(section, maxChars))
  }

  /** `_truncate(text, limit)`, applied to the diff handed to the reviewer. */
  function TruncateDiff(text: string, limit: int): (r: string)
    ensures limit <= 0 ==> r == ""
    ensures 0 < limit && |text| <= limit ==> r == text
    ensures 0 < limit < |text| ==>
      EndsWith(r, DiffMarker(limit)) && |r| <= limit + |DiffMarker(limit)|
      && StartsWith(text, r[..|r| - |DiffMarker(limit)|])
  {
    CutWithMarker(text, limit, DiffMarker(limit))
  }

  /** The two truncators differ only in the marker. */
  lemma TruncatorsAgreeOnShort(text: string, limit: int, section: string)
    requires |text| <= limit
    ensures TruncateForPrompt(text, limit, section) == TruncateDiff(text, limit)
  {
  }

  // ---------------------------------------------------------------------------
  // Docs handoff
  // ---------------------------------------------------------------------------

  const DOCS_PREFIX := "DOCS:"

  /** A fix that asks for documentation work: `DOCS:` after stripping, in
      any case. */
  predicate IsDocsFix(fix: string)
  {
    StartsWith(Upper(Strip(fix)), DOCS_PREFIX)
  }

  function AnyDocsFix(fixes: seq<string>): (r: bool)
    ensures r <==> exists i :: 0 <= i < |fixes| && IsDocsFix(fixes[i])
    decreases |fixes|
  {
    if fixes == [] then false
    else
      assert forall i :: 1 <= i < |fixes| ==> fixes[i] == fixes[1..][i - 1];
      IsDocsFix(fixes[0]) || AnyDocsFix(fixes[1..])
  }

  /** `_needs_docs_update`: some fix is a docs fix. */
  function NeedsDocsUpdate(d: ReviewDecision): (r: bool)
    ensures r <==> exists i :: 0 <= i < |d.fixes| && IsDocsFix(d.fixes[i])
  {
    AnyDocsFix(d.fixes)
  }

  /** Only the fixes matter, and adding fixes can only turn the test on. */
  lemma DocsFixesAppend(a: seq<string>, b: seq<string>)
    ensures AnyDocsFix(a + b) == (AnyDocsFix(a) || AnyDocsFix(b))
  {
    if AnyDocsFix(a + b) {
      var i :| 0 <= i < |a + b| && IsDocsFix((a + b)[i]);
      if i < |a| { assert (a + b)[i] == a[i]; } else { assert (a + b)[i] == b[i - |a|]; }
    }
    if AnyDocsFix(a) {
      var i :| 0 <= i < |a| && IsDocsFix(a[i]);
      assert (a + b)[i] == a[i];
    }
    if AnyDocsFix(b) {
      var i :| 0 <= i < |b| && IsDocsFix(b[i]);
      assert (a + b)[|a| + i] == b[i];
    }
  }

  /** The prefix test ignores case and surrounding whitespace. */
  lemma DocsFixExample()
    ensures IsDocsFix(" docs: x")
  {
    var s := "docs: x";
    assert " docs: x" == [' '] + s;
    assert IsStripped(s) by {
      assert s[0] == 'd' && s[|s| - 1] == 'x';
    }
    StripSpaceOfStripped(' ', s);
    UpperDocs(s);
  }

  lemma StripSpaceOfStripped(c: char, s: string)
    requires IsSpace(c) && IsStripped(s)
    ensures Strip([c] + s) == s
  {
    StripConsSpace(c, s);
    StripOfStripped(s);
  }

  lemma UpperDocs(s: string)
    requires s == "docs: x"
    ensures StartsWith(Upper(s), DOCS_PREFIX)
  {
    var u := Upper(s);
    assert u[0] == 'D' && u[1] == 'O' && u[2] == 'C' && u[3] == 'S' && u[4] == ':';
    assert u[..5] == DOCS_PREFIX;
  }

  /** The prefix must come first: mentioning docs later does not count. */
  lemma NotDocsFixExample()
    ensures !IsDocsFix("fix docs")
  {
    var g := "fix docs";
    StripOfStripped(g);
    assert Upper(g)[0] == 'F';
  }

  // ---------------------------------------------------------------------------
  // The tool-event summary
  // ---------------------------------------------------------------------------

  const STDERR_SNIPPET_LIMIT: nat := 400

  /** The stderr shown for one command: at most 400 characters, marked when cut. */
  function StderrSnippet(stderr: string): (r: string)
    ensures |stderr| <= STDERR_SNIPPET_LIMIT ==> r == stderr
    ensures |stderr| > STDERR_SNIPPET_LIMIT ==>
      (|r| == STDERR_SNIPPET_LIMIT + |ToolsShell.TRUNCATED_MARK|
       && StartsWith(stderr, r[..STDERR_SNIPPET_LIMIT]) && EndsWith(r, ToolsShell.TRUNCATED_MARK))
  {
    if |stderr| <= STDERR_SNIPPET_LIMIT then stderr
    else
      var r := stderr[..STDERR_SNIPPET_LIMIT] + ToolsShell.TRUNCATED_MARK;
      assert r[..STDERR_SNIPPET_LIMIT] == stderr[..STDERR_SNIPPET_LIMIT];
      r
  }

  const BLOCKED_TAG := " (BLOCKED)"

  /** The lines one `run_cmd` event contributes: the stripped command and its
      exit status, tagged when the command was refused, then its stripped
      stderr when there is any. */
  function CommandEntry(cmd: string, returncode: int, stderr: string, blocked: bool): (r: seq<string>)
    ensures 1 <= |r| <= 2
    ensures |r| == 2 <==> Strip(stderr) != ""
    ensures StartsWith(r[0], CommandHead(cmd))
    ensures EndsWith(r[0], BLOCKED_TAG) <==> blocked
    ensures |r| == 2 ==> r[1] == "  stderr: " + StderrSnippet(Strip(stderr))
  {
    var pre := CommandHead(cmd);
    var code := IntToString(returncode);
    var head := pre + code + (if blocked then BLOCKED_TAG else "");
    assert head[..|pre|] == pre;
    assert !blocked ==> head[|head| - 1] == code[|code| - 1] != BLOCKED_TAG[|BLOCKED_TAG| - 1];
    var err := Strip(stderr);
    if err != "" then [head, "  stderr: " + StderrSnippet(err)] else [head]
  }

  /** `- <cmd> -> `, the start of a command's line. */
  function CommandHead(cmd: string): string
  {
    "- " + Strip(cmd) + " -> "
  }

  /** Between the arrow and the tag a command's line holds the exit status,
      which reads back as the number. */
  lemma CommandEntryStatus(cmd: string, returncode: int, stderr: string, blocked: bool)
    ensures var line := CommandEntry(cmd, returncode, stderr, blocked)[0];
      var tag := if blocked then BLOCKED_TAG else "";
      && |CommandHead(cmd)| + |tag| <= |line|
      && line[|CommandHead(cmd)|..|line| - |tag|] == IntToString(returncode)
    ensures returncode >= 0 ==>
      var line := CommandEntry(cmd, returncode, stderr, blocked)[0];
      var tag := if blocked then BLOCKED_TAG else "";
      DigitsValue(line[|CommandHead(cmd)|..|line| - |tag|]) == returncode
  {
    var line := CommandEntry(cmd, returncode, stderr, blocked)[0];
    var pre := CommandHead(cmd);
    var tag := if blocked then BLOCKED_TAG else "";
    assert line == pre + IntToString(returncode) + tag;
    assert line[|pre|..|line| - |tag|] == IntToString(returncode);
    if returncode >= 0 {
      NatToStringValue(returncode);
    }
  }

  /** `- <path>` for every `fs_write` event, in order. */
  function WriteLines(events: seq<ToolEvent>): (r: seq<string>)
    ensures |r| <= |events|
    decreases |events|
  {
    if events == [] then [] else WriteEntry(events[0]) + WriteLines(events[1..])
  }

  /** The summary line of one event if it is a write. */
  function WriteEntry(e: ToolEvent): (r: seq<string>)
    ensures |r| <= 1
  {
    match e
    case FsWriteEvent(path, _) => ["- " + path]
    case _ => []
  }

  /** The lines of every `run_cmd` event, in order. */
  function CommandLines(events: seq<ToolEvent>): (r: seq<string>)
    decreases |events|
  {
    if events == [] then [] else CommandOf(events[0]) + CommandLines(events[1..])
  }

  /** The summary lines of one event if it is a command. */
  function CommandOf(e: ToolEvent): seq<string>
  {
    match e
    case RunCmdEvent(cmd, rc, _, err, blocked, _) => CommandEntry(cmd, rc, err, blocked)
    case _ => []
  }

  predicate HasWrite(events: seq<ToolEvent>)
  {
    exists i :: 0 <= i < |events| && events[i].FsWriteEvent?
  }

  predicate HasCommand(events: seq<ToolEvent>)
  {
    exists i :: 0 <= i < |events| && events[i].RunCmdEvent?
  }

  lemma {:induction false} WriteLinesPresent(events: seq<ToolEvent>)
    ensures WriteLines(events) != [] <==> HasWrite(events)
    decreases |events|
  {
    if events != [] {
      WriteLinesPresent(events[1..]);
      if HasWrite(events[1..]) {
        var i :| 0 <= i < |events[1..]| && events[1..][i].FsWriteEvent?;
        assert events[i + 1].FsWriteEvent?;
      }
      if HasWrite(events) && !events[0].FsWriteEvent? {
        var i :| 0 <= i < |events| && events[i].FsWriteEvent?;
        assert events[1..][i - 1].FsWriteEvent?;
      }
    }
  }

  lemma {:induction false} CommandLinesPresent(events: seq<ToolEvent>)
    ensures CommandLines(events) != [] <==> HasCommand(events)
    decreases |events|
  {
    if events != [] {
      CommandLinesPresent(events[1..]);
      if HasCommand(events[1..]) {
        var i :| 0 <= i < |events[1..]| && events[1..][i].RunCmdEvent?;
        assert events[i + 1].RunCmdEvent?;
      }
      if HasCommand(events) && !events[0].RunCmdEvent? {
        var i :| 0 <= i < |events| && events[i].RunCmdEvent?;
        assert events[1..][i - 1].RunCmdEvent?;
      }
    }
  }

  /** The summary's lines: the written files, then the command results, each
      section only when it has entries. */
  function SummaryLines(events: seq<ToolEvent>): seq<string>
  {
    var writes := WriteLines(events);
    var commands := CommandLines(events);
    (if writes != [] then ["FILES_WRITTEN:"] + writes else [])
      + (if commands != [] then ["COMMAND_RESULTS:"] + commands else [])
  }

  lemma {:induction false} JoinHead(ls: seq<string>, sep: string)
    requires ls != []
    ensures StartsWith(Join(ls, sep), ls[0])
  {
    if |ls| > 1 {
      assert Join(ls, sep) == ls[0] + (sep + Join(ls[1..], sep));
    }
  }

  /** The files section: its header, then one line per write in order. */
  function FilesSection(events: seq<ToolEvent>): string
  {
    JoinLines(["FILES_WRITTEN:"] + WriteLines(events))
  }

  /** The commands section: its header, then each command's lines in order. */
  function CommandsSection(events: seq<ToolEvent>): string
  {
    JoinLines(["COMMAND_RESULTS:"] + CommandLines(events))
  }

  /** `_format_tool_outputs`: `- None` when no file was written and no
      command was run; otherwise the files section, then the commands
      section on the next line, each only when it has entries. */
  function FormatToolOutputs(events: seq<ToolEvent>): (r: string)
    ensures r == "- None" <==> !HasWrite(events) && !HasCommand(events)
    ensures HasWrite(events) ==> StartsWith(r, "FILES_WRITTEN:")
    ensures !HasWrite(events) && HasCommand(events) ==> StartsWith(r, "COMMAND_RESULTS:")
    ensures HasWrite(events) && HasCommand(events) ==> r == FilesSection(events) + "\n" + CommandsSection(events)
    ensures HasWrite(events) && !HasCommand(events) ==> r == FilesSection(events)
    ensures !HasWrite(events) && HasCommand(events) ==> r == CommandsSection(events)
  {
    SummaryLinesCases(events);
    var lines := SummaryLines(events);
    if lines == [] then "- None"
    else
      var r := JoinLines(lines);
      JoinHead(lines, "\n");
      assert r[0] == lines[0][0];
      if HasWrite(events) && HasCommand(events) then
        JoinAppend(["FILES_WRITTEN:"] + WriteLines(events), ["COMMAND_RESULTS:"] + CommandLines(events), "\n");
        r
      else r
  }

  /** Which sections the summary's lines hold. */
  lemma SummaryLinesCases(events: seq<ToolEvent>)
    ensures var files := ["FILES_WRITTEN:"] + WriteLines(events);
      var commands := ["COMMAND_RESULTS:"] + CommandLines(events);
      && (HasWrite(events) && HasCommand(events) ==> SummaryLines(events) == files + commands)
      && (HasWrite(events) && !HasCommand(events) ==> SummaryLines(events) == files)
      && (!HasWrite(events) && HasCommand(events) ==> SummaryLines(events) == commands)
      && (!HasWrite(events) && !HasCommand(events) ==> SummaryLines(events) == [])
  {
    WriteLinesPresent(events);
    CommandLinesPresent(events);
    var files := ["FILES_WRITTEN:"] + WriteLines(events);
    var commands := ["COMMAND_RESULTS:"] + CommandLines(events);
    assert files + [] == files;
    assert [] + commands == commands;
  }

  lemma {:induction false} WriteLinesAppend(a: seq<ToolEvent>, b: seq<ToolEvent>)
    ensures WriteLines(a + b) == WriteLines(a) + WriteLines(b)
    decreases |a|
  {
    if a == [] {
      assert a + b == b;
    } else {
      assert (a + b)[0] == a[0] && (a + b)[1..] == a[1..] + b;
      WriteLinesAppend(a[1..], b);
      ConcatAssoc(WriteEntry(a[0]), WriteLines(a[1..]), WriteLines(b));
    }
  }

  lemma {:induction false} CommandLinesAppend(a: seq<ToolEvent>, b: seq<ToolEvent>)
    ensures CommandLines(a + b) == CommandLines(a) + CommandLines(b)
    decreases |a|
  {
    if a == [] {
      assert a + b == b;
    } else {
      assert (a + b)[0] == a[0] && (a + b)[1..] == a[1..] + b;
      CommandLinesAppend(a[1..], b);
      ConcatAssoc(CommandOf(a[0]), CommandLines(a[1..]), CommandLines(b));
    }
  }

  /** Read and list events leave the summary as it is, wherever they occur. */
  lemma SummaryIgnoresReads(a: seq<ToolEvent>, e: ToolEvent, b: seq<ToolEvent>)
    requires e.FsReadEvent? || e.FsListEvent?
    ensures FormatToolOutputs(a + [e] + b) == FormatToolOutputs(a + b)
  {
    SummaryLinesIgnoreReads(a, e, b);
  }

  lemma SummaryLinesIgnoreReads(a: seq<ToolEvent>, e: ToolEvent, b: seq<ToolEvent>)
    requires e.FsReadEvent? || e.FsListEvent?
    ensures SummaryLines(a + [e] + b) == SummaryLines(a + b)
  {
    IgnoredEventLines(a, e, b);
  }

  lemma IgnoredEventLines(a: seq<ToolEvent>, e: ToolEvent, b: seq<ToolEvent>)
    requires e.FsReadEvent? || e.FsListEvent?
    ensures WriteLines(a + [e] + b) == WriteLines(a + b)
    ensures CommandLines(a + [e] + b) == CommandLines(a + b)
  {
    IgnoredWriteLines(a, e, b);
    IgnoredCommandLines(a, e, b);
  }

  lemma IgnoredWriteLines(a: seq<ToolEvent>, e: ToolEvent, b: seq<ToolEvent>)
    requires e.FsReadEvent? || e.FsListEvent?
    ensures WriteLines(a + [e] + b) == WriteLines(a + b)
  {
    assert WriteLines([e]) == [] by {
      assert [e][1..] == [];
    }
    WriteLinesAppend(a, [e]);
    assert WriteLines(a + [e]) == WriteLines(a);
    WriteLinesAppend(a + [e], b);
    WriteLinesAppend(a, b);
  }

  lemma IgnoredCommandLines(a: seq<ToolEvent>, e: ToolEvent, b: seq<ToolEvent>)
    requires e.FsReadEvent? || e.FsListEvent?
    ensures CommandLines(a + [e] + b) == CommandLines(a + b)
  {
    assert CommandLines([e]) == [] by {
      assert [e][1..] == [];
    }
    CommandLinesAppend(a, [e]);
    assert CommandLines(a + [e]) == CommandLines(a);
    CommandLinesAppend(a + [e], b);
    CommandLinesAppend(a, b);
  }

  /** One more write adds its path as the last entry of the files section. */
  lemma WriteAppendsEntry(events: seq<ToolEvent>, path: string, bytes: nat)
    ensures WriteLines(events + [FsWriteEvent(path, bytes)]) == WriteLines(events) + ["- " + path]
    ensures CommandLines(events + [FsWriteEvent(path, bytes)]) == CommandLines(events)
  {
    var e := FsWriteEvent(path, bytes);
    WriteLinesAppend(events, [e]);
    CommandLinesAppend(events, [e]);
    assert WriteLines([e]) == ["- " + path];
  }

  /** One more command adds its lines at the very end of the summary,
      opening the commands section first if there was none. */
  lemma CommandAppendsText(events: seq<ToolEvent>, e: ToolEvent)
    requires e.RunCmdEvent?
    ensures var entry := JoinLines(CommandEntry(e.cmd, e.returncode, e.stderr, e.blocked));
      && (HasCommand(events) ==>
            FormatToolOutputs(events + [e]) == FormatToolOutputs(events) + "\n" + entry)
      && (!HasCommand(events) && HasWrite(events) ==>
            FormatToolOutputs(events + [e]) == FormatToolOutputs(events) + "\n" + "COMMAND_RESULTS:" + "\n" + entry)
      && (!HasCommand(events) && !HasWrite(events) ==>
            FormatToolOutputs(events + [e]) == "COMMAND_RESULTS:" + "\n" + entry)
  {
    if HasCommand(events) {
      CommandJoinsSection(events, e);
    } else {
      CommandOpensSection(events, e);
    }
  }

  lemma CommandJoinsSection(events: seq<ToolEvent>, e: ToolEvent)
    requires e.RunCmdEvent? && HasCommand(events)
    ensures FormatToolOutputs(events + [e]) == FormatToolOutputs(events) + "\n" + JoinLines(CommandOf(e))
  {
    var entry := JoinLines(CommandOf(e));
    var after := events + [e];
    CommandSectionGrows(events, e);
    CommandEventPresence(events, e);
    var c := CommandsSection(events);
    assert CommandsSection(after) == c + "\n" + entry;
    if HasWrite(events) {
      var f := FilesSection(events);
      assert FormatToolOutputs(events) == f + "\n" + c;
      assert FormatToolOutputs(after) == f + "\n" + (c + "\n" + entry);
      ConcatAssoc(f + "\n", c, "\n" + entry);
      ConcatAssoc(f + "\n" + c, "\n", entry);
      ConcatAssoc(c, "\n", entry);
    } else {
      assert FormatToolOutputs(events) == c;
      assert FormatToolOutputs(after) == c + "\n" + entry;
    }
  }

  lemma CommandOpensSection(events: seq<ToolEvent>, e: ToolEvent)
    requires e.RunCmdEvent? && !HasCommand(events)
    ensures var entry := JoinLines(CommandOf(e));
      && (HasWrite(events) ==>
            FormatToolOutputs(events + [e]) == FormatToolOutputs(events) + "\n" + "COMMAND_RESULTS:" + "\n" + entry)
      && (!HasWrite(events) ==> FormatToolOutputs(events + [e]) == "COMMAND_RESULTS:" + "\n" + entry)
  {
    var entry := JoinLines(CommandOf(e));
    CommandSectionGrows(events, e);
    CommandEventPresence(events, e);
    if HasWrite(events) {
      var f := FilesSection(events) + "\n";
      ConcatAssoc(f, "COMMAND_RESULTS:" + "\n", entry);
      ConcatAssoc(f, "COMMAND_RESULTS:", "\n");
    }
  }

  /** After a command event there is a command, and a write exactly when
      there was one before. */
  lemma CommandEventPresence(events: seq<ToolEvent>, e: ToolEvent)
    requires e.RunCmdEvent?
    ensures HasCommand(events + [e])
    ensures HasWrite(events + [e]) <==> HasWrite(events)
    ensures CommandLines(events) != [] <==> HasCommand(events)
  {
    CommandEventLines(events, e);
    WriteLinesPresent(events);
    WriteLinesPresent(events + [e]);
    CommandLinesPresent(events);
    CommandLinesPresent(events + [e]);
  }

  /** A command event adds its lines to the command lines and none to the
      written files. */
  lemma CommandEventLines(events: seq<ToolEvent>, e: ToolEvent)
    requires e.RunCmdEvent?
    ensures CommandLines(events + [e]) == CommandLines(events) + CommandOf(e)
    ensures WriteLines(events + [e]) == WriteLines(events)
  {
    CommandLinesAppend(events, [e]);
    WriteLinesAppend(events, [e]);
    assert CommandLines([e]) == CommandOf(e) by { assert [e][1..] == []; }
    assert WriteLines([e]) == [] by { assert [e][1..] == []; }
  }

  /** A command event extends the commands section by its entry and leaves
      the files section alone. */
  lemma CommandSectionGrows(events: seq<ToolEvent>, e: ToolEvent)
    requires e.RunCmdEvent?
    ensures FilesSection(events + [e]) == FilesSection(events)
    ensures CommandLines(events) != [] ==>
      CommandsSection(events + [e]) == CommandsSection(events) + "\n" + JoinLines(CommandOf(e))
    ensures CommandLines(events) == [] ==>
      CommandsSection(events + [e]) == "COMMAND_RESULTS:" + "\n" + JoinLines(CommandOf(e))
  {
    var lines := CommandOf(e);
    CommandEventLines(events, e);
    var heads := ["COMMAND_RESULTS:"] + CommandLines(events);
    ConcatAssoc(["COMMAND_RESULTS:"], CommandLines(events), lines);
    JoinAppend(heads, lines, "\n");
    if CommandLines(events) == [] {
      assert heads == ["COMMAND_RESULTS:"];
    }
  }

  /** One more write adds its path at the end of the files section, which
      is the end of the summary unless commands follow it. */
  lemma WriteAppendsText(events: seq<ToolEvent>, path: string, bytes: nat)
    ensures var w := FsWriteEvent(path, bytes);
      && (HasWrite(events) ==> FilesSection(events + [w]) == FilesSection(events) + "\n" + ("- " + path))
      && (!HasWrite(events) ==> FilesSection(events + [w]) == "FILES_WRITTEN:" + "\n" + ("- " + path))
      && (HasCommand(events) ==>
            FormatToolOutputs(events + [w]) == FilesSection(events + [w]) + "\n" + CommandsSection(events))
      && (!HasCommand(events) ==> FormatToolOutputs(events + [w]) == FilesSection(events + [w]))
  {
    var w := FsWriteEvent(path, bytes);
    WriteSectionGrows(events, path, bytes);
    WriteEventPresence(events, path, bytes);
  }

  /** A write event extends the files section by its line and leaves the
      commands section alone. */
  lemma WriteSectionGrows(events: seq<ToolEvent>, path: string, bytes: nat)
    ensures var w := FsWriteEvent(path, bytes);
      && CommandsSection(events + [w]) == CommandsSection(events)
      && (WriteLines(events) != [] ==> FilesSection(events + [w]) == FilesSection(events) + "\n" + ("- " + path))
      && (WriteLines(events) == [] ==> FilesSection(events + [w]) == "FILES_WRITTEN:" + "\n" + ("- " + path))
  {
    WriteAppendsEntry(events, path, bytes);
    var heads := ["FILES_WRITTEN:"] + WriteLines(events);
    ConcatAssoc(["FILES_WRITTEN:"], WriteLines(events), ["- " + path]);
    JoinAppend(heads, ["- " + path], "\n");
    if WriteLines(events) == [] {
      assert heads == ["FILES_WRITTEN:"];
    }
  }

  /** After a write event there is a write, and a command exactly when there
      was one before. */
  lemma WriteEventPresence(events: seq<ToolEvent>, path: string, bytes: nat)
    ensures var w := FsWriteEvent(path, bytes);
      && HasWrite(events + [w])
      && (HasCommand(events + [w]) <==> HasCommand(events))
      && (WriteLines(events) != [] <==> HasWrite(events))
  {
    var w := FsWriteEvent(path, bytes);
    WriteAppendsEntry(events, path, bytes);
    WriteLinesPresent(events);
    WriteLinesPresent(events + [w]);
    CommandLinesPresent(events);
    CommandLinesPresent(events + [w]);
  }

  // ---------------------------------------------------------------------------
  // Command meta data
  // ---------------------------------------------------------------------------

  /** What `_run_local_cmd` returns. */
  datatype CmdResult = CmdResult(cmd: string, returncode: int, stdout: string, stderr: string)

  /** What `_cmd_meta` records about it. */
  datatype CmdMeta = CmdMeta(
    cmd: string,
    returncode: int,
    stdout: string,
    stderr: string,
    stdoutLen: nat,
    stderrLen: nat,
    stdoutTruncated: bool,
    stderrTruncated: bool)

  const CMD_META_LIMIT: nat := 800

  /** `_truncate_stdio`: the preview and whether it was cut. */
  function Preview(text: string, maxChars: nat): (r: (string, bool))
    ensures r.1 <==> |text| > maxChars
    ensures !r.1 ==> r.0 == text
    ensures r.1 ==>
      (|r.0| == maxChars + |ToolsShell.TRUNCATED_MARK|
       && StartsWith(text, r.0[..maxChars]) && EndsWith(r.0, ToolsShell.TRUNCATED_MARK))
  {
    if |text| <= maxChars then (text, false)
    else
      var p := text[..maxChars] + ToolsShell.TRUNCATED_MARK;
      assert p[..maxChars] == text[..maxChars];
      (p, true)
  }

  /** `_cmd_meta(result)`: previews of at most 800 characters plus the full
      lengths, so a cut preview can always be recognised. */
  function MakeCmdMeta(c: CmdResult): (m: CmdMeta)
    ensures m.cmd == c.cmd && m.returncode == c.returncode
    ensures m.stdoutLen == |c.stdout| && m.stderrLen == |c.stderr|
    ensures m.stdoutTruncated <==> m.stdoutLen > CMD_META_LIMIT
    ensures m.stderrTruncated <==> m.stderrLen > CMD_META_LIMIT
    ensures !m.stdoutTruncated ==> m.stdout == c.stdout
    ensures !m.stderrTruncated ==> m.stderr == c.stderr
    ensures m.stdoutTruncated ==> m.stdout == c.stdout[..CMD_META_LIMIT] + ToolsShell.TRUNCATED_MARK
    ensures m.stderrTruncated ==> m.stderr == c.stderr[..CMD_META_LIMIT] + ToolsShell.TRUNCATED_MARK
  {
    var (out, outCut) := Preview(c.stdout, CMD_META_LIMIT);
    var (err, errCut) := Preview(c.stderr, CMD_META_LIMIT);
    CmdMeta(c.cmd, c.returncode, out, err, |c.stdout|, |c.stderr|, outCut, errCut)
  }

  /** The preview never exceeds the limit plus the marker. */
  lemma CmdMetaBounded(c: CmdResult)
    ensures |MakeCmdMeta(c).stdout| <= CMD_META_LIMIT + |ToolsShell.TRUNCATED_MARK|
    ensures |MakeCmdMeta(c).stderr| <= CMD_META_LIMIT + |ToolsShell.TRUNCATED_MARK|
  {
  }
}

=== FILE: orchestrator.dfy ===
/** The round loop of `main` in `orchestrator/main.py`: plan, then up to
    `MAX_ROUNDS` implement/review rounds, then the final verdict and the docs
    handoff to the tech writer. Every agent run is an abstract outcome (the
    result of `_safe_run`), given per round. */
module Orchestrator {
  import opened Common
  import opened Policies
  import opened MainHelpers
  import Retry

  /** What `_safe_run` gave back for one agent: its output, or its error. */
  datatype AgentRun = Ok(output: string) | Failed(error: string)

  /** The implementer's and the reviewer's runs of one round. The reviewer's
      outcome only matters once the implementer succeeded. */
  datatype RoundOutcome = RoundOutcome(implementer: AgentRun, reviewer: AgentRun)

  /** One entry of `artifacts["rounds"]`: the round number, the fixes handed
      to the implementer, and the decision parsed from the review (absent
      when an agent failed in that round). */
  datatype RoundRecord = RoundRecord(round: nat, fixesGiven: Option<seq<string>>, decision: Option<ReviewDecision>)

  /** Why the loop stopped. */
  datatype LoopEnd =
    | Stuck
    | Passed
    | Skipped
    | Exhausted
    | ImplementerFailed(error: string)
    | ReviewerFailed(error: string)

  /** The loop's end, the `review_decision` it leaves behind, and the rounds
      it recorded. */
  datatype LoopResult = LoopResult(end: LoopEnd, decision: Option<ReviewDecision>, rounds: seq<RoundRecord>)

  /** The parts of `artifacts.json` decided by the loop and the handoff. */
  datatype Artifacts = Artifacts(
    rounds: seq<RoundRecord>,
    finalVerdict: string,
    finalAction: string,
    stuck: bool,
    reason: Option<string>,
    error: Option<string>,
    docsUpdated: bool)

  /** How `main` reads one `_safe_run` result: an error stops the pipeline,
      otherwise the output is used. */
  function AgentRunOf(r: Retry.RunResult): AgentRun
  {
    if r.error.Some? then Failed(r.error.value) else Ok(r.output)
  }

  /** An agent counts as having run exactly when one of its attempts
      succeeded; its output is that attempt's final output and its error is
      the error of the last attempt. */
  lemma SafeRunAgent(run: nat -> Retry.Outcome, cfg: Retry.RetryConfig)
    ensures var r := Retry.SafeRun(run, cfg); var n := r.meta.attempts;
      && (AgentRunOf(r).Ok? <==> run(n).Succeeded?)
      && (AgentRunOf(r).Ok? ==> AgentRunOf(r).output == Retry.OutputText(run(n).finalOutput))
      && (AgentRunOf(r).Failed? ==> AgentRunOf(r).error == run(n).error)
  {
  }

  /** The agents' behaviour: the planner's run, each round's runs, and the
      tech writer's run on the decision it is handed. */
  datatype Pipeline = Pipeline(planner: AgentRun, rounds: nat -> RoundOutcome, techWriter: ReviewDecision -> AgentRun)

  /** The artifacts, the final `review_decision`, and the decision handed to
      the tech writer if it ran. */
  datatype RunOutcome = RunOutcome(artifacts: Artifacts, decision: Option<ReviewDecision>, handedOff: Option<ReviewDecision>)

  const MAX_ROUNDS_REASON := "max_rounds"

  /** How a round reads the review: the parser and the stuck test. The loop
      and its lemmas hold for any pair; `main` uses `ReviewPolicy`. */
  datatype ReviewRules = ReviewRules(parse: string -> ReviewDecision, stuck: (string, string) -> bool)

  /** The parser keeps the review text as the decision's `raw`. */
  ghost predicate KeepsRaw(rules: ReviewRules)
  {
    forall text :: rules.parse(text).raw == text
  }

  /** Nothing is stuck without a previous review. */
  ghost predicate NeedsPrevious(rules: ReviewRules)
  {
    forall text :: !rules.stuck("", text)
  }

  /** `parse_reviewer_output` and `is_stuck`. */
  function ReviewPolicy(): (rules: ReviewRules)
    ensures KeepsRaw(rules) && NeedsPrevious(rules)
  {
    ReviewRules(ParseReviewerOutput, IsStuck)
  }

  /** The decision a stuck round is replaced by: FAIL/SKIP with its fixes and
      its text kept. */
  function StuckDecision(d: ReviewDecision): (r: ReviewDecision)
    ensures r.verdict == "FAIL" && r.action == "SKIP"
    ensures r.fixes == d.fixes && r.raw == d.raw
  {
    ReviewDecision("FAIL", "SKIP", d.fixes, d.raw)
  }

  function FixesOf(decision: Option<ReviewDecision>): Option<seq<string>>
  {
    if decision.Some? then Some(decision.value.fixes) else None
  }

  /** The round loop from `round` on, with the previous review text, the
      current decision and the rounds recorded so far. */
  function RoundLoop(outcomes: nat -> RoundOutcome, rules: ReviewRules, round: nat, previous: string,
                     decision: Option<ReviewDecision>, rounds: seq<RoundRecord>): (r: LoopResult)
    requires 1 <= round <= MAX_ROUNDS + 1 && |rounds| == round - 1
    ensures |rounds| <= |r.rounds| <= MAX_ROUNDS
    ensures round <= MAX_ROUNDS ==> |r.rounds| > |rounds|
    ensures r.end.Exhausted? ==> |r.rounds| == MAX_ROUNDS
    decreases MAX_ROUNDS + 1 - round
  {
    if round > MAX_ROUNDS then LoopResult(Exhausted, decision, rounds)
    else
      var o := outcomes(round);
      var given := FixesOf(decision);
      if o.implementer.Failed? then
        LoopResult(ImplementerFailed(o.implementer.error), decision, rounds + [RoundRecord(round, given, None)])
      else if o.reviewer.Failed? then
        LoopResult(ReviewerFailed(o.reviewer.error), decision, rounds + [RoundRecord(round, given, None)])
      else
        var text := o.reviewer.output;
        var parsed := rules.parse(text);
        var recorded := rounds + [RoundRecord(round, given, Some(parsed))];
        if rules.stuck(previous, text) then LoopResult(Stuck, Some(StuckDecision(parsed)), recorded)
        else if parsed.verdict == "PASS" then LoopResult(Passed, Some(parsed), recorded)
        else if parsed.action == "SKIP" then LoopResult(Skipped, Some(parsed), recorded)
        else RoundLoop(outcomes, rules, round + 1, text, Some(parsed), recorded)
  }

  /** After the loop: the final verdict and action, the `max_rounds` reason,
      and the tech writer when the verdict is PASS or a fix asks for docs. */
  function Finish(p: Pipeline, lr: LoopResult): (r: RunOutcome)
    ensures r.artifacts.rounds == lr.rounds
    ensures r.artifacts.finalVerdict == "PASS" <==> lr.end.Passed?
    ensures r.artifacts.finalVerdict == "PASS" ==> r.artifacts.finalAction == "PASS"
    ensures r.artifacts.finalVerdict != "PASS" ==> r.artifacts.finalVerdict == "FAIL" && r.artifacts.finalAction == "SKIP"
  {
    if lr.end.ImplementerFailed? then
      RunOutcome(Artifacts(lr.rounds, "FAIL", "SKIP", false, None, Some("Implementer failed: " + lr.end.error), false), lr.decision, None)
    else if lr.end.ReviewerFailed? then
      RunOutcome(Artifacts(lr.rounds, "FAIL", "SKIP", false, None, Some("Reviewer failed: " + lr.end.error), false), lr.decision, None)
    else
      var passed := lr.end.Passed?;
      var reason := if lr.end.Exhausted? && lr.decision.Some? && lr.decision.value.action == "CONTINUE"
        then Some(MAX_ROUNDS_REASON) else None;
      var base := Artifacts(lr.rounds, if passed then "PASS" else "FAIL", if passed then "PASS" else "SKIP",
        lr.end.Stuck?, reason, None, false);
      if lr.decision.Some? && (lr.decision.value.verdict == "PASS" || NeedsDocsUpdate(lr.decision.value)) then
        var written := p.techWriter(lr.decision.value);
        if written.Failed? then
          RunOutcome(base.(error := Some("Tech writer failed: " + written.error)), lr.decision, lr.decision)
        else
          RunOutcome(base.(docsUpdated := true), lr.decision, lr.decision)
      else
        RunOutcome(base, lr.decision, None)
  }

  /** `main` from the planner run on, reading reviews with `rules`. */
  function Run(p: Pipeline, rules: ReviewRules): (r: RunOutcome)
    ensures 1 <= |r.artifacts.rounds| <= MAX_ROUNDS || p.planner.Failed?
    ensures p.planner.Failed? ==> r.artifacts.rounds == [] && r.artifacts.error == Some("Planner failed: " + p.planner.error)
    ensures r.artifacts.finalVerdict == "PASS" ==> r.artifacts.finalAction == "PASS"
    ensures r.artifacts.finalVerdict != "PASS" ==> r.artifacts.finalVerdict == "FAIL" && r.artifacts.finalAction == "SKIP"
  {
    if p.planner.Failed? then
      RunOutcome(Artifacts([], "FAIL", "SKIP", false, None, Some("Planner failed: " + p.planner.error), false), None, None)
    else
      Finish(p, Loop(p, rules))
  }

  /** `main` itself: reviews are read by `parse_reviewer_output` and
      `is_stuck`. */
  function Orchestrate(p: Pipeline): RunOutcome
  {
    Run(p, ReviewPolicy())
  }

  /** The loop as `main` starts it: round 1, no previous review, no decision. */
  function Loop(p: Pipeline, rules: ReviewRules): LoopResult
  {
    RoundLoop(p.rounds, rules, 1, "", None, [])
  }

  // ---------------------------------------------------------------------------
  // A reference description of the recorded rounds
  // ---------------------------------------------------------------------------

  /** The review text round `i` is compared with: the previous round's text,
      or nothing for the first round. */
  function PrevText(rounds: seq<RoundRecord>, i: nat): string
    requires i <= |rounds|
  {
    if i == 0 || rounds[i - 1].decision.None? then "" else rounds[i - 1].decision.value.raw
  }

  /** Round `i` ran both agents and its decision is the parse of the review. */
  predicate Reviewed(outcomes: nat -> RoundOutcome, rules: ReviewRules, rounds: seq<RoundRecord>, i: nat)
    requires i < |rounds|
  {
    var o := outcomes(i + 1);
    && o.implementer.Ok? && o.reviewer.Ok?
    && rounds[i].decision == Some(rules.parse(o.reviewer.output))
  }

  /** Round `i` is numbered `i + 1` and got the previous round's fixes. */
  predicate Numbered(rounds: seq<RoundRecord>, i: nat)
    requires i < |rounds|
  {
    rounds[i].round == i + 1 && rounds[i].fixesGiven == (if i == 0 then None else FixesOf(rounds[i - 1].decision))
  }

  /** Round `i` asked for another round: not stuck, not PASS, not SKIP. */
  predicate Continued(rules: ReviewRules, rounds: seq<RoundRecord>, i: nat)
    requires i < |rounds|
  {
    && rounds[i].decision.Some?
    && !rules.stuck(PrevText(rounds, i), rounds[i].decision.value.raw)
    && rounds[i].decision.value.verdict != "PASS"
    && rounds[i].decision.value.action != "SKIP"
  }

  predicate Ran(outcomes: nat -> RoundOutcome, rules: ReviewRules, rounds: seq<RoundRecord>, i: nat)
    requires i < |rounds|
  {
    Numbered(rounds, i) && Reviewed(outcomes, rules, rounds, i) && Continued(rules, rounds, i)
  }

  /** Every recorded round ran to the end and asked for another. */
  predicate History(outcomes: nat -> RoundOutcome, rules: ReviewRules, rounds: seq<RoundRecord>)
  {
    forall i :: 0 <= i < |rounds| ==> Ran(outcomes, rules, rounds, i)
  }

  function LastDecision(rounds: seq<RoundRecord>): Option<ReviewDecision>
  {
    if rounds == [] then None else rounds[|rounds| - 1].decision
  }

  /** The state the loop carries between rounds agrees with the rounds
      recorded so far. */
  ghost predicate LoopInv(outcomes: nat -> RoundOutcome, rules: ReviewRules, round: nat, previous: string,
                    decision: Option<ReviewDecision>, rounds: seq<RoundRecord>)
  {
    && 1 <= round <= MAX_ROUNDS + 1 && |rounds| == round - 1
    && KeepsRaw(rules)
    && History(outcomes, rules, rounds)
    && previous == PrevText(rounds, |rounds|)
    && decision == LastDecision(rounds)
  }

  /** How the last recorded round ended the loop, and the decision left. */
  predicate EndedBy(outcomes: nat -> RoundOutcome, rules: ReviewRules, r: LoopResult)
    requires |r.rounds| >= 1
  {
    var n := |r.rounds| - 1;
    var o := outcomes(n + 1);
    var d := r.rounds[n].decision;
    var prev := PrevText(r.rounds, n);
    && (r.end.ImplementerFailed? ==> o.implementer == Failed(r.end.error) && d.None?)
    && (r.end.ReviewerFailed? ==> o.implementer.Ok? && o.reviewer == Failed(r.end.error) && d.None?)
    && (r.end.Stuck? ==>
          Reviewed(outcomes, rules, r.rounds, n) && rules.stuck(prev, d.value.raw) && r.decision == Some(StuckDecision(d.value)))
    && (r.end.Passed? ==>
          Reviewed(outcomes, rules, r.rounds, n) && !rules.stuck(prev, d.value.raw) && d.value.verdict == "PASS"
          && r.decision == d)
    && (r.end.Skipped? ==>
          Reviewed(outcomes, rules, r.rounds, n) && !rules.stuck(prev, d.value.raw) && d.value.verdict != "PASS"
          && d.value.action == "SKIP" && r.decision == d)
  }

  /** What the loop returns, described by the reference predicates: the
      rounds before the last all continued; the loop was exhausted only when
      every round continued; otherwise the last round says why it stopped. */
  predicate LoopSpec(outcomes: nat -> RoundOutcome, rules: ReviewRules, r: LoopResult)
  {
    && 1 <= |r.rounds| <= MAX_ROUNDS
    && History(outcomes, rules, r.rounds[..|r.rounds| - 1])
    && Numbered(r.rounds, |r.rounds| - 1)
    && (r.end.Exhausted? ==> History(outcomes, rules, r.rounds) && |r.rounds| == MAX_ROUNDS && r.decision == LastDecision(r.rounds))
    && (!r.end.Exhausted? ==> EndedBy(outcomes, rules, r))
  }

  // ---------------------------------------------------------------------------
  // The loop meets the reference description
  // ---------------------------------------------------------------------------

  lemma HistoryPrefix(outcomes: nat -> RoundOutcome, rules: ReviewRules, rounds: seq<RoundRecord>, k: nat)
    requires History(outcomes, rules, rounds) && k <= |rounds|
    ensures History(outcomes, rules, rounds[..k])
  {
    forall i | 0 <= i < k ensures Ran(outcomes, rules, rounds[..k], i) {
      assert Ran(outcomes, rules, rounds, i);
      if i > 0 { assert rounds[..k][i - 1] == rounds[i - 1]; }
      assert rounds[..k][i] == rounds[i];
    }
  }

  /** Recording one more round that continued keeps the history. */
  lemma HistorySnoc(outcomes: nat -> RoundOutcome, rules: ReviewRules, rounds: seq<RoundRecord>, rec: RoundRecord)
    requires History(outcomes, rules, rounds)
    requires Ran(outcomes, rules, rounds + [rec], |rounds|)
    ensures History(outcomes, rules, rounds + [rec])
  {
    var all := rounds + [rec];
    forall i | 0 <= i < |all| ensures Ran(outcomes, rules, all, i) {
      if i < |rounds| {
        assert Ran(outcomes, rules, rounds, i);
        assert all[i] == rounds[i];
        if i > 0 { assert all[i - 1] == rounds[i - 1]; }
      }
    }
  }

  /** The last round of the loop, as a record appended to `rounds`. */
  lemma LastRecord(outcomes: nat -> RoundOutcome, rules: ReviewRules, round: nat, previous: string,
                   decision: Option<ReviewDecision>, rounds: seq<RoundRecord>, rec: RoundRecord)
    requires LoopInv(outcomes, rules, round, previous, decision, rounds) && round <= MAX_ROUNDS
    requires rec.round == round && rec.fixesGiven == FixesOf(decision)
    ensures Numbered(rounds + [rec], |rounds|)
    ensures PrevText(rounds + [rec], |rounds|) == previous
    ensures (rounds + [rec])[..|rounds|] == rounds
  {
    var all := rounds + [rec];
    if |rounds| > 0 { assert all[|rounds| - 1] == rounds[|rounds| - 1]; }
  }

  /** The round the loop is about to run asks for another one. */
  predicate GoesOn(o: RoundOutcome, rules: ReviewRules, previous: string)
  {
    && o.implementer.Ok? && o.reviewer.Ok?
    && !rules.stuck(previous, o.reviewer.output)
    && rules.parse(o.reviewer.output).verdict != "PASS"
    && rules.parse(o.reviewer.output).action != "SKIP"
  }

  /** The record the loop appends for the round it runs. */
  function RecordOf(o: RoundOutcome, rules: ReviewRules, round: nat, decision: Option<ReviewDecision>): RoundRecord
  {
    RoundRecord(round, FixesOf(decision), if o.implementer.Ok? && o.reviewer.Ok? then Some(rules.parse(o.reviewer.output)) else None)
  }

  lemma LoopExhausted(outcomes: nat -> RoundOutcome, rules: ReviewRules, round: nat, previous: string,
                      decision: Option<ReviewDecision>, rounds: seq<RoundRecord>)
    requires LoopInv(outcomes, rules, round, previous, decision, rounds)
    requires round > MAX_ROUNDS
    ensures LoopSpec(outcomes, rules, RoundLoop(outcomes, rules, round, previous, decision, rounds))
  {
    HistoryPrefix(outcomes, rules, rounds, |rounds| - 1);
    assert Ran(outcomes, rules, rounds, |rounds| - 1);
  }

  lemma LoopStops(outcomes: nat -> RoundOutcome, rules: ReviewRules, round: nat, previous: string,
                  decision: Option<ReviewDecision>, rounds: seq<RoundRecord>)
    requires LoopInv(outcomes, rules, round, previous, decision, rounds)
    requires round <= MAX_ROUNDS && !GoesOn(outcomes(round), rules, previous)
    ensures LoopSpec(outcomes, rules, RoundLoop(outcomes, rules, round, previous, decision, rounds))
  {
    var r := RoundLoop(outcomes, rules, round, previous, decision, rounds);
    var o := outcomes(round);
    var rec := RecordOf(o, rules, round, decision);
    var all := rounds + [rec];
    LastRecord(outcomes, rules, round, previous, decision, rounds, rec);
    assert all[..|all| - 1] == rounds;
    assert r.rounds == all;
    if o.implementer.Ok? && o.reviewer.Ok? {
      assert all[|rounds|].decision == Some(rules.parse(o.reviewer.output));
      assert Reviewed(outcomes, rules, all, |rounds|);
    }
  }

  /** Running one round that asks for another keeps the invariant. */
  lemma LoopGoesOn(outcomes: nat -> RoundOutcome, rules: ReviewRules, round: nat, previous: string,
                   decision: Option<ReviewDecision>, rounds: seq<RoundRecord>)
    requires LoopInv(outcomes, rules, round, previous, decision, rounds)
    requires round <= MAX_ROUNDS && GoesOn(outcomes(round), rules, previous)
    ensures var o := outcomes(round);
      LoopInv(outcomes, rules, round + 1, o.reviewer.output, Some(rules.parse(o.reviewer.output)),
              rounds + [RecordOf(o, rules, round, decision)])
  {
    var o := outcomes(round);
    var rec := RecordOf(o, rules, round, decision);
    var all := rounds + [rec];
    LastRecord(outcomes, rules, round, previous, decision, rounds, rec);
    assert all[|rounds|].decision == Some(rules.parse(o.reviewer.output));
    assert Reviewed(outcomes, rules, all, |rounds|);
    assert Continued(rules, all, |rounds|);
    assert Ran(outcomes, rules, all, |rounds|);
    HistorySnoc(outcomes, rules, rounds, rec);
  }

  lemma {:induction false} LoopMeetsSpec(outcomes: nat -> RoundOutcome, rules: ReviewRules, round: nat, previous: string,
                                         decision: Option<ReviewDecision>, rounds: seq<RoundRecord>)
    requires LoopInv(outcomes, rules, round, previous, decision, rounds)
    requires round <= MAX_ROUNDS || rounds != []
    ensures LoopSpec(outcomes, rules, RoundLoop(outcomes, rules, round, previous, decision, rounds))
    decreases MAX_ROUNDS + 1 - round
  {
    if round > MAX_ROUNDS {
      LoopExhausted(outcomes, rules, round, previous, decision, rounds);
    } else if !GoesOn(outcomes(round), rules, previous) {
      LoopStops(outcomes, rules, round, previous, decision, rounds);
    } else {
      var o := outcomes(round);
      LoopGoesOn(outcomes, rules, round, previous, decision, rounds);
      LoopMeetsSpec(outcomes, rules, round + 1, o.reviewer.output, Some(rules.parse(o.reviewer.output)),
                    rounds + [RecordOf(o, rules, round, decision)]);
    }
  }

  /** The loop as `main` runs it meets the reference description. */
  lemma LoopFromStart(p: Pipeline, rules: ReviewRules)
    requires KeepsRaw(rules)
    ensures LoopSpec(p.rounds, rules, Loop(p, rules))
  {
    LoopMeetsSpec(p.rounds, rules, 1, "", None, []);
  }

  // ---------------------------------------------------------------------------
  // Properties of a whole run
  // ---------------------------------------------------------------------------

  lemma HistoryAt(outcomes: nat -> RoundOutcome, rules: ReviewRules, rounds: seq<RoundRecord>, k: nat, i: nat)
    requires k <= |rounds| && History(outcomes, rules, rounds[..k]) && i < k
    ensures Ran(outcomes, rules, rounds, i)
  {
    assert Ran(outcomes, rules, rounds[..k], i);
    assert rounds[..k][i] == rounds[i];
    if i > 0 { assert rounds[..k][i - 1] == rounds[i - 1]; }
  }

  /** Rounds are numbered from 1, and each round's implementer is handed the
      fixes of the round before it (none in round 1). */
  lemma RoundsNumbered(p: Pipeline, rules: ReviewRules)
    requires KeepsRaw(rules)
    ensures forall i :: 0 <= i < |Run(p, rules).artifacts.rounds| ==> Numbered(Run(p, rules).artifacts.rounds, i)
  {
    if p.planner.Ok? {
      var lr := Loop(p, rules);
      assert Run(p, rules).artifacts.rounds == lr.rounds;
      LoopFromStart(p, rules);
      NumberedAll(p.rounds, rules, lr);
    }
  }

  lemma NumberedAll(outcomes: nat -> RoundOutcome, rules: ReviewRules, lr: LoopResult)
    requires LoopSpec(outcomes, rules, lr)
    ensures forall i :: 0 <= i < |lr.rounds| ==> Numbered(lr.rounds, i)
  {
    forall i | 0 <= i < |lr.rounds| ensures Numbered(lr.rounds, i) {
      if i < |lr.rounds| - 1 { HistoryAt(outcomes, rules, lr.rounds, |lr.rounds| - 1, i); }
    }
  }

  /** Every round before the last ran both agents, is numbered, and asked
      for another round: its review was not stuck, not a PASS, not a SKIP. */
  lemma EarlierRoundsContinued(p: Pipeline, rules: ReviewRules)
    requires KeepsRaw(rules)
    ensures forall i :: 0 <= i < |Run(p, rules).artifacts.rounds| - 1 ==> Ran(p.rounds, rules, Run(p, rules).artifacts.rounds, i)
  {
    if p.planner.Ok? {
      var lr := Loop(p, rules);
      LoopFromStart(p, rules);
      HistoryAll(p.rounds, rules, lr);
      assert Run(p, rules).artifacts.rounds == lr.rounds;
    }
  }

  lemma HistoryAll(outcomes: nat -> RoundOutcome, rules: ReviewRules, lr: LoopResult)
    requires LoopSpec(outcomes, rules, lr)
    ensures forall i :: 0 <= i < |lr.rounds| - 1 ==> Ran(outcomes, rules, lr.rounds, i)
  {
    forall i | 0 <= i < |lr.rounds| - 1 ensures Ran(outcomes, rules, lr.rounds, i) {
      HistoryAt(outcomes, rules, lr.rounds, |lr.rounds| - 1, i);
    }
  }

  /** The first round is never stuck: the stuck test needs a previous review. */
  lemma FirstRoundNeverStuck(p: Pipeline, rules: ReviewRules)
    requires KeepsRaw(rules) && NeedsPrevious(rules)
    ensures Run(p, rules).artifacts.stuck ==> |Run(p, rules).artifacts.rounds| >= 2
  {
    if p.planner.Ok? {
      var lr := Loop(p, rules);
      assert Run(p, rules).artifacts.rounds == lr.rounds;
      LoopFromStart(p, rules);
    }
  }

  /** The last recorded round ran both agents and its review was stuck. */
  predicate EndsStuck(outcomes: nat -> RoundOutcome, rules: ReviewRules, rounds: seq<RoundRecord>)
  {
    && |rounds| >= 1
    && Reviewed(outcomes, rules, rounds, |rounds| - 1)
    && rules.stuck(PrevText(rounds, |rounds| - 1), rounds[|rounds| - 1].decision.value.raw)
  }

  /** The last recorded round ran both agents, was not stuck, and its review's
      verdict is PASS. */
  predicate EndsOnPass(outcomes: nat -> RoundOutcome, rules: ReviewRules, rounds: seq<RoundRecord>)
  {
    && |rounds| >= 1
    && Reviewed(outcomes, rules, rounds, |rounds| - 1)
    && !rules.stuck(PrevText(rounds, |rounds| - 1), rounds[|rounds| - 1].decision.value.raw)
    && rounds[|rounds| - 1].decision.value.verdict == "PASS"
  }

  /** `stuck` is recorded exactly when the last round's review was stuck; the
      run ends FAIL/SKIP and the decision left behind keeps that round's fixes
      and text. */
  lemma StuckKeepsFixes(p: Pipeline, rules: ReviewRules)
    requires KeepsRaw(rules)
    ensures Run(p, rules).artifacts.stuck <==> p.planner.Ok? && EndsStuck(p.rounds, rules, Run(p, rules).artifacts.rounds)
    ensures Run(p, rules).artifacts.stuck ==>
      && LastDecision(Run(p, rules).artifacts.rounds).Some?
      && Run(p, rules).decision == Some(StuckDecision(LastDecision(Run(p, rules).artifacts.rounds).value))
      && Run(p, rules).artifacts.finalVerdict == "FAIL" && Run(p, rules).artifacts.finalAction == "SKIP"
  {
    if p.planner.Ok? {
      LoopFromStart(p, rules);
      StuckFinish(p, rules, Loop(p, rules));
    }
  }

  lemma StuckFinish(p: Pipeline, rules: ReviewRules, lr: LoopResult)
    requires LoopSpec(p.rounds, rules, lr)
    ensures Finish(p, lr).artifacts.stuck <==> EndsStuck(p.rounds, rules, lr.rounds)
    ensures Finish(p, lr).artifacts.stuck ==>
      && LastDecision(lr.rounds).Some?
      && Finish(p, lr).decision == Some(StuckDecision(LastDecision(lr.rounds).value))
  {
    if lr.end.Exhausted? {
      assert Ran(p.rounds, rules, lr.rounds, |lr.rounds| - 1);
    }
  }

  /** The run's verdict is PASS exactly when its last round ran both agents,
      was not stuck, and the review's verdict was PASS. */
  lemma PassIff(p: Pipeline, rules: ReviewRules)
    requires KeepsRaw(rules)
    ensures Run(p, rules).artifacts.finalVerdict == "PASS" <==> p.planner.Ok? && EndsOnPass(p.rounds, rules, Run(p, rules).artifacts.rounds)
  {
    if p.planner.Ok? {
      LoopFromStart(p, rules);
      PassFinish(p, rules, Loop(p, rules));
    }
  }

  lemma PassFinish(p: Pipeline, rules: ReviewRules, lr: LoopResult)
    requires LoopSpec(p.rounds, rules, lr)
    ensures Finish(p, lr).artifacts.finalVerdict == "PASS" <==> EndsOnPass(p.rounds, rules, lr.rounds)
  {
    if lr.end.Exhausted? {
      assert Ran(p.rounds, rules, lr.rounds, |lr.rounds| - 1);
    }
  }

  /** How the loop ended, read off the recorded rounds. */
  lemma EndFacts(outcomes: nat -> RoundOutcome, rules: ReviewRules, lr: LoopResult)
    requires LoopSpec(outcomes, rules, lr)
    ensures lr.end.Exhausted? <==> |lr.rounds| == MAX_ROUNDS && History(outcomes, rules, lr.rounds)
    ensures lr.end.Exhausted? ==> lr.decision == LastDecision(lr.rounds)
    ensures LastDecision(lr.rounds).None? <==> lr.end.ImplementerFailed? || lr.end.ReviewerFailed?
    ensures LastDecision(lr.rounds).Some? ==> lr.decision.Some?
  {
    if |lr.rounds| == MAX_ROUNDS && History(outcomes, rules, lr.rounds) {
      assert Ran(outcomes, rules, lr.rounds, |lr.rounds| - 1);
    }
    if lr.end.Exhausted? {
      assert Ran(outcomes, rules, lr.rounds, |lr.rounds| - 1);
    }
  }

  /** The reason `max_rounds` is recorded exactly when all `MAX_ROUNDS`
      rounds asked for another one and the last action is CONTINUE; the run
      then ends FAIL/SKIP. */
  lemma MaxRoundsIff(p: Pipeline, rules: ReviewRules)
    requires KeepsRaw(rules)
    ensures Run(p, rules).artifacts.reason == Some(MAX_ROUNDS_REASON) <==>
      && p.planner.Ok? && |Run(p, rules).artifacts.rounds| == MAX_ROUNDS
      && History(p.rounds, rules, Run(p, rules).artifacts.rounds)
      && LastDecision(Run(p, rules).artifacts.rounds).Some?
      && LastDecision(Run(p, rules).artifacts.rounds).value.action == "CONTINUE"
    ensures Run(p, rules).artifacts.reason.Some? ==>
      Run(p, rules).artifacts.finalVerdict == "FAIL" && Run(p, rules).artifacts.finalAction == "SKIP"
  {
    if p.planner.Ok? {
      LoopFromStart(p, rules);
      MaxRoundsFinish(p, rules, Loop(p, rules));
    }
  }

  lemma MaxRoundsFinish(p: Pipeline, rules: ReviewRules, lr: LoopResult)
    requires LoopSpec(p.rounds, rules, lr)
    ensures Finish(p, lr).artifacts.reason == Some(MAX_ROUNDS_REASON) <==>
      && |lr.rounds| == MAX_ROUNDS && History(p.rounds, rules, lr.rounds)
      && LastDecision(lr.rounds).Some? && LastDecision(lr.rounds).value.action == "CONTINUE"
    ensures Finish(p, lr).artifacts.reason.Some? ==> lr.end.Exhausted?
  {
    EndFacts(p.rounds, rules, lr);
    FinishFields(p, lr);
  }

  /** The fields of the artifacts that only the loop's end decides. */
  lemma FinishFields(p: Pipeline, lr: LoopResult)
    ensures Finish(p, lr).artifacts.reason == (if lr.end.Exhausted? && lr.decision.Some? && lr.decision.value.action == "CONTINUE" then Some(MAX_ROUNDS_REASON) else None)
    ensures Finish(p, lr).artifacts.stuck == lr.end.Stuck?
    ensures Finish(p, lr).artifacts.error.Some? && Finish(p, lr).handedOff.None? <==> lr.end.ImplementerFailed? || lr.end.ReviewerFailed?
    ensures lr.end.ImplementerFailed? || lr.end.ReviewerFailed? ==> !Finish(p, lr).artifacts.docsUpdated
  {
    var r := Finish(p, lr);
    if lr.end.ImplementerFailed? || lr.end.ReviewerFailed? {
      assert r.artifacts.error.Some? && r.handedOff.None? && !r.artifacts.docsUpdated;
    } else if lr.decision.Some? && (lr.decision.value.verdict == "PASS" || NeedsDocsUpdate(lr.decision.value)) {
      assert r.handedOff.Some?;
    } else {
      assert r.artifacts.error.None?;
    }
  }

  /** The tech writer's run decides only `docs_updated` and the error: the
      verdict, action, rounds, reason and handoff are the same whatever it
      does. */
  lemma TechWriterKeepsVerdict(p: Pipeline, rules: ReviewRules, writer: ReviewDecision -> AgentRun)
    ensures Run(p, rules).artifacts.finalVerdict == Run(p.(techWriter := writer), rules).artifacts.finalVerdict
    ensures Run(p, rules).artifacts.finalAction == Run(p.(techWriter := writer), rules).artifacts.finalAction
    ensures Run(p, rules).artifacts.rounds == Run(p.(techWriter := writer), rules).artifacts.rounds
    ensures Run(p, rules).artifacts.stuck == Run(p.(techWriter := writer), rules).artifacts.stuck
    ensures Run(p, rules).artifacts.reason == Run(p.(techWriter := writer), rules).artifacts.reason
    ensures Run(p, rules).handedOff == Run(p.(techWriter := writer), rules).handedOff
  {
    assert Loop(p, rules) == Loop(p.(techWriter := writer), rules);
  }

  /** Docs are recorded as updated exactly when the tech writer ran and
      succeeded; when it failed, its error is the run's error. */
  lemma DocsUpdatedIff(p: Pipeline, rules: ReviewRules)
    ensures Run(p, rules).artifacts.docsUpdated <==>
      Run(p, rules).handedOff.Some? && p.techWriter(Run(p, rules).handedOff.value).Ok?
    ensures Run(p, rules).handedOff.Some? && p.techWriter(Run(p, rules).handedOff.value).Failed? ==>
      Run(p, rules).artifacts.error == Some("Tech writer failed: " + p.techWriter(Run(p, rules).handedOff.value).error)
    ensures Run(p, rules).handedOff.Some? && p.techWriter(Run(p, rules).handedOff.value).Ok? ==>
      Run(p, rules).artifacts.error.None?
  {
  }

  /** The tech writer is handed the final decision exactly when no agent
      failure ended the run and that decision passed or asks for docs. */
  lemma HandoffIff(p: Pipeline, rules: ReviewRules)
    requires KeepsRaw(rules)
    ensures Run(p, rules).handedOff.Some? <==>
      && LastDecision(Run(p, rules).artifacts.rounds).Some?
      && Run(p, rules).decision.Some?
      && (Run(p, rules).decision.value.verdict == "PASS" || NeedsDocsUpdate(Run(p, rules).decision.value))
    ensures Run(p, rules).handedOff.Some? ==> Run(p, rules).handedOff == Run(p, rules).decision
  {
    if p.planner.Ok? {
      LoopFromStart(p, rules);
      HandoffFinish(p, rules, Loop(p, rules));
    }
  }

  lemma HandoffFinish(p: Pipeline, rules: ReviewRules, lr: LoopResult)
    requires LoopSpec(p.rounds, rules, lr)
    ensures Finish(p, lr).decision == lr.decision
    ensures Finish(p, lr).handedOff.Some? <==>
      && LastDecision(lr.rounds).Some? && lr.decision.Some?
      && (lr.decision.value.verdict == "PASS" || NeedsDocsUpdate(lr.decision.value))
    ensures Finish(p, lr).handedOff.Some? ==> Finish(p, lr).handedOff == lr.decision
  {
    EndFacts(p.rounds, rules, lr);
    FinishHandoff(p, lr);
  }

  /** `Finish` hands the decision on unless an agent failed. */
  lemma FinishHandoff(p: Pipeline, lr: LoopResult)
    ensures Finish(p, lr).decision == lr.decision
    ensures Finish(p, lr).handedOff.Some? <==>
      && !lr.end.ImplementerFailed? && !lr.end.ReviewerFailed? && lr.decision.Some?
      && (lr.decision.value.verdict == "PASS" || NeedsDocsUpdate(lr.decision.value))
    ensures Finish(p, lr).handedOff.Some? ==> Finish(p, lr).handedOff == lr.decision
  {
    var r := Finish(p, lr);
    if lr.end.ImplementerFailed? || lr.end.ReviewerFailed? {
      assert r.handedOff.None? && r.decision == lr.decision;
    } else if lr.decision.Some? && (lr.decision.value.verdict == "PASS" || NeedsDocsUpdate(lr.decision.value)) {
      assert r.handedOff == lr.decision && r.decision == lr.decision;
    } else {
      assert r.handedOff.None? && r.decision == lr.decision;
    }
  }

  /** The run stops on a failed planner, implementer or reviewer exactly when
      the last round has no decision; it then ends FAIL/SKIP with an error,
      without the tech writer, `stuck` or `max_rounds`. */
  lemma AgentFailureExits(p: Pipeline, rules: ReviewRules)
    requires KeepsRaw(rules)
    ensures LastDecision(Run(p, rules).artifacts.rounds).None? <==>
      Run(p, rules).artifacts.error.Some? && Run(p, rules).handedOff.None?
    ensures LastDecision(Run(p, rules).artifacts.rounds).None? ==>
      && !Run(p, rules).artifacts.docsUpdated
      && Run(p, rules).artifacts.finalVerdict == "FAIL" && Run(p, rules).artifacts.finalAction == "SKIP"
      && !Run(p, rules).artifacts.stuck && Run(p, rules).artifacts.reason.None?
  {
    if p.planner.Ok? {
      LoopFromStart(p, rules);
      FailureFinish(p, rules, Loop(p, rules));
    }
  }

  lemma FailureFinish(p: Pipeline, rules: ReviewRules, lr: LoopResult)
    requires LoopSpec(p.rounds, rules, lr)
    ensures LastDecision(lr.rounds).None? <==> Finish(p, lr).artifacts.error.Some? && Finish(p, lr).handedOff.None?
    ensures LastDecision(lr.rounds).None? ==>
      && !Finish(p, lr).artifacts.docsUpdated && !lr.end.Passed?
      && !Finish(p, lr).artifacts.stuck && Finish(p, lr).artifacts.reason.None?
  {
    EndFacts(p.rounds, rules, lr);
    FinishFields(p, lr);
  }

  /** A second review that the stuck test matches with the first stops the
      run at round 2 as stuck, if the first review asked for another round. */
  lemma RepeatedReviewStuck(p: Pipeline, rules: ReviewRules, first: string, second: string)
    requires p.planner.Ok?
    requires p.rounds(1) == RoundOutcome(Ok(""), Ok(first)) && p.rounds(2) == RoundOutcome(Ok(""), Ok(second))
    requires !rules.stuck("", first) && rules.stuck(first, second)
    requires rules.parse(first).verdict != "PASS" && rules.parse(first).action != "SKIP"
    ensures Run(p, rules).artifacts.stuck && |Run(p, rules).artifacts.rounds| == 2
  {
  }

  /** `main` as written: round 1 is never stuck, and a repeated review that
      differs only in outer whitespace and blank lines stops it at round 2. */
  lemma MainStuckRounds(p: Pipeline, first: string, second: string)
    ensures Orchestrate(p).artifacts.stuck ==> |Orchestrate(p).artifacts.rounds| >= 2
    ensures p.planner.Ok? && p.rounds(1) == RoundOutcome(Ok(""), Ok(first)) && p.rounds(2) == RoundOutcome(Ok(""), Ok(second))
      && first != "" && NormalizeReview(first) == NormalizeReview(second)
      && ParseReviewerOutput(first).verdict != "PASS" && ParseReviewerOutput(first).action != "SKIP"
      ==> Orchestrate(p).artifacts.stuck && |Orchestrate(p).artifacts.rounds| == 2
  {
    FirstRoundNeverStuck(p, ReviewPolicy());
    if first != "" && NormalizeReview(first) == NormalizeReview(second) {
      NormalizeEqIff(first, second);
      if p.planner.Ok? && p.rounds(1) == RoundOutcome(Ok(""), Ok(first)) && p.rounds(2) == RoundOutcome(Ok(""), Ok(second))
        && ParseReviewerOutput(first).verdict != "PASS" && ParseReviewerOutput(first).action != "SKIP" {
        RepeatedReviewStuck(p, ReviewPolicy(), first, second);
      }
    }
  }
}

=== FILE: policies.dfy ===
/** The reviewer-report parser and the stuck detector of
    `orchestrator/policies.py`, plus the round budget. */
module Policies {
  import opened Text

  /** The round budget of the orchestration loop. */
  const MAX_ROUNDS: nat := 8

  /** A parsed reviewer report. Verdict and action are kept as the upper-cased
      text the reviewer wrote, not narrowed to PASS/FAIL and CONTINUE/SKIP,
      because the orchestrator compares them with string equality. */
  datatype ReviewDecision = ReviewDecision(verdict: string, action: string, fixes: seq<string>, raw: string)

  // ---------------------------------------------------------------------------
  // Normalisation and stuck detection

  /** `normalize_review`: strip the text, split it into lines, strip every line,
      drop the blank ones and join the rest with line feeds. */
  function NormalizeReview(text: string): (r: string)
    ensures r == JoinLines(StrippedLines(text))
    ensures r == "" || forall i :: 0 <= i < |Lines(r)| ==> Lines(r)[i] != "" && IsStripped(Lines(r)[i])
  {
    StrippedLinesOfStrip(text);
    var ls := StrippedLines(text);
    StrippedLinesClean(text);
    assert ls != [] ==> Lines(JoinLines(ls)) == ls by {
      if ls != [] { SplitJoin(ls, '\n'); }
    }
    JoinLines(NonBlankStripped(Lines(Strip(text))))
  }

  /** The stripped lines of any text are non-empty, stripped and free of line feeds. */
  lemma StrippedLinesClean(text: string)
    ensures forall i :: 0 <= i < |StrippedLines(text)| ==>
      StrippedLines(text)[i] != "" && IsStripped(StrippedLines(text)[i]) && '\n' !in StrippedLines(text)[i]
  {
    NonBlankStrippedNoChar(Lines(text), '\n');
    NonBlankStrippedClean(Lines(text));
    assert AllClean(StrippedLines(text));
    assert NoLineHas(StrippedLines(text), '\n');
  }

  predicate NoLineHas(ls: seq<string>, c: char)
  {
    forall i :: 0 <= i < |ls| ==> c !in ls[i]
  }

  lemma {:induction false} NonBlankStrippedNoChar(ls: seq<string>, c: char)
    requires NoLineHas(ls, c)
    ensures NoLineHas(NonBlankStripped(ls), c)
    decreases |ls|
  {
    if ls != [] {
      NonBlankStrippedNoChar(ls[1..], c);
      StripNoChar(ls[0], c);
      NonBlankStrippedCons(ls);
      NoLineHasConcat(KeepStripped(ls[0]), NonBlankStripped(ls[1..]), c);
    }
  }

  lemma NoLineHasConcat(a: seq<string>, b: seq<string>, c: char)
    requires NoLineHas(a, c) && NoLineHas(b, c)
    ensures NoLineHas(a + b, c)
  {
    forall i | 0 <= i < |a + b| ensures c !in (a + b)[i] {
      if i >= |a| { assert (a + b)[i] == b[i - |a|]; }
    }
  }

  /** `strip` only removes characters. */
  lemma StripNoChar(s: string, c: char)
    requires c !in s
    ensures c !in Strip(s)
  {
    var l := TrimLeft(s);
    var r := TrimRight(l);
    var d := |s| - |l|;
    assert l == s[d..];
    assert r == l[..|r|];
    forall k | 0 <= k < |r| ensures r[k] != c {
      assert r[k] == s[d + k];
    }
  }

  /** `normalize_review` is idempotent. */
  lemma NormalizeIdempotent(text: string)
    ensures NormalizeReview(NormalizeReview(text)) == NormalizeReview(text)
  {
    StrippedLinesClean(text);
    StrippedLinesOfJoin(StrippedLines(text));
  }

  /** Two texts normalise alike exactly when their stripped non-blank lines agree. */
  lemma NormalizeEqIff(a: string, b: string)
    ensures NormalizeReview(a) == NormalizeReview(b) <==> StrippedLines(a) == StrippedLines(b)
  {
    StrippedLinesClean(a);
    StrippedLinesClean(b);
    StrippedLinesOfJoin(StrippedLines(a));
    StrippedLinesOfJoin(StrippedLines(b));
  }

  /** `is_stuck`: an empty previous review is never stuck; otherwise the two
      reviews are stuck when they normalise to the same text. */
  function IsStuck(prevReview: string, currentReview: string): (stuck: bool)
    ensures prevReview == "" ==> !stuck
    ensures prevReview != "" ==> (stuck <==> StrippedLines(prevReview) == StrippedLines(currentReview))
  {
    NormalizeEqIff(prevReview, currentReview);
    if prevReview == "" then false
    else NormalizeReview(prevReview) == NormalizeReview(currentReview)
  }

  /** Reviews that differ only in outer whitespace of lines or in blank lines are stuck. */
  lemma WhitespaceOnlyChangeIsStuck(prev: string, line: string)
    requires prev != ""
    requires IsBlank(line)
    ensures IsStuck(prev, prev + "\n" + line)
    ensures IsStuck(prev, " " + prev)
  {
    SplitAppend(prev, line, '\n');
    assert prev + "\n" + line == prev + ['\n'] + line;
    NonBlankStrippedAppend(Lines(prev), Lines(line));
    BlankLinesVanish(line);
    assert [' '] + prev == " " + prev;
    StrippedLinesConsSpace(' ', prev);
  }

  // ---------------------------------------------------------------------------
  // Parsing

  /** `line.split(":", 1)[1]`: the text after the first colon. */
  function AfterFirstColon(line: string): string
    requires ':' in line
    decreases |line|
  {
    if line[0] == ':' then line[1..] else AfterFirstColon(line[1..])
  }

  lemma {:induction false} AfterFirstColonAt(line: string, k: nat)
    requires k < |line| && line[k] == ':'
    requires forall j :: 0 <= j < k ==> line[j] != ':'
    ensures ':' in line && AfterFirstColon(line) == line[k + 1..]
    decreases k
  {
    assert line[k] in line;
    if k > 0 {
      assert line[1..][k - 1] == ':';
      AfterFirstColonAt(line[1..], k - 1);
    }
  }

  predicate IsVerdictLine(line: string)
  {
    StartsWith(Upper(line), "VERDICT:")
  }

  predicate IsActionLine(line: string)
  {
    StartsWith(Upper(line), "ACTION:")
  }

  /** A key line's colon is the one that ends its key, so the value is the
      text after the key. */
  lemma KeyLineColon(line: string)
    requires IsVerdictLine(line) || IsActionLine(line)
    ensures ':' in line
    ensures IsVerdictLine(line) ==> AfterFirstColon(line) == line[8..]
    ensures IsActionLine(line) ==> AfterFirstColon(line) == line[7..]
  {
    var key := if IsVerdictLine(line) then "VERDICT:" else "ACTION:";
    var n := |key| - 1;
    assert Upper(line)[..|key|] == key;
    forall j | 0 <= j <= n ensures (line[j] == ':') == (j == n) {
      assert Upper(line)[j] == UpperChar(line[j]) == key[j];
    }
    AfterFirstColonAt(line, n);
    assert IsVerdictLine(line) ==> !IsActionLine(line) by {
      assert IsVerdictLine(line) ==> Upper(line)[0] == 'V';
    }
  }

  /** The value of a `VERDICT:` or `ACTION:` line: the text after the first
      colon, stripped and upper-cased. */
  function FieldValue(line: string): string
    requires IsVerdictLine(line) || IsActionLine(line)
  {
    KeyLineColon(line);
    Upper(Strip(AfterFirstColon(line)))
  }

  /** `line.lstrip("- ")`: the longest prefix of dashes and spaces is dropped
      and the rest kept. */
  function LStripDashSpace(line: string): (r: string)
    ensures r == [] || (r[0] != '-' && r[0] != ' ')
    decreases |line|
  {
    if |line| > 0 && (line[0] == '-' || line[0] == ' ') then LStripDashSpace(line[1..]) else line
  }

  /** What is kept is a suffix of the line. */
  lemma {:induction false} LStripSuffix(line: string)
    ensures |LStripDashSpace(line)| <= |line|
    ensures LStripDashSpace(line) == line[|line| - |LStripDashSpace(line)|..]
    decreases |line|
  {
    if |line| > 0 && (line[0] == '-' || line[0] == ' ') {
      LStripSuffix(line[1..]);
      assert line[1..][|line| - 1 - |LStripDashSpace(line)|..] == line[|line| - |LStripDashSpace(line)|..];
    }
  }

  /** Only dashes and spaces are dropped. */
  lemma {:induction false} LStripDropsDashSpace(line: string, i: nat)
    requires i + |LStripDashSpace(line)| < |line|
    ensures line[i] == '-' || line[i] == ' '
    decreases |line|
  {
    if i > 0 {
      LStripDropsDashSpace(line[1..], i - 1);
    }
  }

  /** A fix item as stored: leading dashes and spaces removed, then stripped.
      The strip can expose a dash again, so the item is stripped but may
      start with `-`. */
  function FixItem(line: string): string
  {
    Strip(LStripDashSpace(line))
  }

  /** The stored item has no surrounding whitespace, and it is empty exactly
      when nothing but whitespace follows the leading dashes and spaces. */
  lemma FixItemStripped(line: string)
    ensures IsStripped(FixItem(line))
    ensures FixItem(line) == [] <==> IsBlank(LStripDashSpace(line))
  {
  }

  /** `"-\t-x".lstrip("- ").strip()` is `-x`: a tab stops `lstrip`, and
      stripping it exposes the second dash. */
  lemma FixItemMayStartWithDash()
    ensures LStripDashSpace("-\t-x") == "\t-x"
    ensures FixItem("-\t-x") == "-x"
  {
    var l := "-\t-x";
    assert LStripDashSpace(l[1..]) == l[1..];
    StripExample();
  }

  lemma StripExample()
    ensures Strip("\t-x") == "-x"
  {
    var s := "\t-x";
    assert IsSpace(s[0]) && !IsSpace(s[1]) && !IsSpace(s[2]);
  }

  predicate IsFixLine(line: string)
  {
    !IsVerdictLine(line) && !IsActionLine(line) && |line| > 0 && line[0] == '-'
  }

  datatype ParseState = ParseState(verdict: string, action: string, fixes: seq<string>)

  const InitialParse := ParseState("FAIL", "CONTINUE", [])

  /** One iteration of the loop body of `parse_reviewer_output`. */
  function ParseLine(st: ParseState, raw: string): ParseState
  {
    var line := Strip(raw);
    if line == "" then st
    else if IsVerdictLine(line) then st.(verdict := FieldValue(line))
    else if IsActionLine(line) then st.(action := FieldValue(line))
    else if line[0] == '-' then st.(fixes := st.fixes + [FixItem(line)])
    else st
  }

  function ParseLoop(lines: seq<string>, st: ParseState): ParseState
    decreases |lines|
  {
    if lines == [] then st else ParseLoop(lines[1..], ParseLine(st, lines[0]))
  }

  /** `f` applied to every line, results concatenated in order. */
  function Collect(ls: seq<string>, f: string -> seq<string>): seq<string>
    decreases |ls|
  {
    if ls == [] then [] else f(ls[0]) + Collect(ls[1..], f)
  }

  lemma {:induction false} CollectAppend(a: seq<string>, b: seq<string>, f: string -> seq<string>)
    ensures Collect(a + b, f) == Collect(a, f) + Collect(b, f)
    decreases |a|
  {
    if a == [] {
      assert a + b == b;
    } else {
      assert (a + b)[0] == a[0];
      assert (a + b)[1..] == a[1..] + b;
      CollectAppend(a[1..], b, f);
    }
  }

  lemma CollectSingle(x: string, f: string -> seq<string>)
    ensures Collect([x], f) == f(x)
  {
    assert [x][1..] == [];
  }

  function VerdictOf(line: string): seq<string>
  {
    if IsVerdictLine(line) then [FieldValue(line)] else []
  }

  function ActionOf(line: string): seq<string>
  {
    if IsActionLine(line) && !IsVerdictLine(line) then [FieldValue(line)] else []
  }

  function FixOf(line: string): seq<string>
  {
    if IsFixLine(line) then [FixItem(line)] else []
  }

  /** The values of the `VERDICT:` lines, in order. */
  function VerdictValues(ls: seq<string>): seq<string>
  {
    Collect(ls, VerdictOf)
  }

  /** The values of the `ACTION:` lines, in order. */
  function ActionValues(ls: seq<string>): seq<string>
  {
    Collect(ls, ActionOf)
  }

  /** The fix items of the dash lines, in order, duplicates kept. */
  function FixItems(ls: seq<string>): seq<string>
  {
    Collect(ls, FixOf)
  }

  function LastOr(vs: seq<string>, default: string): string
  {
    if vs == [] then default else vs[|vs| - 1]
  }

  lemma ValuesAppend(a: seq<string>, b: seq<string>)
    ensures VerdictValues(a + b) == VerdictValues(a) + VerdictValues(b)
    ensures ActionValues(a + b) == ActionValues(a) + ActionValues(b)
    ensures FixItems(a + b) == FixItems(a) + FixItems(b)
  {
    CollectAppend(a, b, VerdictOf);
    CollectAppend(a, b, ActionOf);
    CollectAppend(a, b, FixOf);
  }

  lemma LastOrAppend(a: seq<string>, b: seq<string>, d: string)
    ensures LastOr(a + b, d) == LastOr(b, LastOr(a, d))
  {
    if b != [] {
      assert (a + b)[|a + b| - 1] == b[|b| - 1];
    } else {
      assert a + b == a;
    }
  }

  /** What one line contributes to the parse. */
  lemma ParseLineSpec(st: ParseState, raw: string)
    ensures ParseLine(st, raw) == ParseSpec(NonBlankStripped([raw]), st)
  {
    NonBlankStrippedSingle(raw);
    var line := Strip(raw);
    if line == "" {
      assert NonBlankStripped([raw]) == [];
      assert ParseSpec([], st) == st;
    } else {
      assert NonBlankStripped([raw]) == [line];
      ParseSpecSingle(line, st);
      if IsVerdictLine(line) {
        assert VerdictOf(line) == [FieldValue(line)] && ActionOf(line) == [] && FixOf(line) == [];
      } else if IsActionLine(line) {
        assert VerdictOf(line) == [] && ActionOf(line) == [FieldValue(line)] && FixOf(line) == [];
      } else {
        assert VerdictOf(line) == [] && ActionOf(line) == [];
        assert st.fixes + [] == st.fixes;
      }
    }
  }

  lemma ParseSpecSingle(line: string, st: ParseState)
    ensures ParseSpec([line], st) == ParseState(LastOr(VerdictOf(line), st.verdict), LastOr(ActionOf(line), st.action), st.fixes + FixOf(line))
  {
    CollectSingle(line, VerdictOf);
    CollectSingle(line, ActionOf);
    CollectSingle(line, FixOf);
  }

  /** The parse state after reading `ls` on top of `st`, by the reference definitions. */
  function ParseSpec(ls: seq<string>, st: ParseState): ParseState
  {
    ParseState(LastOr(VerdictValues(ls), st.verdict), LastOr(ActionValues(ls), st.action), st.fixes + FixItems(ls))
  }

  lemma ParseSpecAppend(h: seq<string>, rest: seq<string>, st: ParseState)
    ensures ParseSpec(h + rest, st) == ParseSpec(rest, ParseSpec(h, st))
  {
    var m := ParseSpec(h, st);
    var a := ParseSpec(h + rest, st);
    var b := ParseSpec(rest, m);
    ValuesAppend(h, rest);
    LastOrAppend(VerdictValues(h), VerdictValues(rest), st.verdict);
    LastOrAppend(ActionValues(h), ActionValues(rest), st.action);
    assert a.verdict == b.verdict;
    assert a.action == b.action;
    ConcatAssoc(st.fixes, FixItems(h), FixItems(rest));
  }

  lemma {:induction false} ParseLoopSpec(lines: seq<string>, st: ParseState)
    ensures ParseLoop(lines, st) == ParseSpec(NonBlankStripped(lines), st)
    decreases |lines|
  {
    if lines != [] {
      var st' := ParseLine(st, lines[0]);
      assert ParseLoop(lines, st) == ParseLoop(lines[1..], st');
      ParseLoopSpec(lines[1..], st');
      ParseLineSpec(st, lines[0]);
      NonBlankStrippedHead(lines);
      ParseSpecAppend(NonBlankStripped([lines[0]]), NonBlankStripped(lines[1..]), st);
    }
  }

  lemma NonBlankStrippedHead(lines: seq<string>)
    requires lines != []
    ensures NonBlankStripped(lines) == NonBlankStripped([lines[0]]) + NonBlankStripped(lines[1..])
  {
    assert lines == [lines[0]] + lines[1..];
    NonBlankStrippedAppend([lines[0]], lines[1..]);
  }

  /** `parse_reviewer_output`: never fails; the last `VERDICT:` and `ACTION:`
      lines win, defaulting to FAIL and CONTINUE; the dash lines become the fix
      items in order; the raw text is kept unchanged. */
  function ParseReviewerOutput(text: string): (d: ReviewDecision)
    ensures d.raw == text
    ensures d.verdict == LastOr(VerdictValues(StrippedLines(text)), "FAIL")
    ensures d.action == LastOr(ActionValues(StrippedLines(text)), "CONTINUE")
    ensures d.fixes == FixItems(StrippedLines(text))
  {
    ParseLoopSpec(Lines(text), InitialParse);
    var st := ParseLoop(Lines(text), InitialParse);
    ReviewDecision(st.verdict, st.action, st.fixes, text)
  }

  lemma {:induction false} NoKeyLinesNoValues(ls: seq<string>)
    requires forall i :: 0 <= i < |ls| ==> !IsVerdictLine(ls[i]) && !IsActionLine(ls[i])
    ensures VerdictValues(ls) == [] && ActionValues(ls) == []
    decreases |ls|
  {
    if ls != [] {
      NoKeyLinesNoValues(ls[1..]);
      assert VerdictValues(ls) == VerdictOf(ls[0]) + VerdictValues(ls[1..]);
      assert ActionValues(ls) == ActionOf(ls[0]) + ActionValues(ls[1..]);
    }
  }

  /** Without `VERDICT:` or `ACTION:` lines the parse degrades to FAIL / CONTINUE. */
  lemma ParseDefaults(text: string)
    requires forall i :: 0 <= i < |StrippedLines(text)| ==>
      !IsVerdictLine(StrippedLines(text)[i]) && !IsActionLine(StrippedLines(text)[i])
    ensures ParseReviewerOutput(text).verdict == "FAIL"
    ensures ParseReviewerOutput(text).action == "CONTINUE"
  {
    NoKeyLinesNoValues(StrippedLines(text));
  }

  /** The value of a verdict line is the upper-cased, stripped text after `VERDICT:`. */
  lemma VerdictValueAfterKey(line: string)
    requires IsVerdictLine(line)
    ensures FieldValue(line) == Upper(Strip(line[8..]))
  {
    KeyLineColon(line);
  }

  /** The parse reads only the normalised text, so two reviews judged stuck
      carry the same verdict, action and fix items. */
  lemma StuckReviewsParseAlike(prev: string, current: string)
    requires IsStuck(prev, current)
    ensures ParseReviewerOutput(prev).verdict == ParseReviewerOutput(current).verdict
    ensures ParseReviewerOutput(prev).action == ParseReviewerOutput(current).action
    ensures ParseReviewerOutput(prev).fixes == ParseReviewerOutput(current).fixes
  {
  }
}

=== FILE: retry.dfy ===
/** The retry loop of `_safe_run` in `orchestrator/main.py`: each agent run
    is retried on transient errors with capped exponential backoff. The agent
    call itself is an input, as the outcome of each numbered attempt. */
module Retry {
  import opened Common

  /** What one attempt of the agent run did: it returned (with a possibly
      missing final output), or raised an error that is transient or not. */
  datatype Outcome =
    | Succeeded(finalOutput: Option<string>)
    | Retryable(error: string)
    | Fatal(error: string)

  /** One entry of `errors`: the attempt number, whether the error was
      transient, its text and the backoff slept after it, if any. Delays are
      whole numbers of some time unit. */
  datatype ErrorEntry = ErrorEntry(attempt: nat, retryable: bool, error: string, sleep: Option<nat>)

  /** The meta record `_safe_run` returns next to the output. */
  datatype RunMeta = RunMeta(
    role: string,
    attempts: nat,
    maxAttempts: int,
    baseDelay: nat,
    maxDelay: nat,
    errors: seq<ErrorEntry>)

  /** `(output, error, meta)`. */
  datatype RunResult = RunResult(output: string, error: Option<string>, meta: RunMeta)

  /** The retry settings `_safe_run` reads from the environment. */
  datatype RetryConfig = RetryConfig(role: string, maxAttempts: int, baseDelay: nat, maxDelay: nat)

  function Pow2(k: nat): (r: nat)
    ensures r >= 1
  {
    if k == 0 then 1 else 2 * Pow2(k - 1)
  }

  /** The sleep after failed attempt `k`: `min(max_delay, base * 2 ** (k - 1))`. */
  function Delay(base: nat, maxDelay: nat, k: nat): (d: nat)
    requires k >= 1
    ensures d <= maxDelay && d <= base * Pow2(k - 1)
    ensures d == maxDelay || d == base * Pow2(k - 1)
  {
    Min(maxDelay, base * Pow2(k - 1))
  }

  /** `result.final_output or ""`. */
  function OutputText(o: Option<string>): string
  {
    if o.Some? then o.value else ""
  }

  /** The errors recorded before the current attempt: every earlier attempt
      failed transiently, and each was followed by its backoff. */
  predicate History(run: nat -> Outcome, cfg: RetryConfig, errors: seq<ErrorEntry>)
  {
    forall i :: 0 <= i < |errors| ==> Recorded(run, cfg, i, errors[i])
  }

  /** Entry `i` records the transient failure of attempt `i + 1` and its backoff. */
  predicate Recorded(run: nat -> Outcome, cfg: RetryConfig, i: nat, e: ErrorEntry)
  {
    && run(i + 1).Retryable?
    && e == ErrorEntry(i + 1, true, run(i + 1).error, Some(Delay(cfg.baseDelay, cfg.maxDelay, i + 1)))
  }

  function Meta(cfg: RetryConfig, attempts: nat, errors: seq<ErrorEntry>): RunMeta
  {
    RunMeta(cfg.role, attempts, cfg.maxAttempts, cfg.baseDelay, cfg.maxDelay, errors)
  }

  /** `for attempt in range(attempt, max_attempts + 1)`, with the errors so
      far. A success returns at once; a fatal error, or a transient one on
      the last allowed attempt, ends the loop with that error; any other
      error sleeps and retries. Falling off the end returns the last error
      seen, which is none at all when no attempt was made. */
  function Loop(run: nat -> Outcome, cfg: RetryConfig, attempt: nat, errors: seq<ErrorEntry>): (r: RunResult)
    requires 1 <= attempt && |errors| == attempt - 1 && History(run, cfg, errors)
    ensures |errors| <= |r.meta.errors| && r.meta.errors[..|errors|] == errors
    ensures attempt <= cfg.maxAttempts ==> attempt <= r.meta.attempts <= cfg.maxAttempts
    ensures attempt > cfg.maxAttempts ==> r == RunResult("", None, Meta(cfg, |errors|, errors))
    ensures attempt <= cfg.maxAttempts && r.error.None? ==>
      var n := r.meta.attempts;
      && run(n).Succeeded? && r.output == OutputText(run(n).finalOutput)
      && |r.meta.errors| == n - 1 && History(run, cfg, r.meta.errors)
    ensures attempt <= cfg.maxAttempts && r.error.Some? ==>
      var n := r.meta.attempts;
      && r.output == "" && |r.meta.errors| == n
      && !run(n).Succeeded? && (run(n).Fatal? || n == cfg.maxAttempts)
      && History(run, cfg, r.meta.errors[..n - 1])
      && r.meta.errors[n - 1] == ErrorEntry(n, run(n).Retryable?, run(n).error, None)
      && r.error == Some(run(n).error)
    decreases cfg.maxAttempts - attempt
  {
    if attempt > cfg.maxAttempts then
      RunResult("", None, Meta(cfg, |errors|, errors))
    else
      if run(attempt).Succeeded? then
        RunResult(OutputText(run(attempt).finalOutput), None, Meta(cfg, attempt, errors))
      else
        var retryable := run(attempt).Retryable?;
        var entry := ErrorEntry(attempt, retryable, run(attempt).error, None);
        if !retryable || attempt >= cfg.maxAttempts then
          var all := errors + [entry];
          assert all[..|errors|] == errors;
          RunResult("", Some(run(attempt).error), Meta(cfg, |all|, all))
        else
          var slept := errors + [entry.(sleep := Some(Delay(cfg.baseDelay, cfg.maxDelay, attempt)))];
          assert History(run, cfg, slept) by {
            forall i | 0 <= i < |slept| ensures Recorded(run, cfg, i, slept[i]) {
              if i < |errors| { assert slept[i] == errors[i]; }
            }
          }
          assert attempt + 1 <= cfg.maxAttempts;
          var r := Loop(run, cfg, attempt + 1, slept);
          assert r.meta.errors[..|errors|] == slept[..|errors|];
          PrefixOfPrefix(r.meta.errors, slept, |errors|);
          r
  }

  lemma PrefixOfPrefix(a: seq<ErrorEntry>, b: seq<ErrorEntry>, n: nat)
    requires n <= |b| <= |a| && a[..|b|] == b
    ensures a[..n] == b[..n]
  {
    assert a[..n] == a[..|b|][..n];
  }

  /** `_safe_run` exactly as written: the attempt bound is used as given. */
  function SafeRunAsWritten(run: nat -> Outcome, cfg: RetryConfig): (r: RunResult)
    ensures cfg.maxAttempts >= 1 ==> 1 <= r.meta.attempts <= cfg.maxAttempts
    ensures cfg.maxAttempts >= 1 && r.error.None? ==> run(r.meta.attempts).Succeeded?
    ensures cfg.maxAttempts >= 1 && r.error.Some? ==> r.output == "" && r.meta.attempts == |r.meta.errors|
  {
    Loop(run, cfg, 1, [])
  }

  /** The attempt bound every run is meant to have: at least one attempt, as
      the per-role setting guarantees with `max(1, ...)`. */
  function Clamped(cfg: RetryConfig): (c: RetryConfig)
    ensures c.maxAttempts >= 1 && c.maxAttempts >= cfg.maxAttempts
    ensures cfg.maxAttempts >= 1 ==> c == cfg
    ensures cfg.maxAttempts < 1 ==> c.maxAttempts == 1
    ensures c.role == cfg.role && c.baseDelay == cfg.baseDelay && c.maxDelay == cfg.maxDelay
  {
    cfg.(maxAttempts := Max(1, cfg.maxAttempts))
  }

  /** `_safe_run` with the attempt bound clamped to at least one. */
  function SafeRun(run: nat -> Outcome, cfg: RetryConfig): (r: RunResult)
    ensures 1 <= r.meta.attempts <= Max(1, cfg.maxAttempts)
    ensures r.error.None? <==> run(r.meta.attempts).Succeeded?
    ensures r.error.None? ==>
      r.output == OutputText(run(r.meta.attempts).finalOutput) && |r.meta.errors| == r.meta.attempts - 1
    ensures r.error.Some? ==>
      r.output == "" && r.meta.attempts == |r.meta.errors| && r.error == Some(run(r.meta.attempts).error)
  {
    Loop(run, Clamped(cfg), 1, [])
  }

  // ---------------------------------------------------------------------------
  // Properties
  // ---------------------------------------------------------------------------

  lemma {:induction false} Pow2Monotone(a: nat, b: nat)
    requires a <= b
    ensures Pow2(a) <= Pow2(b)
    decreases b
  {
    if a < b {
      Pow2Monotone(a, b - 1);
    }
  }

  /** Backoff never shrinks from one attempt to the next and never exceeds
      the cap. */
  lemma DelayMonotone(base: nat, maxDelay: nat, j: nat, k: nat)
    requires 1 <= j <= k
    ensures Delay(base, maxDelay, j) <= Delay(base, maxDelay, k) <= maxDelay
  {
    Pow2Monotone(j - 1, k - 1);
    assert base * Pow2(j - 1) <= base * Pow2(k - 1) by {
      MulMonotone(base, Pow2(j - 1), Pow2(k - 1));
    }
  }

  lemma MulMonotone(a: nat, x: nat, y: nat)
    requires x <= y
    ensures a * x <= a * y
  {
  }

  /** Below the cap each delay doubles the previous one. */
  lemma DelayDoubles(base: nat, maxDelay: nat, k: nat)
    requires k >= 1 && base * Pow2(k) <= maxDelay
    ensures Delay(base, maxDelay, k + 1) == 2 * Delay(base, maxDelay, k)
  {
    Pow2Monotone(k - 1, k);
    MulMonotone(base, Pow2(k - 1), Pow2(k));
  }

  /** Every attempt before the last one made failed transiently. */
  lemma EarlierTransient(run: nat -> Outcome, cfg: RetryConfig)
    ensures forall j :: 1 <= j < SafeRun(run, cfg).meta.attempts ==> run(j).Retryable?
  {
    var r := SafeRun(run, cfg);
    var n := r.meta.attempts;
    var h := if r.error.None? then r.meta.errors else r.meta.errors[..n - 1];
    assert |h| == n - 1 && History(run, Clamped(cfg), h);
    forall j | 1 <= j < n ensures run(j).Retryable? {
      assert Recorded(run, Clamped(cfg), j - 1, h[j - 1]);
    }
  }

  /** A fatal error on attempt `k` means no attempt after it. */
  lemma FatalStops(run: nat -> Outcome, cfg: RetryConfig, k: nat)
    requires k >= 1 && run(k).Fatal?
    ensures SafeRun(run, cfg).meta.attempts <= k
  {
    EarlierTransient(run, cfg);
  }

  /** Every recorded error but the last was transient and followed by its
      backoff; the last one slept nothing. */
  lemma FailureRecord(run: nat -> Outcome, cfg: RetryConfig)
    requires SafeRun(run, cfg).error.Some?
    ensures var r := SafeRun(run, cfg); var n := r.meta.attempts;
      && n == |r.meta.errors|
      && r.meta.errors[n - 1].sleep.None?
      && (forall i :: 0 <= i < n - 1 ==>
            r.meta.errors[i].attempt == i + 1 && r.meta.errors[i].retryable
            && r.meta.errors[i].sleep == Some(Delay(cfg.baseDelay, cfg.maxDelay, i + 1)))
      && (r.meta.errors[n - 1].retryable ==> n == Max(1, cfg.maxAttempts))
  {
    var r := SafeRun(run, cfg);
    var n := r.meta.attempts;
    var h := r.meta.errors[..n - 1];
    assert History(run, Clamped(cfg), h);
    forall i | 0 <= i < n - 1 ensures Recorded(run, Clamped(cfg), i, r.meta.errors[i]) {
      assert r.meta.errors[i] == h[i];
    }
  }

  /** When every attempt fails transiently, all attempts are used. */
  lemma AllTransientExhausts(run: nat -> Outcome, cfg: RetryConfig)
    requires forall k :: 1 <= k ==> run(k).Retryable?
    ensures var r := SafeRun(run, cfg);
      && r.error.Some? && r.output == ""
      && r.meta.attempts == Max(1, cfg.maxAttempts) == |r.meta.errors|
  {
  }

  /** A first attempt that succeeds is the only attempt. */
  lemma FirstSuccess(run: nat -> Outcome, cfg: RetryConfig)
    requires run(1).Succeeded?
    ensures var r := SafeRun(run, cfg);
      && r.error.None? && r.meta.attempts == 1 && r.meta.errors == []
      && r.output == OutputText(run(1).finalOutput)
  {
  }

  /** As written, a non-positive attempt bound makes no attempt at all and
      still reports no error, so the caller takes the empty output for a
      successful run. */
  lemma AsWrittenNoAttempt(run: nat -> Outcome, cfg: RetryConfig)
    requires cfg.maxAttempts <= 0
    ensures var r := SafeRunAsWritten(run, cfg);
      && r.error.None? && r.output == "" && r.meta.attempts == 0
  {
  }

  /** The corrected loop never reports success without a successful attempt,
      and agrees with the written one whenever the bound is positive. */
  lemma ClampedAgrees(run: nat -> Outcome, cfg: RetryConfig)
    ensures SafeRun(run, cfg).error.None? ==> run(SafeRun(run, cfg).meta.attempts).Succeeded?
    ensures cfg.maxAttempts >= 1 ==> SafeRun(run, cfg) == SafeRunAsWritten(run, cfg)
  {
  }
}

=== FILE: sorting.dfy ===
/** Python's `sorted` on strings: code-point lexicographic order, used by the
    file listing and by the diff assembly. */
module Sorting {

  /** `a <= b` on Python strings: lexicographic by code point, a proper prefix
      sorting first. */
  predicate StrLe(a: string, b: string)
    decreases |a|
  {
    a == [] || (b != [] && (a[0] < b[0] || (a[0] == b[0] && StrLe(a[1..], b[1..]))))
  }

  predicate StrLt(a: string, b: string)
  {
    StrLe(a, b) && a != b
  }

  lemma {:induction false} StrLeRefl(a: string)
    ensures StrLe(a, a)
    decreases |a|
  {
    if a != [] {
      StrLeRefl(a[1..]);
    }
  }

  lemma {:induction false} StrLeAntisym(a: string, b: string)
    requires StrLe(a, b) && StrLe(b, a)
    ensures a == b
    decreases |a|
  {
    if a != [] {
      assert b != [] && a[0] == b[0];
      StrLeAntisym(a[1..], b[1..]);
      assert a == [a[0]] + a[1..];
      assert b == [b[0]] + b[1..];
    } else {
      assert b == [];
    }
  }

  lemma {:induction false} StrLeTrans(a: string, b: string, c: string)
    requires StrLe(a, b) && StrLe(b, c)
    ensures StrLe(a, c)
    decreases |a|
  {
    if a != [] && a[0] == b[0] && b[0] == c[0] {
      StrLeTrans(a[1..], b[1..], c[1..]);
    }
  }

  lemma {:induction false} StrLeTotal(a: string, b: string)
    ensures StrLe(a, b) || StrLe(b, a)
    decreases |a|
  {
    if a != [] && b != [] && a[0] == b[0] {
      StrLeTotal(a[1..], b[1..]);
    }
  }

  lemma StrLeAntisymAll()
    ensures forall a, b :: StrLe(a, b) && StrLe(b, a) ==> a == b
  {
    forall a, b | StrLe(a, b) && StrLe(b, a) ensures a == b {
      StrLeAntisym(a, b);
    }
  }

  predicate Sorted(s: seq<string>)
  {
    forall i, j :: 0 <= i < j < |s| ==> StrLe(s[i], s[j])
  }

  /** Inserts `x` into a sorted sequence. */
  function Insert(x: string, s: seq<string>): (r: seq<string>)
    requires Sorted(s)
    ensures Sorted(r)
    ensures multiset(r) == multiset(s) + multiset{x}
    decreases |s|
  {
    if s == [] then [x]
    else if StrLe(x, s[0]) then
      BelowHead(x, s);
      [x] + s
    else
      StrLeTotal(x, s[0]);
      var rest := Insert(x, s[1..]);
      SortedTail(s);
      HeadBelowRest(x, s, rest);
      [s[0]] + rest
  }

  /** Below the head of a sorted sequence is below all of it. */
  lemma BelowHead(x: string, s: seq<string>)
    requires Sorted(s) && s != [] && StrLe(x, s[0])
    ensures Sorted([x] + s)
  {
    forall j | 0 <= j < |s| ensures StrLe(x, s[j]) {
      if j > 0 { StrLeTrans(x, s[0], s[j]); }
    }
    var r := [x] + s;
    forall a, b | 0 <= a < b < |r| ensures StrLe(r[a], r[b]) {
      assert r[b] == s[b - 1];
      if a > 0 { assert r[a] == s[a - 1]; }
    }
  }

  lemma SortedTail(s: seq<string>)
    requires Sorted(s) && s != []
    ensures Sorted(s[1..])
  {
  }

  lemma HeadBelowElement(x: string, s: seq<string>, rest: seq<string>, j: nat)
    requires Sorted(s) && s != [] && StrLe(s[0], x)
    requires multiset(rest) == multiset(s[1..]) + multiset{x} && j < |rest|
    ensures StrLe(s[0], rest[j])
  {
    var y := rest[j];
    assert y in multiset(rest);
    if y != x {
      assert y in multiset(s[1..]);
      var t := s[1..];
      assert y in t;
      var k :| 0 <= k < |t| && t[k] == y;
      assert t[k] == s[k + 1];
    }
  }

  /** The head of a sorted sequence stays first when `x`, not below it, is
      inserted into the tail. */
  lemma HeadBelowRest(x: string, s: seq<string>, rest: seq<string>)
    requires Sorted(s) && s != [] && StrLe(s[0], x)
    requires Sorted(rest) && multiset(rest) == multiset(s[1..]) + multiset{x}
    ensures Sorted([s[0]] + rest)
    ensures multiset([s[0]] + rest) == multiset(s) + multiset{x}
  {
    forall j | 0 <= j < |rest| ensures StrLe(s[0], rest[j]) {
      HeadBelowElement(x, s, rest, j);
    }
    var r := [s[0]] + rest;
    forall a, b | 0 <= a < b < |r| ensures StrLe(r[a], r[b]) {
      assert r[b] == rest[b - 1];
      if a > 0 { assert r[a] == rest[a - 1]; }
    }
    assert s == [s[0]] + s[1..];
  }

  /** `sorted(s)`: the sorted permutation of `s`, duplicates kept. */
  function SortSeq(s: seq<string>): (r: seq<string>)
    ensures Sorted(r)
    ensures multiset(r) == multiset(s)
    decreases |s|
  {
    if s == [] then []
    else
      assert s == [s[0]] + s[1..];
      Insert(s[0], SortSeq(s[1..]))
  }

  predicate IsLeast(m: string, s: set<string>)
  {
    m in s && forall y :: y in s ==> StrLe(m, y)
  }

  /** Every non-empty finite set of strings has a least element. */
  lemma {:induction false} LeastExists(s: set<string>)
    requires s != {}
    ensures exists m :: IsLeast(m, s)
    decreases |s|
  {
    var x :| x in s;
    if s == {x} {
      StrLeRefl(x);
      assert IsLeast(x, s);
    } else {
      LeastExists(s - {x});
      var m :| IsLeast(m, s - {x});
      LeastAdd(m, x, s);
    }
  }

  lemma LeastAdd(m: string, x: string, s: set<string>)
    requires x in s && IsLeast(m, s - {x})
    ensures IsLeast(m, s) || IsLeast(x, s)
  {
    StrLeTotal(m, x);
    if StrLe(m, x) {
      assert IsLeast(m, s);
    } else {
      StrLeRefl(x);
      forall y | y in s ensures StrLe(x, y) {
        if y != x { StrLeTrans(x, m, y); }
      }
    }
  }

  /** `r` lists the elements of `s` once each, in increasing order. */
  predicate SortedListing(r: seq<string>, s: set<string>)
  {
    && |r| == |s|
    && (forall i :: 0 <= i < |r| ==> r[i] in s)
    && (forall x :: x in s ==> x in r)
    && (forall i, j :: 0 <= i < j < |r| ==> StrLt(r[i], r[j]))
  }

  lemma ListingCons(m: string, s: set<string>, rest: seq<string>)
    requires IsLeast(m, s) && SortedListing(rest, s - {m})
    ensures SortedListing([m] + rest, s)
  {
    var r := [m] + rest;
    assert |s - {m}| == |s| - 1;
    forall i, j | 0 <= i < j < |r| ensures StrLt(r[i], r[j]) {
      if i > 0 {
        assert r[i] == rest[i - 1] && r[j] == rest[j - 1];
      } else {
        assert r[j] == rest[j - 1];
        assert r[j] in s - {m};
      }
    }
    forall x | x in s ensures x in r {
      if x != m {
        assert x in s - {m};
      }
    }
  }

  /** The elements of a finite set of names, in increasing order: `sorted` of a
      directory's entries, which are distinct. */
  function SortSet(s: set<string>): (r: seq<string>)
    ensures SortedListing(r, s)
    decreases |s|
  {
    if s == {} then []
    else
      LeastExists(s);
      StrLeAntisymAll();
      var m :| IsLeast(m, s);
      var rest := SortSet(s - {m});
      ListingCons(m, s, rest);
      [m] + rest
  }
}

=== FILE: text.dfy ===
/** Text primitives the orchestrator relies on, restricted to ASCII semantics:
    Python's `str.strip`, `str.upper`, `str.lower`, `str.startswith`, `in`,
    `str.split(sep)` / `sep.join(...)`, and decimal rendering of integers. */
module Text {

  /** Python's `str.isspace` restricted to ASCII: tab, line feed, vertical tab,
      form feed, carriage return, the four information separators and space. */
  predicate IsSpace(c: char)
  {
    9 <= c as int <= 13 || 28 <= c as int <= 32
  }

  predicate IsBlank(s: string)
  {
    forall i :: 0 <= i < |s| ==> IsSpace(s[i])
  }

  /** `s.lstrip()`: drops the leading whitespace and nothing else. */
  function TrimLeft(s: string): (r: string)
    ensures |r| <= |s| && r == s[|s| - |r|..]
    ensures IsBlank(s[..|s| - |r|])
    ensures r == [] || !IsSpace(r[0])
    decreases |s|
  {
    if |s| > 0 && IsSpace(s[0]) then
      var r := TrimLeft(s[1..]);
      BlankConsPrefix(s, |s| - 1 - |r|);
      assert s[1..][|s| - 1 - |r|..] == s[|s| - |r|..];
      r
    else
      assert s[..0] == [];
      s
  }

  lemma BlankConsPrefix(s: string, k: nat)
    requires |s| > 0 && IsSpace(s[0]) && k < |s| && IsBlank(s[1..][..k])
    ensures IsBlank(s[..k + 1])
  {
    var t := s[..k + 1];
    forall i | 0 < i < |t| ensures IsSpace(t[i]) {
      assert t[i] == s[1..][..k][i - 1];
    }
  }

  lemma BlankSuffixSnoc(s: string, k: nat)
    requires |s| > 0 && IsSpace(s[|s| - 1]) && k < |s| && IsBlank(s[..|s| - 1][k..])
    ensures IsBlank(s[k..])
  {
    forall i | 0 <= i < |s| - k - 1 ensures IsSpace(s[k..][i]) {
      assert s[k..][i] == s[..|s| - 1][k..][i];
    }
    assert s[k..][|s| - k - 1] == s[|s| - 1];
  }

  /** `s.rstrip()`: drops the trailing whitespace and nothing else. */
  function TrimRight(s: string): (r: string)
    ensures |r| <= |s| && r == s[..|r|]
    ensures IsBlank(s[|r|..])
    ensures r == [] || !IsSpace(r[|r| - 1])
    decreases |s|
  {
    if |s| > 0 && IsSpace(s[|s| - 1]) then
      var r := TrimRight(s[..|s| - 1]);
      BlankSuffixSnoc(s, |r|);
      assert s[..|s| - 1][..|r|] == s[..|r|];
      r
    else
      assert s[|s|..] == [];
      s
  }

  /** `s.strip()`. */
  function Strip(s: string): (r: string)
    ensures r == [] <==> IsBlank(s)
    ensures r == [] || (!IsSpace(r[0]) && !IsSpace(r[|r| - 1]))
    ensures |r| <= |s|
  {
    var l := TrimLeft(s);
    TrimRightKeepsHead(l);
    assert l != [] ==> s[|s| - |l|] == l[0];
    assert s[..|s|] == s;
    TrimRight(l)
  }

  lemma {:induction false} TrimRightKeepsHead(l: string)
    requires l == [] || !IsSpace(l[0])
    ensures l != [] ==> TrimRight(l) != [] && TrimRight(l)[0] == l[0]
    decreases |l|
  {
    if |l| > 1 && IsSpace(l[|l| - 1]) {
      TrimRightKeepsHead(l[..|l| - 1]);
    }
  }

  predicate IsStripped(s: string)
  {
    s == [] || (!IsSpace(s[0]) && !IsSpace(s[|s| - 1]))
  }

  lemma StripOfStripped(s: string)
    requires IsStripped(s)
    ensures Strip(s) == s
  {
    if s != [] {
      assert TrimLeft(s) == s;
      assert TrimRight(s) == s;
    }
  }

  lemma StripIdempotent(s: string)
    ensures Strip(Strip(s)) == Strip(s)
  {
    StripOfStripped(Strip(s));
  }

  /** Leading whitespace never survives `strip`. */
  lemma StripConsSpace(c: char, s: string)
    requires IsSpace(c)
    ensures Strip([c] + s) == Strip(s)
  {
    assert ([c] + s)[1..] == s;
  }

  lemma BlankCons(s: string)
    requires s != []
    ensures IsBlank(s) <==> IsSpace(s[0]) && IsBlank(s[1..])
  {
    if IsSpace(s[0]) && IsBlank(s[1..]) {
      forall i | 0 <= i < |s| ensures IsSpace(s[i]) {
        if i > 0 { assert s[i] == s[1..][i - 1]; }
      }
    }
    if IsBlank(s) {
      forall i | 0 <= i < |s[1..]| ensures IsSpace(s[1..][i]) {
        assert s[1..][i] == s[i + 1];
      }
    }
  }

  lemma {:induction false} TrimLeftSnoc(s: string, c: char)
    ensures TrimLeft(s + [c]) == if IsBlank(s) then TrimLeft([c]) else TrimLeft(s) + [c]
    decreases |s|
  {
    if s == [] {
      assert s + [c] == [c];
    } else {
      assert (s + [c])[0] == s[0];
      assert (s + [c])[1..] == s[1..] + [c];
      BlankCons(s);
      if IsSpace(s[0]) {
        TrimLeftSnoc(s[1..], c);
      }
    }
  }

  /** Trailing whitespace never survives `strip`. */
  lemma StripSnocSpace(s: string, c: char)
    requires IsSpace(c)
    ensures Strip(s + [c]) == Strip(s)
  {
    TrimLeftSnoc(s, c);
    if IsBlank(s) {
      assert TrimLeft([c]) == [];
    } else {
      var l := TrimLeft(s);
      assert (l + [c])[..|l + [c]| - 1] == l;
    }
  }

  function UpperChar(c: char): char
  {
    if 'a' <= c <= 'z' then (c as int - 32) as char else c
  }

  function LowerChar(c: char): char
  {
    if 'A' <= c <= 'Z' then (c as int + 32) as char else c
  }

  /** `s.upper()` on ASCII letters. */
  function Upper(s: string): (r: string)
    ensures |r| == |s|
  {
    seq(|s|, i requires 0 <= i < |s| => UpperChar(s[i]))
  }

  /** `s.lower()` on ASCII letters. */
  function Lower(s: string): (r: string)
    ensures |r| == |s|
  {
    seq(|s|, i requires 0 <= i < |s| => LowerChar(s[i]))
  }

  /** `s.startswith(p)`. */
  predicate StartsWith(s: string, p: string)
  {
    |p| <= |s| && s[..|p|] == p
  }

  /** `s.endswith(p)`. */
  predicate EndsWith(s: string, p: string)
  {
    |p| <= |s| && s[|s| - |p|..] == p
  }

  /** `p in s` for strings. */
  predicate Contains(s: string, p: string)
  {
    exists i :: 0 <= i <= |s| && StartsWith(s[i..], p)
  }

  /** `s.split(sep)` for a one-character separator: always at least one piece,
      and no piece contains the separator. */
  function Split(s: string, sep: char): (r: seq<string>)
    ensures |r| >= 1
    ensures forall i :: 0 <= i < |r| ==> sep !in r[i]
    decreases |s|
  {
    if s == [] then [""]
    else
      var rest := Split(s[1..], sep);
      if s[0] == sep then [""] + rest
      else [[s[0]] + rest[0]] + rest[1..]
  }

  /** `sep.join(ls)`. */
  function Join(ls: seq<string>, sep: string): string
    decreases |ls|
  {
    if |ls| == 0 then ""
    else if |ls| == 1 then ls[0]
    else ls[0] + sep + Join(ls[1..], sep)
  }

  /** Joining two non-empty lists puts one separator between their joins. */
  lemma {:induction false} JoinAppend(a: seq<string>, b: seq<string>, sep: string)
    requires a != [] && b != []
    ensures Join(a + b, sep) == Join(a, sep) + sep + Join(b, sep)
    decreases |a|
  {
    assert (a + b)[0] == a[0];
    if |a| == 1 {
      assert (a + b)[1..] == b;
    } else {
      assert (a + b)[1..] == a[1..] + b;
      JoinAppend(a[1..], b, sep);
      ConcatAssoc(a[0] + sep, Join(a[1..], sep), sep + Join(b, sep));
      ConcatAssoc(a[0] + sep + Join(a[1..], sep), sep, Join(b, sep));
      ConcatAssoc(Join(a[1..], sep), sep, Join(b, sep));
    }
  }

  /** Lines of a text, split on line feed only. */
  function Lines(s: string): seq<string>
  {
    Split(s, '\n')
  }

  /** `"\n".join(ls)`. */
  function JoinLines(ls: seq<string>): string
  {
    Join(ls, "\n")
  }

  /** Splitting a join gives the pieces back. */
  lemma {:induction false} SplitJoin(ls: seq<string>, sep: char)
    requires |ls| >= 1
    requires forall i :: 0 <= i < |ls| ==> sep !in ls[i]
    ensures Split(Join(ls, [sep]), sep) == ls
    decreases |ls|
  {
    if |ls| == 1 {
      SplitNoSep(ls[0], sep);
    } else {
      SplitJoin(ls[1..], sep);
      SplitAppend(ls[0], Join(ls[1..], [sep]), sep);
      SplitNoSep(ls[0], sep);
      assert [ls[0]] + ls[1..] == ls;
    }
  }

  /** Joining a split gives the text back. */
  lemma {:induction false} JoinSplit(s: string, sep: char)
    ensures Join(Split(s, sep), [sep]) == s
    decreases |s|
  {
    if s != [] {
      JoinSplit(s[1..], sep);
      var rest := Split(s[1..], sep);
      if s[0] == sep {
        assert ([""] + rest)[1..] == rest;
        assert s == [sep] + s[1..];
      } else {
        var r := [[s[0]] + rest[0]] + rest[1..];
        if |rest| == 1 {
          assert s == [s[0]] + s[1..];
        } else {
          assert r[1..] == rest[1..];
          assert Join(rest, [sep]) == rest[0] + [sep] + Join(rest[1..], [sep]);
          assert s == [s[0]] + s[1..];
        }
      }
    }
  }

  lemma {:induction false} SplitNoSep(s: string, sep: char)
    requires sep !in s
    ensures Split(s, sep) == [s]
    decreases |s|
  {
    if s != [] {
      assert s[0] in s;
      assert forall c :: c in s[1..] ==> c in s;
      SplitNoSep(s[1..], sep);
      assert [s[0]] + s[1..] == s;
    }
  }

  /** One step of `Split`, stated once so that proofs need not unfold it. */
  lemma SplitCons(c: char, s: string, sep: char)
    ensures var rest := Split(s, sep);
      Split([c] + s, sep) == if c == sep then [""] + rest else [[c] + rest[0]] + rest[1..]
  {
    assert ([c] + s)[1..] == s;
  }

  /** A separator splits the text into the pieces of each side. */
  lemma {:induction false} SplitAppend(a: string, b: string, sep: char)
    ensures Split(a + [sep] + b, sep) == Split(a, sep) + Split(b, sep)
    decreases |a|
  {
    if a == [] {
      assert a + [sep] + b == [sep] + b;
      SplitCons(sep, b, sep);
    } else {
      var a' := a[1..];
      assert a == [a[0]] + a';
      assert a + [sep] + b == [a[0]] + (a' + [sep] + b);
      SplitAppend(a', b, sep);
      SplitCons(a[0], a' + [sep] + b, sep);
      SplitCons(a[0], a', sep);
      SplitAppendTail(a[0], Split(a', sep), Split(b, sep), sep);
    }
  }

  lemma SplitAppendTail(c: char, ra: seq<string>, sb: seq<string>, sep: char)
    requires |ra| >= 1
    ensures var rt := ra + sb;
      (if c == sep then [""] + rt else [[c] + rt[0]] + rt[1..])
      == (if c == sep then [""] + ra else [[c] + ra[0]] + ra[1..]) + sb
  {
    if c != sep {
      assert (ra + sb)[1..] == ra[1..] + sb;
    }
  }

  /** Appending a non-separator character extends the last piece. */
  lemma {:induction false} SplitSnoc(s: string, c: char, sep: char)
    requires c != sep
    ensures var p := Split(s, sep);
      Split(s + [c], sep) == p[..|p| - 1] + [p[|p| - 1] + [c]]
    decreases |s|
  {
    if s == [] {
      assert s + [c] == [c] + [];
      SplitCons(c, [], sep);
    } else {
      var s' := s[1..];
      assert s == [s[0]] + s';
      assert s + [c] == [s[0]] + (s' + [c]);
      SplitSnoc(s', c, sep);
      SplitCons(s[0], s' + [c], sep);
      SplitCons(s[0], s', sep);
      SplitSnocTail(s[0], Split(s', sep), c, sep);
    }
  }

  lemma SplitSnocTail(h: char, q: seq<string>, c: char, sep: char)
    requires |q| >= 1
    ensures var q' := q[..|q| - 1] + [q[|q| - 1] + [c]];
      var p := if h == sep then [""] + q else [[h] + q[0]] + q[1..];
      (if h == sep then [""] + q' else [[h] + q'[0]] + q'[1..])
      == p[..|p| - 1] + [p[|p| - 1] + [c]]
  {
    var q' := q[..|q| - 1] + [q[|q| - 1] + [c]];
    if h != sep {
      if |q| == 1 {
        assert q' == [q[0] + [c]];
        ConcatAssoc([h], q[0], [c]);
      } else {
        assert q'[0] == q[0];
        assert q'[1..] == q[1..|q| - 1] + [q[|q| - 1] + [c]];
      }
    } else {
      assert ([""] + q)[..|q|] == [""] + q[..|q| - 1];
    }
  }

  /** Every piece of a split is made of characters of the text. */
  lemma {:induction false} SplitChars(s: string, sep: char)
    ensures forall i, c :: 0 <= i < |Split(s, sep)| && c in Split(s, sep)[i] ==> c in s
    decreases |s|
  {
    if s != [] {
      SplitChars(s[1..], sep);
      assert forall c :: c in s[1..] ==> c in s;
    }
  }

  /** `strip` applied to every line, blank results dropped, order kept. */
  function NonBlankStripped(ls: seq<string>): (r: seq<string>)
    ensures |r| <= |ls|
    decreases |ls|
  {
    if ls == [] then [] else KeepStripped(ls[0]) + NonBlankStripped(ls[1..])
  }

  /** Every line is non-empty and stripped. */
  predicate AllClean(ls: seq<string>)
  {
    forall i :: 0 <= i < |ls| ==> ls[i] != [] && IsStripped(ls[i])
  }

  lemma AllCleanConcat(a: seq<string>, b: seq<string>)
    requires AllClean(a) && AllClean(b)
    ensures AllClean(a + b)
  {
    forall i | 0 <= i < |a + b| ensures (a + b)[i] != [] && IsStripped((a + b)[i]) {
      if i >= |a| { assert (a + b)[i] == b[i - |a|]; } else { assert (a + b)[i] == a[i]; }
    }
  }

  lemma KeepStrippedClean(l: string)
    ensures AllClean(KeepStripped(l))
  {
    if Strip(l) != [] {
      var s := Strip(l);
      assert IsStripped(s);
      assert KeepStripped(l) == [s];
    }
  }

  /** Every kept line is non-empty and stripped. */
  lemma {:induction false} NonBlankStrippedClean(ls: seq<string>)
    ensures AllClean(NonBlankStripped(ls))
    decreases |ls|
  {
    if ls != [] {
      NonBlankStrippedClean(ls[1..]);
      NonBlankStrippedCons(ls);
      KeepStrippedClean(ls[0]);
      AllCleanConcat(KeepStripped(ls[0]), NonBlankStripped(ls[1..]));
    }
  }

  lemma {:induction false} NonBlankStrippedAppend(a: seq<string>, b: seq<string>)
    ensures NonBlankStripped(a + b) == NonBlankStripped(a) + NonBlankStripped(b)
    decreases |a|
  {
    if a != [] {
      var ab := a + b;
      assert ab[0] == a[0];
      assert ab[1..] == a[1..] + b;
      NonBlankStrippedAppend(a[1..], b);
      NonBlankStrippedCons(ab);
      NonBlankStrippedCons(a);
      ConcatAssoc(KeepStripped(a[0]), NonBlankStripped(a[1..]), NonBlankStripped(b));
    } else {
      assert a + b == b;
    }
  }

  /** The part a single line contributes: its stripped form unless blank. */
  function KeepStripped(l: string): seq<string>
  {
    if Strip(l) == [] then [] else [Strip(l)]
  }

  lemma NonBlankStrippedCons(ls: seq<string>)
    requires ls != []
    ensures NonBlankStripped(ls) == KeepStripped(ls[0]) + NonBlankStripped(ls[1..])
  {
  }

  /** Concatenation is associative, stated once over plain sequences. */
  lemma ConcatAssoc<T>(a: seq<T>, b: seq<T>, c: seq<T>)
    ensures a + (b + c) == (a + b) + c
  {
  }

  lemma {:induction false} NonBlankStrippedOfClean(ls: seq<string>)
    requires forall i :: 0 <= i < |ls| ==> ls[i] != [] && IsStripped(ls[i])
    ensures NonBlankStripped(ls) == ls
    decreases |ls|
  {
    if ls != [] {
      var h, t := ls[0], ls[1..];
      StripOfStripped(h);
      NonBlankStrippedOfClean(t);
      NonBlankStrippedCons(ls);
      assert [h] + t == ls;
    }
  }

  /** The non-blank lines of a text, each stripped: what every line-oriented
      reader of the orchestrator actually looks at. */
  function StrippedLines(s: string): seq<string>
  {
    NonBlankStripped(Lines(s))
  }

  lemma StrippedLinesConsSpace(c: char, s: string)
    requires IsSpace(c)
    ensures StrippedLines([c] + s) == StrippedLines(s)
  {
    var t := [c] + s;
    assert t[0] == c && t[1..] == s;
    var rest := Lines(s);
    if c == '\n' {
      var lt := Lines(t);
      assert lt == [""] + rest;
      assert lt[0] == "" && lt[1..] == rest;
      NonBlankStrippedCons(lt);
    } else {
      var lt := Lines(t);
      assert lt == [[c] + rest[0]] + rest[1..];
      assert lt[0] == [c] + rest[0] && lt[1..] == rest[1..];
      StripConsSpace(c, rest[0]);
      NonBlankStrippedCons(lt);
      NonBlankStrippedCons(rest);
    }
  }

  lemma NonBlankStrippedSingle(x: string)
    ensures NonBlankStripped([x]) == if Strip(x) == [] then [] else [Strip(x)]
  {
    assert [x][1..] == [];
  }

  lemma StrippedLinesSnocNewline(s: string)
    ensures StrippedLines(s + ['\n']) == StrippedLines(s)
  {
    SplitAppend(s, "", '\n');
    assert s + ['\n'] + "" == s + ['\n'];
    assert Lines("") == [""];
    assert Lines(s + ['\n']) == Lines(s) + [""];
    NonBlankStrippedAppend(Lines(s), [""]);
    NonBlankStrippedSingle("");
    assert NonBlankStripped(Lines(s)) + [] == NonBlankStripped(Lines(s));
  }

  lemma StrippedLinesSnocOther(s: string, c: char)
    requires IsSpace(c) && c != '\n'
    ensures StrippedLines(s + [c]) == StrippedLines(s)
  {
    var p := Lines(s);
    var front := p[..|p| - 1];
    var last := p[|p| - 1];
    assert p == front + [last];
    SplitSnoc(s, c, '\n');
    StripSnocSpace(last, c);
    NonBlankStrippedAppend(front, [last + [c]]);
    NonBlankStrippedAppend(front, [last]);
    NonBlankStrippedSingle(last);
    NonBlankStrippedSingle(last + [c]);
  }

  lemma StrippedLinesSnocSpace(s: string, c: char)
    requires IsSpace(c)
    ensures StrippedLines(s + [c]) == StrippedLines(s)
  {
    if c == '\n' {
      StrippedLinesSnocNewline(s);
    } else {
      StrippedLinesSnocOther(s, c);
    }
  }

  lemma StrippedLinesOfTrimLeft(s: string)
    ensures StrippedLines(TrimLeft(s)) == StrippedLines(s)
  {
    var t := TrimLeft(s);
    var k := |s| - |t|;
    assert t == s[k..];
    StrippedLinesIgnoresLeadingSpace();
    DropBlankPrefix(StrippedLines, s, k);
    assert StrippedLines(s[k..]) == StrippedLines(s);
  }

  ghost predicate IgnoresLeadingSpace(f: string -> seq<string>)
  {
    forall c: char, t: string :: IsSpace(c) ==> f([c] + t) == f(t)
  }

  lemma StrippedLinesIgnoresLeadingSpace()
    ensures IgnoresLeadingSpace(StrippedLines)
  {
    forall c: char, t: string | IsSpace(c) ensures StrippedLines([c] + t) == StrippedLines(t) {
      StrippedLinesConsSpace(c, t);
    }
  }

  /** Whatever ignores one leading space ignores a whole blank prefix. */
  lemma {:induction false} DropBlankPrefix(f: string -> seq<string>, s: string, k: nat)
    requires IgnoresLeadingSpace(f)
    requires k <= |s| && IsBlank(s[..k])
    ensures f(s[k..]) == f(s)
    decreases k
  {
    if k > 0 {
      var tail := s[1..];
      assert IsBlank(tail[..k - 1]) by {
        assert tail[..k - 1] == s[..k][1..];
      }
      DropBlankPrefix(f, tail, k - 1);
      assert tail[k - 1..] == s[k..];
      assert s[..k][0] == s[0];
      assert s == [s[0]] + tail;
    } else {
      assert s[0..] == s;
    }
  }

  lemma {:induction false} StrippedLinesOfTrimRight(s: string)
    ensures StrippedLines(TrimRight(s)) == StrippedLines(s)
    decreases |s|
  {
    if |s| > 0 && IsSpace(s[|s| - 1]) {
      var s' := s[..|s| - 1];
      assert TrimRight(s) == TrimRight(s');
      StrippedLinesOfTrimRight(s');
      StrippedLinesSnocSpace(s', s[|s| - 1]);
      DropLast(s);
    }
  }

  lemma DropLast(s: string)
    requires |s| > 0
    ensures s[..|s| - 1] + [s[|s| - 1]] == s
  {
  }

  /** Stripping the whole text first does not change its stripped lines. */
  lemma StrippedLinesOfStrip(s: string)
    ensures StrippedLines(Strip(s)) == StrippedLines(s)
  {
    StrippedLinesOfTrimLeft(s);
    StrippedLinesOfTrimRight(TrimLeft(s));
  }

  /** Joining clean lines and reading them back gives the same lines. */
  lemma StrippedLinesOfJoin(ls: seq<string>)
    requires forall i :: 0 <= i < |ls| ==> ls[i] != [] && IsStripped(ls[i]) && '\n' !in ls[i]
    ensures StrippedLines(JoinLines(ls)) == ls
  {
    if ls == [] {
      assert Lines("") == [""];
      NonBlankStrippedSingle("");
    } else {
      assert JoinLines(ls) == Join(ls, ['\n']);
      SplitJoin(ls, '\n');
      assert Lines(JoinLines(ls)) == ls;
      NonBlankStrippedOfClean(ls);
    }
  }

  /** A blank text has no non-blank lines. */
  lemma BlankLinesVanish(s: string)
    requires IsBlank(s)
    ensures StrippedLines(s) == []
  {
    BlankLines(s);
    AllBlankVanish(Lines(s));
  }

  lemma {:induction false} AllBlankVanish(ls: seq<string>)
    requires forall i :: 0 <= i < |ls| ==> IsBlank(ls[i])
    ensures NonBlankStripped(ls) == []
    decreases |ls|
  {
    if ls != [] {
      AllBlankVanish(ls[1..]);
    }
  }

  /** Every line of a blank text is blank. */
  lemma BlankLines(s: string)
    requires IsBlank(s)
    ensures forall i :: 0 <= i < |Lines(s)| ==> IsBlank(Lines(s)[i])
  {
    SplitChars(s, '\n');
    forall i | 0 <= i < |Lines(s)| ensures IsBlank(Lines(s)[i]) {
      var l := Lines(s)[i];
      forall j | 0 <= j < |l| ensures IsSpace(l[j]) {
        assert l[j] in l;
        assert l[j] in s;
        var k :| 0 <= k < |s| && s[k] == l[j];
      }
    }
  }

  function DigitChar(d: nat): (c: char)
    requires d < 10
    ensures '0' <= c <= '9'
  {
    ('0' as int + d) as char
  }

  /** Decimal rendering of a natural number, as `str(n)`. */
  function NatToString(n: nat): (r: string)
    ensures 1 <= |r| <= n + 1
    ensures forall i :: 0 <= i < |r| ==> '0' <= r[i] <= '9'
    decreases n
  {
    if n < 10 then [DigitChar(n)] else NatToString(n / 10) + [DigitChar(n % 10)]
  }

  function Pow10(k: nat): (r: nat)
    ensures r >= 1
  {
    if k == 0 then 1 else 10 * Pow10(k - 1)
  }

  /** A number below `10^k` takes at most `k` digits. */
  lemma {:induction false} NatToStringShort(n: nat, k: nat)
    requires 1 <= k && n < Pow10(k)
    ensures |NatToString(n)| <= k
    decreases k
  {
    if n >= 10 {
      assert k > 1;
      NatToStringShort(n / 10, k - 1);
    }
  }

  /** The number a string of decimal digits denotes, as `int(s)`. */
  function DigitsValue(s: string): nat
    requires forall i :: 0 <= i < |s| ==> '0' <= s[i] <= '9'
    decreases |s|
  {
    if s == [] then 0
    else
      var init := s[..|s| - 1];
      assert forall i :: 0 <= i < |init| ==> init[i] == s[i];
      DigitsValue(init) * 10 + (s[|s| - 1] as int - '0' as int)
  }

  /** Reading the rendering back gives the number: `int(str(n)) == n`. */
  lemma {:induction false} NatToStringValue(n: nat)
    ensures DigitsValue(NatToString(n)) == n
    decreases n
  {
    if n >= 10 {
      NatToStringValue(n / 10);
      var a := NatToString(n / 10);
      var r := a + [DigitChar(n % 10)];
      assert r[..|r| - 1] == a;
    }
  }

  /** Decimal rendering of an integer, as `str(n)`. */
  function IntToString(n: int): string
  {
    if n < 0 then "-" + NatToString(-n) else NatToString(n)
  }
}

=== FILE: tools_fs.dfy ===
/** The sandboxed file tools of `orchestrator/tools_fs.py`: path resolution
    confined to a base directory, the write permission checks, directory
    listing, and the event each successful call logs. The file system is an
    abstract map from resolved paths to nodes; `..` is resolved lexically. */
module ToolsFs {
  import opened Common
  import opened Text
  import opened Sorting
  import opened Context

  // ---------------------------------------------------------------------------
  // Path parsing, as `pathlib.PurePosixPath` does it
  // ---------------------------------------------------------------------------

  /** A parsed path: whether it carries the root anchor, and its parts after
      the anchor. */
  datatype PurePath = PurePath(anchored: bool, parts: seq<string>)

  /** The parts `pathlib` keeps from the pieces between separators: empty
      pieces and `.` disappear, everything else stays in order. */
  function KeepParts(pieces: seq<string>): (r: seq<string>)
    ensures forall i :: 0 <= i < |r| ==> r[i] != "" && r[i] != "." && r[i] in pieces
    ensures |r| <= |pieces|
    decreases |pieces|
  {
    if pieces == [] then []
    else
      var rest := KeepParts(pieces[1..]);
      assert forall x :: x in rest ==> x in pieces;
      if pieces[0] == "" || pieces[0] == "." then rest else [pieces[0]] + rest
  }

  /** `Path(text)`. */
  function ParsePath(text: string): PurePath
  {
    PurePath(text != "" && text[0] == '/', KeepParts(Split(text, '/')))
  }

  /** The parts of a relative text are names or `..`. */
  lemma ParsePathShape(text: string)
    ensures NamesOrParent(ParsePath(text).parts)
  {
    var parts := ParsePath(text).parts;
    forall i | 0 <= i < |parts| ensures IsName(parts[i]) || parts[i] == ".." {
      var k :| 0 <= k < |Split(text, '/')| && Split(text, '/')[k] == parts[i];
    }
  }

  /** Rendering a canonical path and parsing it back gives the same path. */
  lemma {:induction false} ParsePathString(p: Path)
    requires IsCanonical(p)
    ensures ParsePath(PathString(p)) == PurePath(true, p)
  {
    var text := PathString(p);
    assert text == "" + ['/'] + Join(p, "/");
    SplitAppend("", Join(p, "/"), '/');
    if p == [] {
      assert Split(text, '/') == ["", ""];
      assert ["", ""][1..] == [""];
      assert KeepParts([""]) == [];
    } else {
      SplitJoin(p, '/');
      KeepPartsOfNames([""] + p);
    }
  }

  lemma {:induction false} KeepPartsOfNames(pieces: seq<string>)
    requires pieces != [] && pieces[0] == ""
    requires forall i :: 1 <= i < |pieces| ==> IsName(pieces[i])
    ensures KeepParts(pieces) == pieces[1..]
  {
    KeepPartsNames(pieces[1..]);
  }

  lemma {:induction false} KeepPartsNames(names: seq<string>)
    requires forall i :: 0 <= i < |names| ==> IsName(names[i])
    ensures KeepParts(names) == names
    decreases |names|
  {
    if names != [] {
      KeepPartsNames(names[1..]);
      assert [names[0]] + names[1..] == names;
    }
  }

  // ---------------------------------------------------------------------------
  // Resolution
  // ---------------------------------------------------------------------------

  datatype PathError = PathRequired | TildePath | AbsolutePath | EscapesBase

  /** `path.name`: the last segment, or `""` for the root. */
  function Name(p: Path): string
  {
    if p == [] then "" else p[|p| - 1]
  }

  /** The parent directory; the root is its own parent. */
  function Parent(p: Path): Path
  {
    if p == [] then [] else p[..|p| - 1]
  }

  /** `_is_within(path, parent)`: `path.relative_to(parent)` succeeds. */
  predicate IsWithin(path: Path, parent: Path)
  {
    |parent| <= |path| && path[..|parent|] == parent
  }

  /** A path is within a directory exactly when it extends it by some parts. */
  lemma IsWithinIff(path: Path, parent: Path)
    ensures IsWithin(path, parent) <==> exists rest :: path == parent + rest
  {
    if IsWithin(path, parent) {
      assert path == parent + path[|parent|..];
    }
    if exists rest :: path == parent + rest {
      var rest :| path == parent + rest;
      assert path[..|parent|] == parent;
    }
  }

  /** Parts that are either names or `..`. */
  predicate NamesOrParent(parts: seq<string>)
  {
    forall i :: 0 <= i < |parts| ==> IsName(parts[i]) || parts[i] == ".."
  }

  lemma NamesOrParentTail(parts: seq<string>)
    requires parts != [] && NamesOrParent(parts)
    ensures NamesOrParent(parts[1..])
  {
    forall i | 0 <= i < |parts[1..]| ensures IsName(parts[1..][i]) || parts[1..][i] == ".." {
      assert parts[1..][i] == parts[i + 1];
    }
  }

  /** One step of lexical resolution: `..` climbs, stopping at the root. */
  function Step(acc: Path, part: string): Path
  {
    if part == ".." then Parent(acc) else acc + [part]
  }

  /** `(base / parts).resolve()` without symbolic links. */
  function Resolve(acc: Path, parts: seq<string>): Path
    decreases |parts|
  {
    if parts == [] then acc else Resolve(Step(acc, parts[0]), parts[1..])
  }

  /** Lexical resolution of names and `..` from a canonical path is canonical. */
  lemma {:induction false} ResolveCanonical(acc: Path, parts: seq<string>)
    requires IsCanonical(acc) && NamesOrParent(parts)
    ensures IsCanonical(Resolve(acc, parts))
    decreases |parts|
  {
    if parts != [] {
      var next := Step(acc, parts[0]);
      assert IsCanonical(next);
      NamesOrParentTail(parts);
      ResolveCanonical(next, parts[1..]);
    }
  }

  /** Without `..`, resolution just appends the parts. */
  lemma {:induction false} ResolveNoParent(acc: Path, parts: seq<string>)
    requires ".." !in parts
    ensures Resolve(acc, parts) == acc + parts
    decreases |parts|
  {
    if parts != [] {
      assert parts[0] != "..";
      assert forall x :: x in parts[1..] ==> x in parts;
      ResolveNoParent(acc + [parts[0]], parts[1..]);
      assert acc + [parts[0]] + parts[1..] == acc + parts;
    }
  }

  /** Drops a first part equal to the base directory's name, the way an agent
      that repeats the base (`workspace/app/x.py` under `workspace`) means. */
  function StripBaseName(candidate: PurePath, baseName: string): (r: PurePath)
    ensures r.anchored == candidate.anchored
    ensures NamesOrParent(candidate.parts) ==> NamesOrParent(r.parts)
  {
    // With an anchor, the first part is the anchor itself, which never equals
    // a directory name.
    if !candidate.anchored && candidate.parts != [] && candidate.parts[0] == baseName then
      assert NamesOrParent(candidate.parts) ==> NamesOrParent(candidate.parts[1..]) by {
        if NamesOrParent(candidate.parts) { NamesOrParentTail(candidate.parts); }
      }
      PurePath(false, candidate.parts[1..])
    else candidate
  }

  /** `_resolve_path(base, rel_path)`: the error cases in the order the
      source checks them, and a result that never leaves the base. */
  function ResolvePath(base: Path, rel: string): (r: Result<Path, PathError>)
    requires IsCanonical(base)
    ensures rel == "" ==> r == Failure(PathRequired)
    ensures rel != "" && rel[0] == '~' ==> r == Failure(TildePath)
    ensures rel != "" && rel[0] == '/' ==> r == Failure(AbsolutePath)
    ensures r.Success? ==> IsWithin(r.value, base) && IsCanonical(r.value)
  {
    if rel == "" then Failure(PathRequired)
    else if rel[0] == '~' then Failure(TildePath)
    else
      var candidate := StripBaseName(ParsePath(rel), Name(base));
      if candidate.anchored then Failure(AbsolutePath)
      else
        var resolved := Resolve(base, candidate.parts);
        ParsePathShape(rel);
        ResolveCanonical(base, candidate.parts);
        if IsWithin(resolved, base) then Success(resolved) else Failure(EscapesBase)
  }

  /** The relative parts of a path text. */
  function RelParts(rel: string): seq<string>
  {
    KeepParts(Split(rel, '/'))
  }

  /** A relative path without `..` that does not repeat the base name lands
      exactly at `base / parts`. */
  lemma DescendantPath(base: Path, rel: string)
    requires IsCanonical(base)
    requires rel != "" && rel[0] != '~' && rel[0] != '/'
    requires ".." !in RelParts(rel)
    requires RelParts(rel) == [] || RelParts(rel)[0] != Name(base)
    ensures ResolvePath(base, rel) == Success(base + RelParts(rel))
  {
    ResolveNoParent(base, RelParts(rel));
  }

  /** `Path(".")` (the listing default) is the base itself. */
  lemma DotIsBase(base: Path)
    requires IsCanonical(base)
    ensures ResolvePath(base, ".") == Success(base)
  {
    SplitNoSep(".", '/');
    assert KeepParts(["."]) == [];
  }

  lemma SplitNameFirst(name: string, rest: string)
    requires name != "" && name != "." && '/' !in name
    ensures RelParts(name + "/" + rest) == [name] + RelParts(rest)
  {
    assert name + "/" + rest == name + ['/'] + rest;
    SplitAppend(name, rest, '/');
    SplitNoSep(name, '/');
    var pieces := Split(name + "/" + rest, '/');
    assert pieces == [name] + Split(rest, '/');
    assert pieces[1..] == Split(rest, '/');
  }

  /** A path that repeats the base directory's name is read below the base:
      `workspace/app/x.py` under `.../workspace` is `.../workspace/app/x.py`. */
  lemma ReprefixedBaseName(base: Path, rest: string)
    requires IsCanonical(base) && base != []
    requires Name(base)[0] != '~'
    requires ".." !in RelParts(rest)
    ensures ResolvePath(base, Name(base) + "/" + rest) == Success(base + RelParts(rest))
  {
    var rel := Name(base) + "/" + rest;
    SplitNameFirst(Name(base), rest);
    assert rel[0] == Name(base)[0];
    ResolveNoParent(base, RelParts(rest));
  }

  /** The bare base name is the base itself. */
  lemma BareBaseName(base: Path)
    requires IsCanonical(base) && base != []
    requires Name(base)[0] != '~'
    ensures ResolvePath(base, Name(base)) == Success(base)
  {
    SplitNoSep(Name(base), '/');
    assert RelParts(Name(base)) == [Name(base)];
  }

  /** Climbing out with `../` is rejected unless the path climbs straight
      back into the base by its own name, and then it lands below the base. */
  lemma ParentThenRest(base: Path, rest: string)
    requires IsCanonical(base) && base != []
    requires ".." !in RelParts(rest)
    ensures var r := ResolvePath(base, "../" + rest);
      var parts := RelParts(rest);
      (r.Success? <==> parts != [] && parts[0] == Name(base))
      && (r.Success? ==> r.value == base + parts[1..])
      && (r.Failure? ==> r.error == EscapesBase)
  {
    ParentRelResolves(base, rest);
    WithinAfterClimb(base, RelParts(rest));
  }

  /** Climbing one level and descending again stays within the base exactly
      when the first step down is the base's own name. */
  lemma WithinAfterClimb(base: Path, parts: seq<string>)
    requires base != []
    ensures IsWithin(Parent(base) + parts, base) <==> parts != [] && parts[0] == Name(base)
    ensures IsWithin(Parent(base) + parts, base) ==> Parent(base) + parts == base + parts[1..]
  {
    var up := Parent(base);
    assert base == up + [Name(base)];
    if parts != [] && parts[0] == Name(base) {
      assert up + parts == base + parts[1..];
    }
    if IsWithin(up + parts, base) {
      assert (up + parts)[|up|] == base[|up|];
    }
  }

  lemma ParentRelResolves(base: Path, rest: string)
    requires IsCanonical(base) && base != []
    requires ".." !in RelParts(rest)
    ensures var landed := Parent(base) + RelParts(rest);
      ResolvePath(base, "../" + rest)
      == if IsWithin(landed, base) then Success(landed) else Failure(EscapesBase)
  {
    var rel := "../" + rest;
    assert rel == ".." + "/" + rest;
    SplitNameFirst("..", rest);
    assert rel[0] == '.' && !ParsePath(rel).anchored;
    assert ParsePath(rel).parts == [".."] + RelParts(rest);
    assert IsName(Name(base));
    assert StripBaseName(ParsePath(rel), Name(base)) == ParsePath(rel);
    ResolveUpThen(base, RelParts(rest));
  }

  lemma ResolveUpThen(base: Path, parts: seq<string>)
    requires ".." !in parts
    ensures Resolve(base, [".."] + parts) == Parent(base) + parts
  {
    assert ([".."] + parts)[1..] == parts;
    ResolveNoParent(Parent(base), parts);
  }

  /** `..` alone always escapes a base below the root. */
  lemma ParentEscapes(base: Path)
    requires IsCanonical(base) && base != []
    ensures ResolvePath(base, "..") == Failure(EscapesBase)
  {
    SplitNoSep("..", '/');
    assert RelParts("..") == [".."];
    assert Resolve(base, [".."]) == Parent(base);
  }

  // ---------------------------------------------------------------------------
  // The file system and the tools
  // ---------------------------------------------------------------------------

  datatype Node = File(content: string) | Dir

  /** The file system below the root; the root itself is always a directory. */
  type FileSystem = map<Path, Node>

  predicate Exists(fs: FileSystem, p: Path)
  {
    p == [] || p in fs
  }

  predicate IsDirAt(fs: FileSystem, p: Path)
  {
    p == [] || (p in fs && fs[p].Dir?)
  }

  /** A tree: every entry has a canonical path and sits in a directory. */
  predicate WellFormed(fs: FileSystem)
  {
    && [] !in fs
    && forall p :: p in fs ==> IsCanonical(p) && IsDirAt(fs, Parent(p))
  }

  /** The names of the entries directly inside `p`. */
  function Children(fs: FileSystem, p: Path): (r: set<string>)
    ensures forall n :: n in r <==> p + [n] in fs
  {
    var r := set q | q in fs && |q| == |p| + 1 && q[..|p|] == p :: q[|p|];
    assert forall n :: p + [n] in fs ==> n in r by {
      forall n | p + [n] in fs ensures n in r {
        var q := p + [n];
        assert q[..|p|] == p && q[|p|] == n;
      }
    }
    assert forall n :: n in r ==> p + [n] in fs by {
      forall n | n in r ensures p + [n] in fs {
        var q :| q in fs && |q| == |p| + 1 && q[..|p|] == p && q[|p|] == n;
        assert q == p + [n];
      }
    }
    r
  }

  datatype FsError =
    | BadPath(reason: PathError)
    | PermissionDenied(message: string)
    | FileNotFound(path: string)
    | IsADirectory(path: string)
    | NotADirectory(path: string)

  /** A tool call's outcome and the context after it. */
  datatype Call<T> = Call(result: Result<T, FsError>, ctx: RunContext)

  /** A write's outcome, the context and the file system after it. */
  datatype WriteCall = WriteCall(result: Result<Path, FsError>, ctx: RunContext, fs: FileSystem)

  const WRITE_DENIED := "Write access is not allowed for this role"
  const REPORTS_DENIED := "project/reports is write-protected for this role"
  const TECH_WRITER := "tech_writer"

  /** `repo_root / "project" / "reports"`, the run reports directory. */
  function ReportsDir(repoRoot: Path): Path
  {
    repoRoot + ["project", "reports"]
  }

  /** Text-mode reading with universal newlines, as `read_text` does: each
      `\r\n` and each lone `\r` is read as `\n`; everything else is kept. */
  function ReadNewlines(s: string): (r: string)
    ensures '\r' !in r
    ensures |r| <= |s|
    ensures '\r' !in s ==> r == s
  {
    if s == [] then []
    else if s[0] == '\r' then
      "\n" + ReadNewlines(if |s| > 1 && s[1] == '\n' then s[2..] else s[1..])
    else
      [s[0]] + ReadNewlines(s[1..])
  }

  /** `fs_read`: the content of the resolved file read in text mode, logged once. */
  function FsRead(ctx: RunContext, fs: FileSystem, rel: string): (r: Call<string>)
    requires IsCanonical(ctx.fsBase)
    ensures var res := ResolvePath(ctx.fsBase, rel);
      && (r.result.Success? <==> res.Success? && Exists(fs, res.value) && !IsDirAt(fs, res.value))
      && (r.result.Success? ==> r.result.value == ReadNewlines(fs[res.value].content)
                                && r.ctx == LogEvent(ctx, FsReadEvent(PathString(res.value))))
      && (r.result.Failure? ==> r.ctx == ctx)
  {
    match ResolvePath(ctx.fsBase, rel)
    case Failure(e) => Call(Failure(BadPath(e)), ctx)
    case Success(t) =>
      if !Exists(fs, t) then Call(Failure(FileNotFound(PathString(t))), ctx)
      else if IsDirAt(fs, t) then Call(Failure(IsADirectory(PathString(t))), ctx)
      else Call(Success(ReadNewlines(fs[t].content)), LogEvent(ctx, FsReadEvent(PathString(t))))
  }

  /** No prefix of `p` (other than the root) is a file. */
  predicate NoFileAbove(fs: FileSystem, p: Path)
  {
    forall q :: q != [] && IsWithin(p, q) && q in fs ==> fs[q].Dir?
  }

  /** `p.mkdir(parents=True, exist_ok=True)`: every missing directory on the
      way down to `p` is created; a file in the way is an error and nothing
      is created. */
  function MakeDirs(fs: FileSystem, p: Path): (r: Result<FileSystem, FsError>)
    ensures r.Success? <==> NoFileAbove(fs, p)
    ensures r.Success? ==> forall q :: IsWithin(p, q) ==> IsDirAt(r.value, q)
    ensures r.Success? ==> forall q :: q in fs ==> q in r.value && r.value[q] == fs[q]
    ensures r.Success? ==> forall q :: q in r.value && q !in fs ==> IsWithin(p, q) && q != []
    decreases |p|
  {
    if p == [] then Success(fs)
    else
      PrefixesOf(p);
      match MakeDirs(fs, Parent(p))
      case Failure(e) => Failure(e)
      case Success(fs1) =>
        if p in fs1 then
          if fs1[p].Dir? then Success(fs1) else Failure(NotADirectory(PathString(p)))
        else Success(fs1[p := Dir])
  }

  /** The prefixes of a non-empty path are itself and the prefixes of its parent. */
  lemma PrefixesOf(p: Path)
    requires p != []
    ensures forall q :: IsWithin(p, q) <==> q == p || IsWithin(Parent(p), q)
  {
    forall q ensures IsWithin(p, q) <==> q == p || IsWithin(Parent(p), q) {
      if IsWithin(p, q) && q != p {
        assert |q| < |p|;
        assert Parent(p)[..|q|] == p[..|q|];
      }
      if IsWithin(Parent(p), q) {
        assert p[..|q|] == Parent(p)[..|q|];
      }
    }
  }

  /** `fs_write`: the write flag is checked before anything else, then the
      path, then the reports protection for the tech writer; parents are
      created; a successful write is logged once with its UTF-8 size. */
  function FsWrite(ctx: RunContext, fs: FileSystem, rel: string, content: string): (r: WriteCall)
    requires IsCanonical(ctx.fsBase)
    ensures !ctx.allowWrite ==> r == WriteCall(Failure(PermissionDenied(WRITE_DENIED)), ctx, fs)
    ensures var res := ResolvePath(ctx.fsBase, rel);
      ctx.allowWrite && res.Success? && ctx.role == TECH_WRITER && IsWithin(res.value, ReportsDir(ctx.repoRoot))
      ==> r == WriteCall(Failure(PermissionDenied(REPORTS_DENIED)), ctx, fs)
    ensures var res := ResolvePath(ctx.fsBase, rel);
      r.result.Success? ==>
        && ctx.allowWrite && res.Success? && r.result.value == res.value
        && !(ctx.role == TECH_WRITER && IsWithin(res.value, ReportsDir(ctx.repoRoot)))
        && res.value in r.fs && r.fs[res.value] == File(content)
        && r.ctx == LogEvent(ctx, FsWriteEvent(PathString(res.value), Utf8Len(content)))
    ensures r.result.Failure? ==> r.ctx == ctx
  {
    if !ctx.allowWrite then WriteCall(Failure(PermissionDenied(WRITE_DENIED)), ctx, fs)
    else
      match ResolvePath(ctx.fsBase, rel)
      case Failure(e) => WriteCall(Failure(BadPath(e)), ctx, fs)
      case Success(t) =>
        if ctx.role == TECH_WRITER && IsWithin(t, ReportsDir(ctx.repoRoot)) then
          WriteCall(Failure(PermissionDenied(REPORTS_DENIED)), ctx, fs)
        else
          match MakeDirs(fs, Parent(t))
          case Failure(e) => WriteCall(Failure(e), ctx, fs)
          case Success(fs1) =>
            if IsDirAt(fs1, t) then WriteCall(Failure(IsADirectory(PathString(t))), ctx, fs1)
            else
              WriteCall(Success(t), LogEvent(ctx, FsWriteEvent(PathString(t), Utf8Len(content))),
                        fs1[t := File(content)])
  }

  /** `fs_list`: a file lists as its own name, a directory as its children's
      names in order, a missing path is an error; a listing is logged once
      with its length. */
  function FsList(ctx: RunContext, fs: FileSystem, rel: string): (r: Call<seq<string>>)
    requires IsCanonical(ctx.fsBase)
    ensures var res := ResolvePath(ctx.fsBase, rel);
      && (r.result.Success? <==> res.Success? && Exists(fs, res.value))
      && (r.result.Success? && !IsDirAt(fs, res.value) ==> r.result.value == [Name(res.value)])
      && (r.result.Success? && IsDirAt(fs, res.value) ==>
            SortedListing(r.result.value, Children(fs, res.value))
            && forall n :: n in r.result.value <==> res.value + [n] in fs)
      && (r.result.Success? ==>
            r.ctx == LogEvent(ctx, FsListEvent(PathString(res.value), |r.result.value|)))
      && (r.result.Failure? ==> r.ctx == ctx)
  {
    match ResolvePath(ctx.fsBase, rel)
    case Failure(e) => Call(Failure(BadPath(e)), ctx)
    case Success(t) =>
      if !Exists(fs, t) then Call(Failure(FileNotFound(PathString(t))), ctx)
      else
        var listing := if !IsDirAt(fs, t) then [Name(t)] else SortSet(Children(fs, t));
        Call(Success(listing), LogEvent(ctx, FsListEvent(PathString(t), |listing|)))
  }

  // ---------------------------------------------------------------------------
  // Properties relating the tools
  // ---------------------------------------------------------------------------

  /** A write succeeds exactly when the flag allows it, the path resolves, the
      target is not protected, no file blocks the way and the target is not a
      directory. */
  lemma WriteSucceedsIff(ctx: RunContext, fs: FileSystem, rel: string, content: string)
    requires IsCanonical(ctx.fsBase)
    ensures var res := ResolvePath(ctx.fsBase, rel);
      FsWrite(ctx, fs, rel, content).result.Success? <==>
        && ctx.allowWrite && res.Success?
        && !(ctx.role == TECH_WRITER && IsWithin(res.value, ReportsDir(ctx.repoRoot)))
        && NoFileAbove(fs, Parent(res.value))
        && !IsDirAt(fs, res.value)
  {
    var res := ResolvePath(ctx.fsBase, rel);
    if ctx.allowWrite && res.Success? {
      var t := res.value;
      var m := MakeDirs(fs, Parent(t));
      if m.Success? {
        if t != [] && t !in fs {
          assert !IsWithin(Parent(t), t);
          assert t !in m.value;
        }
      }
    }
  }

  /** A successful write keeps the file system a tree, adds only the target
      and its missing parent directories, and changes no other entry. */
  lemma WriteKeepsTree(ctx: RunContext, fs: FileSystem, rel: string, content: string)
    requires IsCanonical(ctx.fsBase) && WellFormed(fs)
    requires FsWrite(ctx, fs, rel, content).result.Success?
    ensures var w := FsWrite(ctx, fs, rel, content); var t := w.result.value;
      && WellFormed(w.fs)
      && (forall q :: q in fs && q != t ==> q in w.fs && w.fs[q] == fs[q])
      && (forall q :: q in w.fs && q !in fs ==> IsWithin(t, q))
  {
    var w := FsWrite(ctx, fs, rel, content);
    var t := w.result.value;
    var fs1 := MakeDirs(fs, Parent(t)).value;
    assert t != [] && IsCanonical(t) && !IsDirAt(fs1, t);
    assert w.fs == fs1[t := File(content)];
    PutFileKeepsTree(fs, fs1, t, content);
  }

  /** Putting a file at `t` once its parent directories exist keeps the tree. */
  lemma PutFileKeepsTree(fs: FileSystem, fs1: FileSystem, t: Path, content: string)
    requires WellFormed(fs) && IsCanonical(t) && t != [] && !IsDirAt(fs1, t)
    requires forall q :: IsWithin(Parent(t), q) ==> IsDirAt(fs1, q)
    requires forall q :: q in fs ==> q in fs1 && fs1[q] == fs[q]
    requires forall q :: q in fs1 && q !in fs ==> IsWithin(Parent(t), q) && q != []
    ensures WellFormed(fs1[t := File(content)])
    ensures forall q :: q in fs && q != t ==> q in fs1[t := File(content)] && fs1[t := File(content)][q] == fs[q]
    ensures forall q :: q in fs1[t := File(content)] && q !in fs ==> IsWithin(t, q)
  {
    var fs2 := fs1[t := File(content)];
    forall q | q in fs2 ensures IsCanonical(q) && IsDirAt(fs2, Parent(q)) {
      if q in fs {
        OldEntryPlaced(fs, fs1, t, content, q);
      } else if q == t {
        assert IsDirAt(fs1, Parent(t));
      } else {
        NewDirPlaced(fs, fs1, t, content, q);
      }
    }
    forall q | q in fs2 && q !in fs ensures IsWithin(t, q) {
      if q != t {
        assert IsWithin(Parent(t), q);
      }
    }
  }

  lemma OldEntryPlaced(fs: FileSystem, fs1: FileSystem, t: Path, content: string, q: Path)
    requires WellFormed(fs) && q in fs && !IsDirAt(fs1, t)
    requires forall q :: q in fs ==> q in fs1 && fs1[q] == fs[q]
    ensures IsCanonical(q) && IsDirAt(fs1[t := File(content)], Parent(q))
  {
    assert IsDirAt(fs, Parent(q));
    if Parent(q) != [] {
      assert Parent(q) in fs;
      assert Parent(q) != t;
    }
  }

  lemma NewDirPlaced(fs: FileSystem, fs1: FileSystem, t: Path, content: string, q: Path)
    requires IsCanonical(t) && t != [] && q in fs1 && q !in fs && q != t
    requires forall q :: IsWithin(Parent(t), q) ==> IsDirAt(fs1, q)
    requires forall q :: q in fs1 && q !in fs ==> IsWithin(Parent(t), q) && q != []
    ensures IsCanonical(q) && IsDirAt(fs1[t := File(content)], Parent(q))
  {
    assert IsWithin(Parent(t), q);
    assert q == t[..|q|];
    assert IsWithin(Parent(t), Parent(q));
    assert IsDirAt(fs1, Parent(q));
  }

  /** Reading back what was just written gives the written content with its
      line endings read as `\n`; content without `\r` comes back unchanged. */
  lemma ReadAfterWrite(ctx: RunContext, fs: FileSystem, rel: string, content: string)
    requires IsCanonical(ctx.fsBase)
    requires FsWrite(ctx, fs, rel, content).result.Success?
    ensures var w := FsWrite(ctx, fs, rel, content);
      FsRead(w.ctx, w.fs, rel).result == Success(ReadNewlines(content))
    ensures '\r' !in content ==>
      var w := FsWrite(ctx, fs, rel, content);
      FsRead(w.ctx, w.fs, rel).result == Success(content)
  {
  }

  /** Reading is stable: what a read returns, written back and read again,
      comes back unchanged. */
  lemma {:induction false} ReadNewlinesIdempotent(s: string)
    ensures ReadNewlines(ReadNewlines(s)) == ReadNewlines(s)
  {
    assert '\r' !in ReadNewlines(s);
  }

  /** Only line endings change: apart from `\r` and `\n` the text read is
      the stored text, and it has one line feed per line break stored. */
  lemma {:induction false} ReadNewlinesKeepsOthers(s: string)
    ensures NonBreaks(ReadNewlines(s)) == NonBreaks(s)
    ensures Occurrences(ReadNewlines(s), '\n') == Occurrences(s, '\n') + Occurrences(s, '\r') - CrLfCount(s)
  {
    if s == [] {
    } else if s[0] == '\r' {
      if |s| > 1 && s[1] == '\n' {
        ReadNewlinesKeepsOthers(s[2..]);
        assert s[1..][1..] == s[2..];
      } else {
        ReadNewlinesKeepsOthers(s[1..]);
      }
    } else {
      ReadNewlinesKeepsOthers(s[1..]);
    }
  }

  /** `s` without its `\r` and `\n` characters. */
  function NonBreaks(s: string): string
  {
    if s == [] then []
    else if s[0] == '\r' || s[0] == '\n' then NonBreaks(s[1..])
    else [s[0]] + NonBreaks(s[1..])
  }

  function Occurrences(s: string, c: char): nat
  {
    if s == [] then 0 else (if s[0] == c then 1 else 0) + Occurrences(s[1..], c)
  }

  /** The number of `\r\n` pairs in `s`. */
  function CrLfCount(s: string): nat
  {
    if |s| < 2 then 0
    else if s[0] == '\r' && s[1] == '\n' then 1 + CrLfCount(s[2..])
    else CrLfCount(s[1..])
  }

  /** A Windows line ending and an old Mac one both read as a line feed. */
  lemma ReadNewlinesExample()
    ensures ReadNewlines("a\r\nb\rc") == "a\nb\nc"
  {
    var s := "a\r\nb\rc";
    assert ReadNewlines(s[5..]) == "c";
    assert ReadNewlines(s[4..]) == "\nc";
    assert ReadNewlines(s[3..]) == "b\nc";
    assert ReadNewlines(s[1..]) == "\nb\nc";
  }
}

=== FILE: tools_shell.dfy ===
/** The shell tool of `orchestrator/tools_shell.py`: the install and escape
    blocklists written out as explicit matchers, output truncation, and the
    result and event of one `run_cmd` call. The process itself is an input. */
module ToolsShell {
  import opened Common
  import opened Text
  import opened Context

  // ---------------------------------------------------------------------------
  // Character classes of Python's `re` on ASCII text
  // ---------------------------------------------------------------------------

  /** `\w`: letters, digits and underscore. */
  predicate IsWordChar(c: char)
  {
    ('a' <= c <= 'z') || ('A' <= c <= 'Z') || ('0' <= c <= '9') || c == '_'
  }

  /** `\b` at position `i` of `s`: a word character on exactly one side. */
  predicate WordBoundary(s: string, i: nat)
    requires i <= |s|
  {
    (i > 0 && IsWordChar(s[i - 1])) != (i < |s| && IsWordChar(s[i]))
  }

  /** `s` has the lower-case literal `w` at position `i`, ignoring case. */
  predicate EqNoCaseAt(s: string, i: nat, w: string)
  {
    i + |w| <= |s| && forall k :: 0 <= k < |w| ==> LowerChar(s[i + k]) == w[k]
  }

  /** Every character of `s[i..j]` is whitespace. */
  predicate BlankSpan(s: string, i: nat, j: nat)
    requires i <= j <= |s|
  {
    forall k :: i <= k < j ==> IsSpace(s[k])
  }

  /** The length of the whitespace run of `s` starting at `i`: what a greedy
      `\s+` takes there. */
  function SpaceRunFrom(s: string, i: nat): (n: nat)
    requires i <= |s|
    ensures i + n <= |s| && BlankSpan(s, i, i + n) && (i + n == |s| || !IsSpace(s[i + n]))
    decreases |s| - i
  {
    if i < |s| && IsSpace(s[i]) then 1 + SpaceRunFrom(s, i + 1) else 0
  }

  // ---------------------------------------------------------------------------
  // The install blocklist
  // ---------------------------------------------------------------------------

  /** `BLOCK_PATTERNS`: each pattern is its words joined by `\s+`, between
      word boundaries. */
  const INSTALL_PHRASES: seq<seq<string>> := [
    ["pip", "install"],
    ["pip3", "install"],
    ["python", "-m", "pip", "install"],
    ["python3", "-m", "pip", "install"],
    ["uv", "pip", "install"],
    ["poetry", "install"],
    ["poetry", "add"],
    ["pipx", "install"],
    ["npm", "install"],
    ["yarn", "add"],
    ["pnpm", "install"],
    ["conda", "install"],
    ["brew", "install"],
    ["apt-get", "install"]
  ]

  /** A literal a phrase can contain: non-empty, free of upper-case letters,
      and not starting with whitespace, as every blocklist word is. */
  predicate IsPhraseWord(w: string)
  {
    w != [] && !IsSpace(w[0]) && forall i :: 0 <= i < |w| ==> !('A' <= w[i] <= 'Z')
  }

  predicate PhraseWords(words: seq<string>)
  {
    forall i :: 0 <= i < |words| ==> IsPhraseWord(words[i])
  }

  /** The regular expression's own reading of `w1\s+w2\s+...`: `s[i..j]` is
      the phrase's words in order, case ignored, each pair separated by some
      non-empty run of whitespace. */
  predicate PhraseSpan(s: string, i: nat, j: nat, words: seq<string>)
    requires i <= j <= |s|
    decreases |words|
  {
    if words == [] then false
    else if |words| == 1 then i + |words[0]| == j && EqNoCaseAt(s, i, words[0])
    else
      var w := words[0];
      exists m :: i + |w| < m <= j && EqNoCaseAt(s, i, w)
        && BlankSpan(s, i + |w|, m) && PhraseSpan(s, m, j, words[1..])
  }

  /** A greedy matcher for the phrase at position `i`: each `\s+` takes the
      whole whitespace run, which is the only choice that can succeed since
      the next word starts with a non-space. The result is where the match
      ends. */
  function MatchFrom(s: string, i: nat, words: seq<string>): (r: Option<nat>)
    requires i <= |s|
    ensures r.Some? ==> i <= r.value <= |s|
    decreases |words|
  {
    if words == [] || !EqNoCaseAt(s, i, words[0]) then None
    else if |words| == 1 then Some(i + |words[0]|)
    else
      var w := words[0];
      var gap := SpaceRunFrom(s, i + |w|);
      if gap == 0 then None
      else MatchFrom(s, i + |w| + gap, words[1..])
  }

  /** `\bphrase\b` matches `cmd[i..j]`. */
  predicate PhraseAt(cmd: string, i: nat, j: nat, words: seq<string>)
    requires i <= j <= |cmd|
  {
    WordBoundary(cmd, i) && PhraseSpan(cmd, i, j, words) && WordBoundary(cmd, j)
  }

  /** `BLOCK_RE.search(cmd)`: some blocklist phrase matches somewhere. */
  predicate IsInstallCommand(cmd: string)
  {
    exists p, i, j :: 0 <= p < |INSTALL_PHRASES| && 0 <= i <= j <= |cmd|
      && PhraseAt(cmd, i, j, INSTALL_PHRASES[p])
  }

  // ---------------------------------------------------------------------------
  // The escape blocklist
  // ---------------------------------------------------------------------------

  /** `(^|[;&|]\s*|\s)cd\s`, read off the character before `cd`: the three
      alternatives amount to the start, a command separator or whitespace. */
  predicate CdAt(cmd: string, i: nat)
    requires i <= |cmd|
  {
    && EqNoCaseAt(cmd, i, "cd")
    && i + 2 < |cmd| && IsSpace(cmd[i + 2])
    && (i == 0 || cmd[i - 1] in ";&|" || IsSpace(cmd[i - 1]))
  }

  /** The prefix group `(^|[;&|]\s*|\s)` matches `cmd[j..i]`. */
  predicate GroupMatch(cmd: string, j: nat, i: nat)
    requires j <= i <= |cmd|
  {
    || (j == 0 && i == 0)
    || (j < i && cmd[j] in ";&|" && BlankSpan(cmd, j + 1, i))
    || (j + 1 == i && IsSpace(cmd[j]))
  }

  /** The same pattern read literally: some start `j` of a match of the
      prefix group that ends right before `cd`. */
  predicate CdAtByGroup(cmd: string, i: nat)
    requires i <= |cmd|
  {
    && EqNoCaseAt(cmd, i, "cd")
    && i + 2 < |cmd| && IsSpace(cmd[i + 2])
    && exists j: nat :: j <= i && GroupMatch(cmd, j, i)
  }

  /** `(?:^|\s)c`: `c` at the start or right after whitespace. */
  predicate LeadingAt(cmd: string, i: nat, c: char)
    requires i <= |cmd|
  {
    i < |cmd| && cmd[i] == c && (i == 0 || IsSpace(cmd[i - 1]))
  }

  /** `ESCAPE_RE.search(cmd)`. */
  predicate IsEscapeCommand(cmd: string)
  {
    || (exists i :: 0 <= i <= |cmd| && CdAt(cmd, i))
    || Contains(cmd, "../")
    || Contains(cmd, "..\\")
    || (exists i :: 0 <= i <= |cmd| && LeadingAt(cmd, i, '/'))
    || (exists i :: 0 <= i <= |cmd| && LeadingAt(cmd, i, '~'))
  }

  // ---------------------------------------------------------------------------
  // run_cmd
  // ---------------------------------------------------------------------------

  const STDIO_LIMIT: nat := 4000
  const TRUNCATED_MARK := "...<truncated>"
  const BLOCKED_RETURNCODE := 126
  const TIMEOUT_RETURNCODE := 124

  /** `_truncate`: at most `STDIO_LIMIT` characters of the text, marked when cut. */
  function Truncate(text: string): (r: string)
    ensures |text| <= STDIO_LIMIT ==> r == text
    ensures |text| > STDIO_LIMIT ==>
      (|r| == STDIO_LIMIT + |TRUNCATED_MARK|
       && r[..STDIO_LIMIT] == text[..STDIO_LIMIT] && r[STDIO_LIMIT..] == TRUNCATED_MARK)
  {
    if |text| <= STDIO_LIMIT then text else text[..STDIO_LIMIT] + TRUNCATED_MARK
  }

  /** What `subprocess.run` did with the command: it completed, or it ran
      past the timeout with some partial output (`""` for none). The partial
      output is taken as decoded text, as the handler expects; what CPython
      actually hands it is `TimeoutAsWritten`'s input. */
  datatype Process =
    | Completed(returncode: int, stdout: string, stderr: string)
    | TimedOut(partialStdout: string)

  datatype BlockReason = Install | Escape

  function ReasonText(reason: BlockReason): string
  {
    match reason
    case Install => "install"
    case Escape => "escape"
  }

  /** The JSON payload `run_cmd` returns. */
  datatype ShellPayload = ShellPayload(cmd: string, returncode: int, stdout: string, stderr: string)

  /** A call's payload (or the error it raised) and the context after it. */
  datatype ShellCall = ShellCall(result: Result<ShellPayload, string>, ctx: RunContext)

  /** Why the command is refused, install patterns first. */
  function Classify(cmd: string): (r: Option<BlockReason>)
    ensures r == Some(Install) <==> IsInstallCommand(cmd)
    ensures r == Some(Escape) <==> !IsInstallCommand(cmd) && IsEscapeCommand(cmd)
    ensures r == None <==> !IsInstallCommand(cmd) && !IsEscapeCommand(cmd)
  {
    if IsInstallCommand(cmd) then Some(Install)
    else if IsEscapeCommand(cmd) then Some(Escape)
    else None
  }

  function BlockedPayload(cmd: string): ShellPayload
  {
    ShellPayload(cmd, BLOCKED_RETURNCODE, "", "BLOCKED")
  }

  /** The `timeout_seconds` a caller gets without naming one. */
  const DEFAULT_TIMEOUT_SECONDS := 30

  /** The error text of a timed-out run. */
  function TimeoutText(timeoutSeconds: int): string
  {
    "TIMEOUT after " + IntToString(timeoutSeconds) + "s"
  }

  /** The payload of a command that ran: its exit status (124 on a timeout)
      and both streams cut by `_truncate`. */
  function RanPayload(cmd: string, timeoutSeconds: int, process: Process): (p: ShellPayload)
    ensures p.cmd == cmd
    ensures process.TimedOut? ==> p.returncode == TIMEOUT_RETURNCODE
    ensures process.Completed? ==> p.returncode == process.returncode
    ensures process.Completed? ==> p.stdout == Truncate(process.stdout) && p.stderr == Truncate(process.stderr)
    ensures process.TimedOut? ==>
      p.stdout == Truncate(process.partialStdout) && p.stderr == Truncate(TimeoutText(timeoutSeconds))
    ensures |p.stdout| <= STDIO_LIMIT + |TRUNCATED_MARK| && |p.stderr| <= STDIO_LIMIT + |TRUNCATED_MARK|
  {
    match process
    case Completed(rc, out, err) => ShellPayload(cmd, rc, Truncate(out), Truncate(err))
    case TimedOut(partial) =>
      ShellPayload(cmd, TIMEOUT_RETURNCODE, Truncate(partial), Truncate(TimeoutText(timeoutSeconds)))
  }

  /** How the `TimeoutExpired` handler ends under CPython on POSIX, where the
      partial output reaches it as the raw bytes read so far, or `None` when
      nothing was read, whatever `text=True` asks for. */
  datatype TimeoutStep =
    | Returned(payload: ShellPayload)
      /** More than `STDIO_LIMIT` bytes: `_truncate` adds bytes and text and
          raises `TypeError` before any event is logged. */
    | RaisedBeforeLog
      /** Some bytes, within the limit: the event is logged with them, then
          `json.dumps` raises `TypeError` on the bytes. */
    | RaisedAfterLog

  /** The timeout branch of `run_cmd` as written, given what CPython captured. */
  function TimeoutAsWritten(cmd: string, timeoutSeconds: int, captured: Option<seq<bv8>>): (r: TimeoutStep)
    ensures r.Returned? <==> captured.None? || captured.value == []
    ensures r.Returned? ==> r.payload == RanPayload(cmd, timeoutSeconds, TimedOut(""))
    ensures r.RaisedBeforeLog? <==> captured.Some? && |captured.value| > STDIO_LIMIT
    ensures r.RaisedAfterLog? <==> captured.Some? && 0 < |captured.value| <= STDIO_LIMIT
  {
    match captured
    case None => Returned(RanPayload(cmd, timeoutSeconds, TimedOut("")))
    case Some(bytes) =>
      if bytes == [] then Returned(RanPayload(cmd, timeoutSeconds, TimedOut("")))
      else if |bytes| > STDIO_LIMIT then RaisedBeforeLog
      else RaisedAfterLog
  }

  function EventOf(p: ShellPayload, blocked: bool, reason: Option<string>): ToolEvent
  {
    RunCmdEvent(p.cmd, p.returncode, p.stdout, p.stderr, blocked, reason)
  }

  /** `run_cmd(cmd, timeout_seconds)` in a context whose working directory
      exists or not, given what the process would do if it were started. */
  function RunCmd(ctx: RunContext, cmd: string, timeoutSeconds: int, cwdExists: bool, process: Process)
    : (r: ShellCall)
    ensures Classify(cmd).Some? ==>
      && r.result == Success(BlockedPayload(cmd))
      && r.ctx == LogEvent(ctx, EventOf(BlockedPayload(cmd), true, Some(ReasonText(Classify(cmd).value))))
    ensures Classify(cmd).None? && !cwdExists ==> r.result.Failure? && r.ctx == ctx
    ensures Classify(cmd).None? && cwdExists ==>
      && r.result == Success(RanPayload(cmd, timeoutSeconds, process))
      && r.ctx == LogEvent(ctx, EventOf(r.result.value, false, None))
  {
    match Classify(cmd)
    case Some(reason) =>
      ShellCall(Success(BlockedPayload(cmd)),
                LogEvent(ctx, EventOf(BlockedPayload(cmd), true, Some(ReasonText(reason)))))
    case None =>
      if !cwdExists then ShellCall(Failure("Workspace does not exist: " + PathString(ctx.shellCwd)), ctx)
      else
        var p := RanPayload(cmd, timeoutSeconds, process);
        ShellCall(Success(p), LogEvent(ctx, EventOf(p, false, None)))
  }

  // ---------------------------------------------------------------------------
  // Properties
  // ---------------------------------------------------------------------------

  /** Every blocklist phrase is made of phrase words. */
  lemma InstallPhrasesWellFormed()
    ensures forall p :: 0 <= p < |INSTALL_PHRASES| ==> INSTALL_PHRASES[p] != [] && PhraseWords(INSTALL_PHRASES[p])
  {
    var all := {"pip", "install", "pip3", "python", "-m", "python3", "uv", "poetry", "add",
                "pipx", "npm", "yarn", "pnpm", "conda", "brew", "apt-get"};
    assert forall w :: w in all ==> IsPhraseWord(w);
    forall p | 0 <= p < |INSTALL_PHRASES| ensures PhraseWords(INSTALL_PHRASES[p]) {
      var ws := INSTALL_PHRASES[p];
      forall i | 0 <= i < |ws| ensures IsPhraseWord(ws[i]) {
        assert ws[i] in all;
      }
    }
  }

  lemma PhraseWordsTail(words: seq<string>)
    requires words != [] && PhraseWords(words)
    ensures PhraseWords(words[1..])
  {
    forall i | 0 <= i < |words[1..]| ensures IsPhraseWord(words[1..][i]) {
      assert words[1..][i] == words[i + 1];
    }
  }

  /** The whitespace run is determined by where the first non-space is. */
  lemma {:induction false} SpaceRunAt(s: string, i: nat, n: nat)
    requires i + n <= |s| && BlankSpan(s, i, i + n) && (i + n == |s| || !IsSpace(s[i + n]))
    ensures SpaceRunFrom(s, i) == n
    decreases n
  {
    if n > 0 {
      assert IsSpace(s[i]);
      SpaceRunAt(s, i + 1, n - 1);
    }
  }

  /** A phrase word found at `i` starts on a non-space, since case folding
      leaves whitespace alone. */
  lemma WordStartsSolid(s: string, i: nat, w: string)
    requires IsPhraseWord(w) && EqNoCaseAt(s, i, w)
    ensures i < |s| && !IsSpace(s[i])
  {
    assert LowerChar(s[i + 0]) == w[0];
  }

  /** A phrase found at `m` starts on a non-space. */
  lemma SpanStartsSolid(s: string, m: nat, j: nat, words: seq<string>)
    requires m <= j <= |s| && words != [] && PhraseWords(words) && PhraseSpan(s, m, j, words)
    ensures m < |s| && !IsSpace(s[m])
  {
    assert IsPhraseWord(words[0]);
    WordStartsSolid(s, m, words[0]);
  }

  /** The greedy matcher ends at `j` exactly when the regular expression
      reads `s[i..j]` as the phrase. */
  lemma MatchFromIff(s: string, i: nat, j: nat, words: seq<string>)
    requires i <= j <= |s| && words != [] && PhraseWords(words)
    ensures MatchFrom(s, i, words) == Some(j) <==> PhraseSpan(s, i, j, words)
  {
    if MatchFrom(s, i, words) == Some(j) { MatchSound(s, i, j, words); }
    if PhraseSpan(s, i, j, words) { MatchComplete(s, i, j, words); }
  }

  lemma {:induction false} MatchSound(s: string, i: nat, j: nat, words: seq<string>)
    requires i <= j <= |s| && words != [] && PhraseWords(words)
    requires MatchFrom(s, i, words) == Some(j)
    ensures PhraseSpan(s, i, j, words)
    decreases |words|
  {
    if |words| > 1 {
      var w := words[0];
      var gap := SpaceRunFrom(s, i + |w|);
      var m := i + |w| + gap;
      PhraseWordsTail(words);
      assert MatchFrom(s, m, words[1..]) == Some(j);
      MatchSound(s, m, j, words[1..]);
    }
  }

  lemma {:induction false} MatchComplete(s: string, i: nat, j: nat, words: seq<string>)
    requires i <= j <= |s| && words != [] && PhraseWords(words)
    requires PhraseSpan(s, i, j, words)
    ensures MatchFrom(s, i, words) == Some(j)
    decreases |words|
  {
    if |words| > 1 {
      var w := words[0];
      var m :| i + |w| < m <= j && EqNoCaseAt(s, i, w)
        && BlankSpan(s, i + |w|, m) && PhraseSpan(s, m, j, words[1..]);
      PhraseWordsTail(words);
      GapIsRun(s, i + |w|, m, j, words[1..]);
      MatchComplete(s, m, j, words[1..]);
      MatchStep(s, i, m, j, words);
    }
  }

  /** The whitespace between two words of a phrase is a whole run. */
  lemma GapIsRun(s: string, k: nat, m: nat, j: nat, words: seq<string>)
    requires k < m <= j <= |s| && BlankSpan(s, k, m)
    requires words != [] && PhraseWords(words) && PhraseSpan(s, m, j, words)
    ensures SpaceRunFrom(s, k) == m - k
  {
    SpanStartsSolid(s, m, j, words);
    SpaceRunAt(s, k, m - k);
  }

  /** A match of the first word, a whitespace run up to `m` and a match of
      the remaining words from `m` make a match of the phrase. */
  lemma MatchStep(s: string, i: nat, m: nat, j: nat, words: seq<string>)
    requires |words| > 1 && i + |words[0]| < m <= j <= |s|
    requires EqNoCaseAt(s, i, words[0])
    requires SpaceRunFrom(s, i + |words[0]|) == m - (i + |words[0]|)
    requires MatchFrom(s, m, words[1..]) == Some(j)
    ensures MatchFrom(s, i, words) == Some(j)
  {
    MatchFromCons(s, i, words);
    var next := i + |words[0]| + SpaceRunFrom(s, i + |words[0]|);
    assert next == m;
  }

  lemma MatchFromCons(s: string, i: nat, words: seq<string>)
    requires |words| > 1 && i + |words[0]| <= |s| && EqNoCaseAt(s, i, words[0])
    requires SpaceRunFrom(s, i + |words[0]|) > 0
    ensures MatchFrom(s, i, words) == MatchFrom(s, i + |words[0]| + SpaceRunFrom(s, i + |words[0]|), words[1..])
  {
  }

  lemma PhraseWellFormed(p: nat)
    requires p < |INSTALL_PHRASES|
    ensures INSTALL_PHRASES[p] != [] && PhraseWords(INSTALL_PHRASES[p])
  {
    InstallPhrasesWellFormed();
  }

  /** The greedy matcher for phrase `p`, started at a word boundary `i`, ends
      at a word boundary `j`. */
  predicate MatcherFinds(cmd: string, p: nat, i: nat, j: nat)
    requires p < |INSTALL_PHRASES| && i <= j <= |cmd|
  {
    WordBoundary(cmd, i) && MatchFrom(cmd, i, INSTALL_PHRASES[p]) == Some(j) && WordBoundary(cmd, j)
  }

  lemma MatcherFindsIff(cmd: string, p: nat, i: nat, j: nat)
    requires p < |INSTALL_PHRASES| && i <= j <= |cmd|
    ensures MatcherFinds(cmd, p, i, j) <==> PhraseAt(cmd, i, j, INSTALL_PHRASES[p])
  {
    PhraseWellFormed(p);
    MatchFromIff(cmd, i, j, INSTALL_PHRASES[p]);
  }

  /** The install check can be decided by running the greedy matcher from
      every position. */
  lemma InstallByMatcher(cmd: string)
    ensures IsInstallCommand(cmd) <==>
      exists p, i, j :: 0 <= p < |INSTALL_PHRASES| && 0 <= i <= j <= |cmd| && MatcherFinds(cmd, p, i, j)
  {
    if IsInstallCommand(cmd) {
      var p, i, j :| 0 <= p < |INSTALL_PHRASES| && 0 <= i <= j <= |cmd|
        && PhraseAt(cmd, i, j, INSTALL_PHRASES[p]);
      MatcherFindsIff(cmd, p, i, j);
    }
    if exists p, i, j :: 0 <= p < |INSTALL_PHRASES| && 0 <= i <= j <= |cmd| && MatcherFinds(cmd, p, i, j) {
      var p, i, j :| 0 <= p < |INSTALL_PHRASES| && 0 <= i <= j <= |cmd| && MatcherFinds(cmd, p, i, j);
      MatcherFindsIff(cmd, p, i, j);
    }
  }

  /** A phrase span ends with the phrase's last word. */
  lemma {:induction false} SpanEndsWithLast(s: string, i: nat, j: nat, words: seq<string>)
    requires i <= j <= |s| && words != [] && PhraseSpan(s, i, j, words)
    ensures var last := words[|words| - 1]; |last| <= j && EqNoCaseAt(s, j - |last|, last)
    decreases |words|
  {
    if |words| > 1 {
      var w := words[0];
      var m :| i + |w| < m <= j && EqNoCaseAt(s, i, w)
        && BlankSpan(s, i + |w|, m) && PhraseSpan(s, m, j, words[1..]);
      SpanEndsWithLast(s, m, j, words[1..]);
      assert words[1..][|words[1..]| - 1] == words[|words| - 1];
    }
  }

  /** Every blocklist phrase ends in `install` or `add`, so a command that
      contains neither word (in any case) is never refused as an install. */
  lemma InstallNeedsVerb(cmd: string)
    requires IsInstallCommand(cmd)
    ensures exists k :: 0 <= k <= |cmd| && (EqNoCaseAt(cmd, k, "install") || EqNoCaseAt(cmd, k, "add"))
  {
    var p, i, j :| 0 <= p < |INSTALL_PHRASES| && 0 <= i <= j <= |cmd|
      && PhraseAt(cmd, i, j, INSTALL_PHRASES[p]);
    PhraseVerb(p);
    SpanHasVerb(cmd, i, j, INSTALL_PHRASES[p]);
  }

  lemma SpanHasVerb(cmd: string, i: nat, j: nat, words: seq<string>)
    requires i <= j <= |cmd| && words != [] && PhraseSpan(cmd, i, j, words)
    requires words[|words| - 1] == "install" || words[|words| - 1] == "add"
    ensures exists k :: 0 <= k <= |cmd| && (EqNoCaseAt(cmd, k, "install") || EqNoCaseAt(cmd, k, "add"))
  {
    SpanEndsWithLast(cmd, i, j, words);
    var last := words[|words| - 1];
    if last == "add" {
      assert EqNoCaseAt(cmd, j - 3, "add");
    } else {
      assert EqNoCaseAt(cmd, j - 7, "install");
    }
  }

  /** The last word of every blocklist phrase is its verb. */
  lemma PhraseVerb(p: nat)
    requires p < |INSTALL_PHRASES|
    ensures INSTALL_PHRASES[p][|INSTALL_PHRASES[p]| - 1] == if p == 6 || p == 9 then "add" else "install"
  {
  }

  /** The escape pattern's first alternative read off the character before
      `cd` is the same as matching its prefix group. */
  lemma CdAtIff(cmd: string, i: nat)
    requires i <= |cmd|
    ensures CdAt(cmd, i) <==> CdAtByGroup(cmd, i)
  {
    if CdAt(cmd, i) {
      if i == 0 {
        assert GroupMatch(cmd, 0, i);
      } else if cmd[i - 1] in ";&|" {
        assert BlankSpan(cmd, i, i);
        assert GroupMatch(cmd, i - 1, i);
      } else {
        assert GroupMatch(cmd, i - 1, i);
      }
    }
    if CdAtByGroup(cmd, i) {
      var j: nat :| j <= i && GroupMatch(cmd, j, i);
      if j + 1 < i {
        assert IsSpace(cmd[i - 1]);
      }
    }
  }

  /** Truncating twice is truncating once. */
  lemma TruncateIdempotent(text: string)
    ensures Truncate(Truncate(text)) == Truncate(text)
  {
    if |text| > STDIO_LIMIT {
      var t := Truncate(text);
      assert t[..STDIO_LIMIT] == text[..STDIO_LIMIT];
    }
  }

  /** Every call that returns logs exactly one event, appended after the old
      ones, marked blocked exactly when the command is refused; a call that
      raises logs nothing. */
  lemma RunCmdLogsOnce(ctx: RunContext, cmd: string, timeoutSeconds: int, cwdExists: bool, process: Process)
    ensures var r := RunCmd(ctx, cmd, timeoutSeconds, cwdExists, process);
      && (r.result.Success? <==> Classify(cmd).Some? || cwdExists)
      && (r.result.Failure? ==> r.ctx == ctx)
      && (r.result.Success? ==>
            && |r.ctx.toolEvents| == |ctx.toolEvents| + 1
            && r.ctx.toolEvents[..|ctx.toolEvents|] == ctx.toolEvents
            && var e := r.ctx.toolEvents[|ctx.toolEvents|];
            && e.RunCmdEvent? && e.cmd == cmd && e.returncode == r.result.value.returncode
            && (e.blocked <==> Classify(cmd).Some?)
            && (e.blockedReason.Some? <==> e.blocked))
  {
    var r := RunCmd(ctx, cmd, timeoutSeconds, cwdExists, process);
    if r.result.Success? {
      assert r.ctx.toolEvents[..|ctx.toolEvents|] == ctx.toolEvents;
    }
  }

  /** A refused command never reaches the working-directory check or the
      process: the result does not depend on them. */
  lemma BlockedIgnoresProcess(ctx: RunContext, cmd: string, t1: int, t2: int, c1: bool, c2: bool, p1: Process, p2: Process)
    requires Classify(cmd).Some?
    ensures RunCmd(ctx, cmd, t1, c1, p1) == RunCmd(ctx, cmd, t2, c2, p2)
    ensures RunCmd(ctx, cmd, t1, c1, p1).result.value.returncode == BLOCKED_RETURNCODE
  {
  }

  /** On a timeout the exit status is 124, the partial output is kept up to
      the limit, and the error text names the timeout; it is whole unless the
      number alone is longer than the limit allows, as no timeout below
      `10^9` seconds is. */
  lemma TimeoutMessage(ctx: RunContext, cmd: string, timeoutSeconds: int, partial: string)
    requires Classify(cmd).None?
    ensures var r := RunCmd(ctx, cmd, timeoutSeconds, true, TimedOut(partial));
      && r.result.Success?
      && r.result.value.returncode == TIMEOUT_RETURNCODE
      && r.result.value.stdout == Truncate(partial)
      && r.result.value.stderr == Truncate(TimeoutText(timeoutSeconds))
      && (|IntToString(timeoutSeconds)| <= STDIO_LIMIT - |TimeoutText(0)| + 1 ==>
            r.result.value.stderr == TimeoutText(timeoutSeconds))
      && (-(Pow10(9) as int) < timeoutSeconds < Pow10(9) ==>
            r.result.value.stderr == TimeoutText(timeoutSeconds))
  {
    if -(Pow10(9) as int) < timeoutSeconds < Pow10(9) {
      NatToStringShort(if timeoutSeconds < 0 then -timeoutSeconds else timeoutSeconds, 9);
    }
  }

  /** With the default timeout a timed-out run reports `TIMEOUT after 30s`. */
  lemma DefaultTimeout(ctx: RunContext, cmd: string, partial: string)
    requires Classify(cmd).None?
    ensures RunCmd(ctx, cmd, DEFAULT_TIMEOUT_SECONDS, true, TimedOut(partial)).result
      == Success(ShellPayload(cmd, TIMEOUT_RETURNCODE, Truncate(partial), "TIMEOUT after 30s"))
  {
    assert IntToString(30) == "30";
    assert TimeoutText(DEFAULT_TIMEOUT_SECONDS) == "TIMEOUT after 30s";
  }

  /** As written, a run that printed anything before timing out raises
      instead of returning the 124 payload: one byte is logged and then
      fails to serialise, and more than `STDIO_LIMIT` bytes fail before the
      event is logged. */
  lemma PartialOutputRaises(cmd: string, timeoutSeconds: int)
    ensures TimeoutAsWritten(cmd, timeoutSeconds, Some([46])).RaisedAfterLog?
    ensures TimeoutAsWritten(cmd, timeoutSeconds, Some(seq(STDIO_LIMIT + 1, _ => 46))).RaisedBeforeLog?
  {
  }

  /** With no partial output the code as written and the model agree: both
      return the 124 payload with an empty `stdout`. */
  lemma TimeoutAgreesWhenSilent(ctx: RunContext, cmd: string, timeoutSeconds: int, captured: Option<seq<bv8>>)
    requires Classify(cmd).None? && (captured.None? || captured.value == [])
    ensures TimeoutAsWritten(cmd, timeoutSeconds, captured).Returned?
    ensures Success(TimeoutAsWritten(cmd, timeoutSeconds, captured).payload)
      == RunCmd(ctx, cmd, timeoutSeconds, true, TimedOut("")).result
    ensures TimeoutAsWritten(cmd, timeoutSeconds, captured).payload.stdout == ""
  {
  }

  /** `pip install requests` is refused as an install. */
  lemma PipInstallRefused()
    ensures Classify("pip install requests") == Some(Install)
  {
    var cmd := "pip install requests";
    PipSpan(cmd);
    assert INSTALL_PHRASES[0] == ["pip", "install"];
    InstallWitness(cmd, 0, 0, 11);
  }

  lemma PipSpan(cmd: string)
    requires cmd == "pip install requests"
    ensures PhraseAt(cmd, 0, 11, ["pip", "install"])
  {
    assert EqNoCaseAt(cmd, 0, "pip");
    assert BlankSpan(cmd, 3, 4);
    assert EqNoCaseAt(cmd, 4, "install");
    TwoWordSpan(cmd, 0, 4, "pip", "install");
    assert WordBoundary(cmd, 0) && WordBoundary(cmd, 11);
  }

  /** Install patterns are tested first: a command that both changes
      directory and installs is reported as an install. */
  lemma InstallBeforeEscape()
    ensures Classify("cd x && NPM   install y") == Some(Install)
  {
    var cmd := "cd x && NPM   install y";
    NpmSpan(cmd);
    assert INSTALL_PHRASES[8] == ["npm", "install"];
    InstallWitness(cmd, 8, 8, 21);
  }

  lemma NpmSpan(cmd: string)
    requires cmd == "cd x && NPM   install y"
    ensures PhraseAt(cmd, 8, 21, ["npm", "install"])
  {
    assert EqNoCaseAt(cmd, 8, "npm");
    assert BlankSpan(cmd, 11, 14);
    assert EqNoCaseAt(cmd, 14, "install");
    TwoWordSpan(cmd, 8, 14, "npm", "install");
    assert WordBoundary(cmd, 8) && WordBoundary(cmd, 21);
  }

  /** Two words separated by whitespace make a two-word phrase span. */
  lemma TwoWordSpan(s: string, i: nat, m: nat, w1: string, w2: string)
    requires i + |w1| < m && m + |w2| <= |s|
    requires EqNoCaseAt(s, i, w1) && BlankSpan(s, i + |w1|, m) && EqNoCaseAt(s, m, w2)
    ensures PhraseSpan(s, i, m + |w2|, [w1, w2])
  {
    assert [w1, w2][1..] == [w2];
    assert PhraseSpan(s, m, m + |w2|, [w2]);
  }

  /** A span of blocklist phrase `p` between word boundaries is an install
      command. */
  lemma InstallWitness(cmd: string, p: nat, i: nat, j: nat)
    requires p < |INSTALL_PHRASES| && i <= j <= |cmd|
    requires PhraseAt(cmd, i, j, INSTALL_PHRASES[p])
    ensures Classify(cmd) == Some(Install)
  {
  }

  /** Directory changes, parent traversal, absolute and home paths are
      escapes. */
  lemma EscapeCd()
    ensures IsEscapeCommand("cd work")
    ensures IsEscapeCommand("ls; cd ..")
  {
    assert CdAt("cd work", 0);
    var c := "ls; cd ..";
    assert EqNoCaseAt(c, 4, "cd") && IsSpace(c[6]) && IsSpace(c[3]);
    assert CdAt(c, 4);
  }

  lemma EscapePaths()
    ensures IsEscapeCommand("cat ../secret")
    ensures IsEscapeCommand("ls /etc")
    ensures IsEscapeCommand("cat ~/.ssh/id")
  {
    var c := "cat ../secret";
    assert StartsWith(c[4..], "../");
    assert LeadingAt("ls /etc", 3, '/');
    assert LeadingAt("cat ~/.ssh/id", 4, '~');
  }

  /** Heredoc bodies are scanned like the rest of the command: a `cd` on a
      line of its own inside one refuses the whole command. */
  lemma HeredocBodyScanned()
    ensures Classify(HEREDOC_CD) == Some(Escape)
  {
    HeredocNotInstall(HEREDOC_CD);
    HeredocEscape(HEREDOC_CD);
  }

  const HEREDOC_CD := "more <<EOF\ncd /\nEOF"

  lemma HeredocNotInstall(cmd: string)
    requires cmd == HEREDOC_CD
    ensures !IsInstallCommand(cmd)
  {
    assert forall k :: 0 <= k < |cmd| ==> cmd[k] != 'a' && cmd[k] != 'A' && cmd[k] != 'i' && cmd[k] != 'I';
    NoVerbNoInstall(cmd);
  }

  /** Without the letters of `add` and `install` no blocklist phrase can match. */
  lemma NoVerbNoInstall(cmd: string)
    requires forall k :: 0 <= k < |cmd| ==> cmd[k] != 'a' && cmd[k] != 'A' && cmd[k] != 'i' && cmd[k] != 'I'
    ensures !IsInstallCommand(cmd)
  {
    forall k | 0 <= k <= |cmd| ensures !EqNoCaseAt(cmd, k, "install") && !EqNoCaseAt(cmd, k, "add") {
      if k < |cmd| {
        var c := cmd[k];
        assert LowerChar(c) != 'i' && LowerChar(c) != 'a';
        assert "install"[0] == 'i' && "add"[0] == 'a';
        assert cmd[k + 0] == c;
      }
    }
    if IsInstallCommand(cmd) {
      InstallNeedsVerb(cmd);
    }
  }

  lemma HeredocEscape(cmd: string)
    requires cmd == HEREDOC_CD
    ensures IsEscapeCommand(cmd)
  {
    assert EqNoCaseAt(cmd, 11, "cd") && IsSpace(cmd[13]) && IsSpace(cmd[10]);
    assert CdAt(cmd, 11);
  }

  /** A pattern found in a text starts with a character of the text. */
  lemma ContainsHead(s: string, p: string)
    requires p != [] && Contains(s, p)
    ensures exists k :: 0 <= k < |s| && s[k] == p[0]
  {
    var i :| 0 <= i <= |s| && StartsWith(s[i..], p);
    assert s[i..][0] == s[i];
  }

  /** `ls -la` contains neither verb of the blocklist. */
  lemma LsNotInstall()
    ensures !IsInstallCommand("ls -la")
  {
    var cmd := "ls -la";
    if IsInstallCommand(cmd) {
      InstallNeedsVerb(cmd);
    }
  }

  lemma LsNotEscape()
    ensures !IsEscapeCommand("ls -la")
  {
    var cmd := "ls -la";
    assert forall k :: 0 <= k < |cmd| ==> cmd[k] != '.' && cmd[k] != '/' && cmd[k] != '~';
    assert forall k :: 0 <= k < |cmd| ==> LowerChar(cmd[k]) != 'c';
    if Contains(cmd, "../") { ContainsHead(cmd, "../"); }
    if Contains(cmd, "..\\") { ContainsHead(cmd, "..\\"); }
    forall i | 0 <= i <= |cmd| ensures !CdAt(cmd, i) {
      if i + 2 <= |cmd| {
        assert LowerChar(cmd[i + 0]) != "cd"[0];
      }
    }
  }

  /** A plain command in the workspace is neither kind: `ls -la` runs. */
  lemma PlainCommandRuns()
    ensures Classify("ls -la") == None
  {
    LsNotInstall();
    LsNotEscape();
  }
}

=== FILE: utils.dfy ===
/** Placeholder detection of `orchestrator/utils.py`: decides whether a task or
    backlog file has any real content. */
module Utils {
  import opened Text

  /** Lines that consist only of one of these tokens (in any case) are placeholders. */
  const PLACEHOLDER_TOKENS: set<string> := {"TODO"}

  /** A stripped line that carries content: not blank, not a `#` comment and
      not a placeholder token. */
  predicate IsContentLine(line: string)
  {
    line != "" && line[0] != '#' && Upper(line) !in PLACEHOLDER_TOKENS
  }

  /** None of the lines is a content line once stripped. */
  predicate NoContent(lines: seq<string>)
  {
    forall i :: 0 <= i < |lines| ==> !IsContentLine(Strip(lines[i]))
  }

  /** `[line.strip() for line in lines]` filtered to the content lines. */
  function ContentLines(lines: seq<string>): (r: seq<string>)
    ensures |r| == 0 <==> NoContent(lines)
    decreases |lines|
  {
    if lines == [] then []
    else
      var l := Strip(lines[0]);
      var rest := ContentLines(lines[1..]);
      assert forall i :: 1 <= i < |lines| ==> lines[i] == lines[1..][i - 1];
      (if IsContentLine(l) then [l] else []) + rest
  }

  /** `is_effectively_empty`: a text is effectively empty exactly when none of
      its stripped lines is a content line. The early exit for empty and
      blank text agrees with that rule. */
  function IsEffectivelyEmpty(text: string): (r: bool)
    ensures r <==> NoContent(Lines(text))
  {
    if text == "" || Strip(text) == "" then
      BlankLines(text);
      true
    else
      |ContentLines(Lines(text))| == 0
  }

  lemma NoContentAppend(a: seq<string>, b: seq<string>)
    ensures NoContent(a + b) <==> NoContent(a) && NoContent(b)
  {
    if NoContent(a) && NoContent(b) {
      forall i | 0 <= i < |a + b| ensures !IsContentLine(Strip((a + b)[i])) {
        if i < |a| { assert (a + b)[i] == a[i]; } else { assert (a + b)[i] == b[i - |a|]; }
      }
    }
    if NoContent(a + b) {
      forall i | 0 <= i < |a| ensures !IsContentLine(Strip(a[i])) {
        assert (a + b)[i] == a[i];
      }
      forall i | 0 <= i < |b| ensures !IsContentLine(Strip(b[i])) {
        assert (a + b)[|a| + i] == b[i];
      }
    }
  }

  /** Appending blank, comment or placeholder lines never changes the result. */
  lemma AppendNoise(text: string, extra: string)
    requires NoContent(Lines(extra))
    ensures IsEffectivelyEmpty(text + ['\n'] + extra) == IsEffectivelyEmpty(text)
  {
    SplitAppend(text, extra, '\n');
    NoContentAppend(Lines(text), Lines(extra));
  }

  /** Text made only of comments and `TODO` lines is effectively empty. */
  lemma PlaceholdersOnly(text: string)
    requires forall i :: 0 <= i < |Lines(text)| ==>
      var l := Strip(Lines(text)[i]); l == "" || l[0] == '#' || Upper(l) == "TODO"
    ensures IsEffectivelyEmpty(text)
  {
  }

  /** One content line is enough to make a text non-empty. */
  lemma ContentLineWitness(text: string, i: nat)
    requires i < |Lines(text)| && IsContentLine(Strip(Lines(text)[i]))
    ensures !IsEffectivelyEmpty(text)
  {
  }
}
